=== FILE: README.md ===
# Ficbook downloader: text restructuring core

This project models the part of the ficbook downloader userscript (`script.js`) that turns the
HTML of a story page into e-book text. It also proves what that part promises. The modelled
pieces are:

- the helpers `escapeXml`, `normalizeText` and `safeFilename`;
- the tag de-duplication and the chapter grouping of `parseStory`;
- the sanitizer `cloneAndSanitize`;
- the EPUB converter (`xhtmlInline`, `xhtmlBlocksFromNode`);
- the FB2 converter (`fb2Inline`, `fb2BlocksFromNode`).

## Modules

- `Text`: JavaScript's `\s` class, `trim()`, and the regular-expression rewrites the script uses.
  It also holds `split`/`join`, `normalizeText`, the decimal rendering of a list number, and the
  upper- and lower-case mappings.
- `Escape`: `escapeXml` and its reference inverse `UnescapeXml`.
- `Filename`: `safeFilename`.
- `Tags`: the tag de-duplication. A method with the script's `seen` set is checked against a
  reference definition.
- `Chapters`: the chapter pass over the container's children. The script's pass (a state threaded
  child by child) is proved equal to a segment-wise reference definition: cut at chapter starts,
  build each chapter from its segment, keep those with a body.
- `Dom`: the node tree (text, element, any other node kind), `getAttribute` and `textContent`.
- `Sanitize`: `cloneAndSanitize`.
- `Markup`: tag removal, the yardstick for the inline renderers. Everything from `<` up to the
  next `>` counts as markup.
- `Flow`: what both converters share:
  - `BLOCK_TAGS`;
  - the direct `li` children of a list;
  - the `replace(/\n+/g, ' ').trim()` one-line text;
  - the text of a `pre` block;
  - the plain text of an inline node.
- `Flow` also holds the list loop shared by both converters: the non-empty item lines, numbered
  from 1 in an ordered list.
- `Epub`, `Fb2`: the two converters. Each has:
  - a block datatype, whose `Render` gives the exact markup string the script pushes;
  - the walk state: the collected paragraph and the output, plus `lastWasBreak` in FB2;
  - `Flush` and `Walk`;
  - the note tail clean-up.

  The EPUB walk takes the tail clean-up as a parameter (`Epub.TailRule`). `XhtmlBlocksFromNode`
  uses the script's clean-up, in the note and in every nested quote.
  `XhtmlBlocksFromNodeIntended` uses the intended one; see "## Findings".

The walk is a family of pure functions (`Walk`, `BlockStep`, `WalkSeq`, `TextRun`). They thread
the state explicitly, and each carries the invariant the output keeps:

- every block is well formed;
- a spacer (`empty-line`) is never first;
- a note holds no spacer.

In FB2, the invariant also says that outside notes, when `lastWasBreak` is set and something has
been emitted, the output ends in a spacer. In a note, a rule sets the flag without emitting one.

The invariant alone does not say what is emitted. The walk-step lemmas of each converter state it
node kind by node kind: text, `br`, block elements, `p`/`div`, quotes, rules and inline nodes.
`WalkSeqAppend` composes them over runs of siblings.

## Model

| member | source | states |
|---|---|---|
| Escape.EscapeXml | script.js:55-67 | Escaping never shortens the text: each character maps to itself or to a longer entity. |
| Escape.EscapeClean | script.js:55-67 | The output never contains `<`, `>`, `'` or `"`, and a text without the five special characters comes back unchanged. |
| Escape.UnescapeEscape | script.js:55-67 | Escaping loses nothing: replacing the five entities back gives the original text, for every input. |
| Escape.EscapeInjective | script.js:55-67 | Two texts with the same escaped form are equal. |
| Escape.AmpersandsOpenEntities | script.js:55-67 | Every `&` in the output starts one of `&lt;`, `&gt;`, `&amp;`, `&apos;`, `&quot;`. |
| Escape.EscapeAppend | script.js:57-66 | The global replace works character by character, so escaping a concatenation is the concatenation of the escapes. |
| Filename.SafeFilename | script.js:69-75 | The returned name is 1 to 180 characters long and does not start with white space. It has no `\ / : * ? " < > \|`, no white space other than single plain spaces, and a blank input gives `ficbook`. |
| Filename.SafeNameIsFixpoint | script.js:69-75 | A name already in that shape, not ending in a space, comes back unchanged. |
| Filename.ReplaceForbidden | script.js:71 | Each of `\ / : * ? " < > \|` becomes `_`, and every other character is kept in place. |
| Filename.Cleaned | script.js:70-72 | After the two replaces, no forbidden character is left and every white-space run is one plain space. A blank input stays blank. A text with no white space only has its forbidden characters replaced. |
| Filename.SafeNameOfPlain | script.js:69-75 | A name of 1 to 180 characters with no white space comes back with its forbidden characters replaced, and otherwise unchanged. |
| Filename.TrimAndCut | script.js:73-74 | `trim().slice(0, 180)` keeps the character properties, gives at most 180 characters with no leading white space, and is empty exactly when the input is blank. |
| Text.NormalizeText | script.js:94-97 | No NBSP is left and the number of line feeds is kept, so `split('\n')` yields as many lines. Only spaces or input characters appear. On a text without CR, every NBSP becomes a space and every other character stays in place. |
| Text.NormalizeCrlf | script.js:94-97 | A CR LF pair, after a first line without CR, becomes one LF. The lines on either side are normalized on their own. |
| Text.NormalizeAround | script.js:94-97 | Normalizing works line by line once the first line holds no CR. |
| Text.ReplaceCrlfFacts | script.js:96 | The CR LF rewrite keeps the line-feed count, introduces no character, and is the identity on text without CR. |
| Text.ReplaceCrlfAtPair | script.js:96 | The first CR LF pair, after a prefix without CR, becomes one LF; the prefix is kept and the rest is rewritten on its own. |
| Text.ReplaceCrlfLoneCr | script.js:96 | A CR not followed by LF is kept. |
| Text.TrimPadding | script.js:312 | `trim()` keeps exactly the text between a blank prefix and a blank suffix of its input. |
| Text.TrimParagraph | script.js:311-312 | The paragraph text is exactly `trim()` of the collected text. The leading space/tab removal is subsumed by it. The result is empty exactly when the text is blank, and is trimmed otherwise. |
| Text.TrimIdempotent | script.js:312 | `trim()` applied twice is `trim()` applied once. |
| Text.SplitThenJoin | script.js:296 | Joining the pieces of `split('\n')` with line feeds gives back the text. |
| Text.JoinThenSplit | script.js:296 | Splitting a join of separator-free pieces gives back the pieces. |
| Text.CollapseRunsSingle | script.js:72 | After `replace(/\s+/g, ' ')`, no two neighbouring characters are both white space. |
| Text.DecimalRoundTrip | script.js:377 | The decimal text of a list number reads back as that number, so distinct numbers render distinctly. |
| Tags.DedupTags | script.js:176-185 | The `seen`-set filter returns the first occurrences. Keys (lower-cased texts) are distinct and cover every input key, and the kept tags are a subsequence of the input, in input order. |
| Tags.FirstOccurrencesProperties | script.js:176-185 | The reference first-occurrence list has distinct keys, the same key set as the input, and is a subsequence of it. |
| Chapters.ParseChapters | script.js:187-229 | The chapter list equals the segment-wise reference, and every chapter in it has content or a note. |
| Chapters.RefGroupEquals | script.js:187-227 | The child-by-child pass with `pushCurrent` computes the reference for every role sequence. There are no more chapters than chapter starts, and each has a body. |
| Chapters.Group | script.js:191-227 | Every chapter kept by `pushCurrent` has content or a note, and there are at most as many chapters as starts. |
| Chapters.LeadingChildrenIgnored | script.js:210 | Children before the first chapter start never affect the result. |
| Chapters.GroupSplitsAtStart | script.js:197-208 | Cutting the children just before a chapter start and grouping the halves gives the same chapters, in document order. |
| Chapters.LastContentIsLast | script.js:217-220 | The content of a chapter is the last `part_text` child before the next start. |
| Sanitize.CloneAndSanitize | script.js:237-259 | No removed kind of element and no attribute other than a link's `href` is left below the root. The root keeps its tag and attributes, and the copy is no larger. The root's children are the cleaned children, and every child that is not removed survives as its cleaned copy. |
| Sanitize.CleanSeqAppend | script.js:240-257 | Cleaning a run of siblings is cleaning each part and concatenating. With `CleanSeqSingle`, the result is the cleaned copies of exactly the children not removed, in document order. |
| Sanitize.CleanSeqSingle | script.js:240-257 | A single node is either removed with its subtree or kept as its cleaned copy. |
| Sanitize.CleanSeqKeeps | script.js:240-257 | A child that is not removed appears, cleaned, between the cleaned children before it and those after it. |
| Sanitize.CleanNode | script.js:247-256 | A kept element keeps its tag, and its children are its cleaned children. Its attributes are exactly the surviving ones: only a link with a non-empty `href` keeps one attribute, the decoded target. Text and other nodes are kept as they are. |
| Sanitize.CleanKeepsShape | script.js:240-257 | A subtree with no removed kind of element loses no node at any depth: once attributes are erased, its cleaned copy is the subtree itself. |
| Sanitize.SanitizeKeepsShape | script.js:237-259 | A fragment with no removed kind of element keeps its whole tree: sanitizing changes attributes only. |
| Sanitize.SanitizeIdempotent | script.js:237-259 | Sanitizing a sanitized fragment again, as a nested quote does, changes nothing, provided decoding is idempotent and never empties a target. |
| Flow.ItemsOf | script.js:371 | `:scope > li` yields only `li` children and every `li` child. A list of only items yields all its children, and a single child yields itself exactly when it is an `li`. |
| Flow.ItemsOfAppend | script.js:371 | The items of two runs of children are the items of the first run followed by those of the second, so the items come in document order. |
| Flow.ListNumbering | script.js:372-380 | One entry per non-empty line, in order. The k-th entry of an ordered list is numbered `idx + k`, so blank items use no number. Entries of a bulleted list carry none. |
| Flow.LineText | script.js:375 | The one-line text has no line feed. It is empty exactly when the rendered item is blank after collapsing, and trimmed otherwise. |
| Flow.LineTextIsSlice | script.js:375 | The one-line text is the collapsed item text with its surrounding white space cut off: the collapsed text is white space, then the result, then white space. |
| Flow.LineTextOfLine | script.js:375 | On an item of one line, the one-line text is its `trim()`, and an already trimmed line comes back unchanged. |
| Flow.PreTextStrips | script.js:359 | The preformatted text is the normalized text content minus a run of trailing line feeds, and nothing else. |
| Epub.InlineStrips | script.js:261-292 | With its markup removed, `xhtmlInline` output is exactly the escaped plain text of the node, and every tag it opens it closes. |
| Epub.InlineRoundTrip | script.js:261-292 | Unescaping the text of the inline markup gives back the node's plain text: no text is lost or invented. |
| Epub.Flush | script.js:307-322 | A flush empties the collected paragraph and only appends well-formed blocks to the output. |
| Epub.FlushEmits | script.js:307-322 | A paragraph with the trimmed text is emitted when there is text. Otherwise a spacer is emitted exactly when forced, outside notes, after an earlier block, and nothing else changes. |
| Epub.ListStep | script.js:370-381 | A list appends exactly its item paragraphs after the blocks already emitted, keeps the collected paragraph and keeps the output well formed. |
| Epub.ListStepItems | script.js:370-381 | The appended items are one per direct `li` with non-empty one-line text, in document order. In an `ol` the k-th is numbered k + 1; in a `ul` none is numbered. |
| Epub.PreStep | script.js:358-362 | A `pre` block appends exactly one preformatted block holding its text when that text is not blank, and nothing otherwise. |
| Epub.LineStep | script.js:383-393 | A stray `li` appends exactly one bulleted item, and a heading exactly one heading, holding its one-line text when that is non-empty, and nothing otherwise. |
| Epub.Walk | script.js:328-403 | Walking any node only appends to the output and keeps it well formed. What each kind of node appends is stated by the walk-step lemmas below. |
| Epub.WalkSeqAppend | script.js:396 | `forEach(walk)` over two runs of siblings is the walk of the first run, then of the second from where it stopped. |
| Epub.WalkBlock | script.js:349-351 | A block element flushes the collected paragraph without a spacer, then takes its block step on the flushed state. |
| Epub.WalkBlockAfterParagraph | script.js:349-351 | So what a block element appends comes after the flushed blocks. When text was collected, the next block is the paragraph of its trimmed text. |
| Epub.WalkContainer | script.js:395-398 | A `p` or `div` walks its children after a flush and flushes again, both without a spacer. |
| Epub.WalkQuote | script.js:364-368 | A `blockquote` appends exactly one quote block of its own converted blocks when those are not blank, and nothing otherwise, after the flushed paragraph. |
| Epub.WalkRule | script.js:353-356 | An `hr` appends exactly one rule after the flushed paragraph. |
| Epub.WalkInline | script.js:401-402 | An inline element, a one-line text or another kind of node only extends the collected paragraph by its `xhtmlInline` markup. |
| Epub.WalkSeqInlines | script.js:395-402 | A run of inline siblings extends the collected paragraph by their joined markup and emits nothing. |
| Epub.WalkInlineParagraph | script.js:395-402 | A `p` or `div` of inline content becomes exactly one paragraph of its trimmed markup after the flushed paragraph, or nothing when that markup is blank. |
| Epub.CollectedInlines | script.js:300-406 | A fragment whose sanitized children are all inline collects into one paragraph of their trimmed markup, or into nothing when that is blank. |
| Epub.BlocksOfInlines | script.js:300-411 | Those are the fragment's blocks outside notes, and in notes under the intended tail clean-up. |
| Epub.BlocksOf | script.js:300-411 | The blocks of a fragment are well formed under either tail clean-up: no spacer first, none in a note. |
| Epub.ConvertersOnLineNote | script.js:300-411 | A note that is one plain line of text converts, as written, to what the script's clean-up leaves of that line's paragraph; the intended converter gives the paragraph. |
| Epub.ConvertersDifferOnMention | script.js:408-411 | The script's converter turns the note `<div>empty-line</div>` into the empty text; the intended converter gives `<p>empty-line</p>`. |
| Epub.WalkBreak | script.js:344-347 | A `br` forces a flush. |
| Epub.LineFeedActsAsBreak | script.js:331-347 | A line feed in a text node breaks the paragraph exactly like a `br` element. |
| Epub.WalkOneLine | script.js:331-339 | A text node without a line feed only extends the collected paragraph by its escaped, normalized text. |
| Epub.DoubleLineFeedFlushesTwice | script.js:331-337 | Two line feeds in a row flush twice. |
| Epub.SecondFlushIsSpacer | script.js:319-321 | The second of two forced flushes emits one spacer, exactly outside notes once something was emitted. A blank line becomes an `empty-line` block. |
| Epub.TrimNoteTail | script.js:408-411 | The corrected tail clean-up removes only trailing spacers, keeps a prefix, and keeps the blocks well formed. |
| Epub.NoteTailTrimKeepsAll | script.js:408-411 | A note never holds a spacer, so the clean-up leaves it unchanged. |
| Epub.TrimNoteTailAsWritten | script.js:410 | The clean-up as written keeps a prefix and removes only blocks whose markup contains `empty-line`. |
| Epub.AsWrittenDropsMention | script.js:410 | As written, a note whose last paragraph mentions `empty-line` loses that paragraph, although the corrected clean-up keeps it. |
| Epub.AsWrittenEmptiesNote | script.js:410 | As written, the note `<p>empty-line</p>` becomes empty. |
| Fb2.InlineStrips | script.js:575-604 | With its markup removed, `fb2Inline` output is exactly the escaped, normalized plain text of the node, and every tag it opens it closes. |
| Fb2.InlineRoundTrip | script.js:575-604 | Unescaping the text of the inline markup gives back the node's normalized plain text. |
| Fb2.UnderlineUnwrapped | script.js:588-603 | A `u` element has no FB2 counterpart: it renders as its children. |
| Fb2.RenderIsEmptyLine | script.js:726 | Only the spacer renders as `<empty-line/>`. |
| Fb2.ParagraphText | script.js:616-620 | Dropping leading spaces/tabs and trailing white space, then trimming, is exactly `trim()`. It is empty exactly for a blank text. |
| Fb2.Flush | script.js:614-632 | A flush empties the collected paragraph and keeps the invariant: the blocks are well formed, and outside notes a set break flag with a non-empty output is shown by a trailing spacer. |
| Fb2.FlushEmits | script.js:614-632 | A paragraph is emitted and the flag cleared when there is text. Otherwise a spacer is emitted and the flag set exactly when allowed, outside notes, after a block. Otherwise neither blocks nor flag change. |
| Fb2.HrStep | script.js:658-662 | A rule appends a spacer exactly outside notes, after a block, when the previous block was not a break. It always sets the flag. |
| Fb2.HrEndsInSpacer | script.js:658-662 | After a rule outside notes, the output is empty or ends in a spacer. |
| Fb2.HrTwiceIsHrOnce | script.js:653-662 | A second `hr` right after a first changes nothing. |
| Fb2.CodeLinesRoundTrip | script.js:664-672 | The code paragraphs of a `pre` block are exactly its lines, and joining them gives back the text. The NBSP removal never fires, because the text was normalized. |
| Fb2.PreStep | script.js:664-675 | A `pre` block appends exactly the code paragraphs of its lines when its text is not blank, and nothing otherwise. It keeps the collected paragraph and clears the break flag. |
| Fb2.ListStep | script.js:684-695 | A list appends exactly its item paragraphs, keeps the collected paragraph and the invariant, and clears the break flag. |
| Fb2.ListStepItems | script.js:684-695 | The appended items are one per direct `li` with non-empty one-line text, in document order. In an `ol` the k-th is numbered k + 1; in a `ul` none is numbered. |
| Fb2.LineStep | script.js:697-709 | A stray `li` appends exactly one bulleted item, and a heading exactly one subtitle, holding its one-line text when that is non-empty, and nothing otherwise. The flag is cleared. |
| Fb2.Walk | script.js:634-719 | Walking any node only appends to the output and keeps the invariant. What each kind of node appends is stated by the walk-step lemmas below. |
| Fb2.WalkOneLine | script.js:637-644 | A text node without a line feed only extends the collected paragraph by its escaped, normalized text. The break flag is kept. |
| Fb2.WalkBreak | script.js:650-653 | A `br` forces a flush. |
| Fb2.LineFeedActsAsBreak | script.js:637-653 | A line feed in a text node breaks the paragraph exactly like a `br` element. |
| Fb2.WalkSeqAppend | script.js:712 | `forEach(walk)` over two runs of siblings is the walk of the first run, then of the second from where it stopped. |
| Fb2.WalkBlock | script.js:655-656 | A block element flushes the collected paragraph without a spacer, then takes its block step on the flushed state. |
| Fb2.WalkBlockAfterParagraph | script.js:655-656 | So what a block element appends comes after the flushed blocks. When text was collected, the next block is the paragraph of its trimmed text. |
| Fb2.WalkContainer | script.js:711-714 | A `p` or `div` walks its children after a flush and flushes again, both without a spacer. |
| Fb2.WalkQuote | script.js:677-682 | A `blockquote` appends exactly one citation of its own converted blocks, trimmed, when that is not empty, and nothing otherwise, after the flushed paragraph. It clears the break flag. |
| Fb2.WalkRule | script.js:655-662 | An `hr` takes the rule step after the flushed paragraph. |
| Fb2.WalkInline | script.js:717-718 | An inline element, a one-line text or another kind of node only extends the collected paragraph by its `fb2Inline` markup. The break flag is kept. |
| Fb2.WalkSeqInlines | script.js:711-718 | A run of inline siblings extends the collected paragraph by their joined markup and emits nothing. |
| Fb2.WalkInlineParagraph | script.js:711-718 | A `p` or `div` of inline content becomes exactly one paragraph of its trimmed markup after the flushed paragraph, or nothing when that markup is blank. |
| Fb2.CollectedInlines | script.js:606-722 | A fragment whose sanitized children are all inline collects into one paragraph of their trimmed markup, or into nothing when that is blank. |
| Fb2.BlocksOfInlines | script.js:606-727 | Those are the fragment's blocks, in a note as elsewhere. |
| Fb2.ConvertsLineNote | script.js:606-729 | A `div` holding one line of text that needs no escaping or trimming converts, in a note or not, to the paragraph of that normalized line. |
| Fb2.BlocksOf | script.js:606-727 | The blocks of a fragment are well formed: no spacer first, none in a note. |
| Fb2.PopEmptyLines | script.js:724-727 | The tail clean-up keeps a prefix and removes only spacers. |
| Fb2.NoteTailPopKeepsAll | script.js:724-727 | A note never holds a spacer, so its tail clean-up removes nothing. |

## Left out

- `decodeAwayUrl` parses URLs against `location.href`. It is a parameter `decode` of the
  sanitizer and of both converters. Properties that need it assume it is idempotent and never
  empties a target (`Sanitize.StableDecoder`).
- A missing root (`if (!root) return ''`) cannot be expressed: every model node exists.
- The DOM queries of `parseStory` are answers stored with each child (`Chapters.Child`):
  - `classList`;
  - the `innerText` of the first `h2`;
  - the first `.urlized-links` descendant.

  Only the grouping logic is modelled.
- Everything outside the restructuring core is not part of this model:
  - the rest of `parseStory`;
  - fetching and the UI;
  - `buildEpub` and `buildFb2` with their templates, JSZip archives, `uuid` and dates.
- `emitEmptyLine` (script.js:324-326) is never called, so it is not modelled.
- `Text.UpperAscii`: tag names are upper-cased over ASCII letters only. JavaScript's
  `toUpperCase()` (script.js:249, 268, 342, 580, 648) also maps a few other letters to ASCII
  ones, such as `ı` to `I` and `ſ` to `S`. So a tag named `ı` renders as emphasis in the script
  but is unwrapped as an unknown tag here, and `dıv` is a block there but not here. Story markup
  does not use such tag names.
- `Tags.Key`: the lower-case mapping covers Latin and Cyrillic capitals only, not all of
  Unicode's case mapping.
- `Epub.BlocksOf`: its own contract states only that the blocks are well formed. What they
  hold is stated step by step by the walk-step lemmas (`Epub.WalkBlock`, `Epub.WalkContainer`,
  `Epub.WalkQuote`, `Epub.WalkInline`, `Epub.WalkSeqAppend` and the text-run lemmas). It is
  stated in closed form only for fragments of inline content (`Epub.BlocksOfInlines`) and
  for one-line notes (`Epub.ConvertersOnLineNote`), not for an arbitrary fragment.
- `Fb2.BlocksOf`: likewise only well-formedness. The content is stated by the FB2 walk-step
  lemmas, and in closed form by `Fb2.BlocksOfInlines` and `Fb2.ConvertsLineNote`.
- `Filename.SafeFilename`: the cut at 180 counts characters (code points). JavaScript's `slice`
  counts UTF-16 code units, so the two differ on names with characters outside the Basic
  Multilingual Plane.
- The model follows the code in these details:
  - The fragment's root element keeps its attributes, because `querySelectorAll('*')` visits only
    descendants.
  - A quote re-sanitizes its subtree, so link targets are decoded once more per quote level.
  - `fb2Inline` decodes a link target again.
  - The FB2 converter emits no rule for `hr`, only a spacer governed by `lastWasBreak`.
  - The FB2 converter renders a `pre` block as one code paragraph per line, empty lines
    included.
  - A note never receives a spacer at all. So the FB2 tail clean-up and the intended EPUB one
    have nothing to remove. The EPUB clean-up as written can still remove text (see "## Findings").

## Findings

| source | as written | input that shows it | evidently intended | confidence | as-written member | corrected member |
|---|---|---|---|---|---|---|
| script.js:408-411 | In a note, the tail clean-up pops while the last rendered block `.includes('empty-line')`. That also matches a paragraph whose own text contains those words. | A note whose only paragraph reads `empty-line`: the output `[<p>empty-line</p>]` becomes empty. | Remove only trailing `<p class="empty-line">` spacers, so a note's text is never dropped. | not executed | Epub.TrimNoteTailAsWritten, used by `Epub.XhtmlBlocksFromNode` (shown by Epub.AsWrittenDropsMention, Epub.AsWrittenEmptiesNote, Epub.ConvertersDifferOnMention) | Epub.TrimNoteTail, used by `Epub.XhtmlBlocksFromNodeIntended` (proved by Epub.NoteTailTrimKeepsAll) |

=== FILE: chapters.dfy ===
/**
 * The chapter grouping of `parseStory`: one left-to-right pass over the children of the
 * all-parts container. A `title-area` holding an `h2` opens a new chapter (closing the previous
 * one); `part-comment-top`, `part_text` and `part-comment-bottom` children fill the open chapter;
 * everything else, and everything before the first chapter start, is ignored. A closed chapter is
 * kept only when it got content or a note.
 */
module Chapters {
  import opened Wrappers
  import opened Text
  import opened Dom

  /**
   * One child of the container, with the answers of the DOM queries the pass makes: its class
   * list, the inner text of its first `h2` (None when it has none) and its first
   * `.urlized-links` descendant.
   */
  datatype Child = Child(classes: set<string>, h2Text: Option<string>, urlized: Option<Node>, node: Node)

  datatype Chapter = Chapter(title: string, noteTop: Option<Node>, content: Option<Node>, noteBottom: Option<Node>)

  /** What the pass does with a child, in the order the script tests it. */
  datatype Role = Start(title: string) | NoteTop(top: Node) | Content(text: Node) | NoteBottom(bottom: Node) | Ignored

  const DefaultTitle: string := "Глава"

  function RoleOf(c: Child): Role {
    if "title-area" in c.classes && c.h2Text.Some? then
      var t := Trim(c.h2Text.value);
      Start(if |t| > 0 then t else DefaultTitle)
    else if "part-comment-top" in c.classes then NoteTop(c.urlized.GetOr(c.node))
    else if "part_text" in c.classes then Content(c.node)
    else if "part-comment-bottom" in c.classes then NoteBottom(c.urlized.GetOr(c.node))
    else Ignored
  }

  function RolesOf(children: seq<Child>): (roles: seq<Role>)
    ensures |roles| == |children|
    ensures forall i :: 0 <= i < |children| ==> roles[i] == RoleOf(children[i])
  {
    seq(|children|, i requires 0 <= i < |children| => RoleOf(children[i]))
  }

  /** A chapter worth keeping: it has content or at least one note. */
  predicate HasBody(ch: Chapter) {
    ch.content.Some? || ch.noteTop.Some? || ch.noteBottom.Some?
  }

  // ---------------------------------------------------------------------------------------------
  // The pass as the script runs it: a chapter list and the open chapter, threaded child by child.

  datatype State = State(chapters: seq<Chapter>, current: Option<Chapter>)

  /** `pushCurrent`. */
  function Push(chapters: seq<Chapter>, current: Option<Chapter>): seq<Chapter>
  {
    if current.Some? && HasBody(current.value) then chapters + [current.value] else chapters
  }

  function Step(st: State, r: Role): State {
    match r
    case Start(t) => State(Push(st.chapters, st.current), Some(Chapter(t, None, None, None)))
    case NoteTop(n) => if st.current.None? then st else st.(current := Some(st.current.value.(noteTop := Some(n))))
    case Content(n) => if st.current.None? then st else st.(current := Some(st.current.value.(content := Some(n))))
    case NoteBottom(n) => if st.current.None? then st else st.(current := Some(st.current.value.(noteBottom := Some(n))))
    case Ignored => st
  }

  function Run(st: State, roles: seq<Role>): State
    decreases |roles|
  {
    if |roles| == 0 then st else Run(Step(st, roles[0]), roles[1..])
  }

  /** The pass over classified children. */
  function Group(roles: seq<Role>): (r: seq<Chapter>)
    ensures forall i :: 0 <= i < |r| ==> HasBody(r[i])
    ensures |r| <= CountStarts(roles)
  {
    var st := Run(State([], None), roles);
    RefGroupEquals(roles);
    Push(st.chapters, st.current)
  }

  /** The chapter list `parseStory` returns. */
  function ParseChapters(children: seq<Child>): (r: seq<Chapter>)
    ensures r == RefGroup(RolesOf(children))
    ensures forall i :: 0 <= i < |r| ==> HasBody(r[i])
  {
    GroupIsReference(RolesOf(children));
    Group(RolesOf(children))
  }

  // ---------------------------------------------------------------------------------------------
  // Reference definition: cut the roles into segments at chapter starts, build each chapter
  // from its segment, keep those with a body.

  function CountStarts(roles: seq<Role>): nat {
    if |roles| == 0 then 0 else (if roles[0].Start? then 1 else 0) + CountStarts(roles[1..])
  }

  /** The index of the first chapter start at or after `from`, or the length. */
  function NextStart(roles: seq<Role>, from: nat): (k: nat)
    requires from <= |roles|
    ensures from <= k <= |roles|
    ensures k < |roles| ==> roles[k].Start?
    ensures forall i :: from <= i < k ==> !roles[i].Start?
    decreases |roles| - from
  {
    if from == |roles| || roles[from].Start? then from else NextStart(roles, from + 1)
  }

  /** The node of the last child of `body` with the given role; later ones win. */
  function LastTop(body: seq<Role>): Option<Node> {
    if |body| == 0 then None
    else
      var later := LastTop(body[1..]);
      if later.Some? then later else if body[0].NoteTop? then Some(body[0].top) else None
  }

  function LastContent(body: seq<Role>): Option<Node> {
    if |body| == 0 then None
    else
      var later := LastContent(body[1..]);
      if later.Some? then later else if body[0].Content? then Some(body[0].text) else None
  }

  function LastBottom(body: seq<Role>): Option<Node> {
    if |body| == 0 then None
    else
      var later := LastBottom(body[1..]);
      if later.Some? then later else if body[0].NoteBottom? then Some(body[0].bottom) else None
  }

  /** The chapter a segment describes: its title and the last note/content of each kind. */
  function Assemble(title: string, body: seq<Role>): Chapter {
    Chapter(title, LastTop(body), LastContent(body), LastBottom(body))
  }

  function Keep(ch: Chapter): seq<Chapter> {
    if HasBody(ch) then [ch] else []
  }

  function RefGroup(roles: seq<Role>): seq<Chapter>
    decreases |roles|
  {
    if |roles| == 0 then []
    else if !roles[0].Start? then RefGroup(roles[1..])
    else
      var k := NextStart(roles, 1);
      Keep(Assemble(roles[0].title, roles[1..k])) + RefGroup(roles[k..])
  }

  // ---------------------------------------------------------------------------------------------
  // The pass computes the reference definition.

  /** Overrides `earlier` with `later` when `later` is present. */
  function Latest(earlier: Option<Node>, later: Option<Node>): Option<Node> {
    if later.Some? then later else earlier
  }

  /** Inside a segment the open chapter absorbs each child; later roles override. */
  lemma {:induction false} RunBody(chapters: seq<Chapter>, ch: Chapter, body: seq<Role>)
    requires forall i :: 0 <= i < |body| ==> !body[i].Start?
    ensures Run(State(chapters, Some(ch)), body)
         == State(chapters, Some(Chapter(ch.title, Latest(ch.noteTop, LastTop(body)),
                                         Latest(ch.content, LastContent(body)),
                                         Latest(ch.noteBottom, LastBottom(body)))))
    decreases |body|
  {
    if |body| > 0 {
      var st := Step(State(chapters, Some(ch)), body[0]);
      assert st.chapters == chapters && st.current.Some?;
      RunBody(chapters, st.current.value, body[1..]);
    }
  }

  lemma {:induction false} RunAppend(st: State, a: seq<Role>, b: seq<Role>)
    ensures Run(st, a + b) == Run(Run(st, a), b)
    decreases |a|
  {
    if |a| > 0 {
      assert (a + b)[1..] == a[1..] + b;
      RunAppend(Step(st, a[0]), a[1..], b);
    } else {
      assert a + b == b;
    }
  }

  /** One chapter's segment: the start pushes the open chapter and the segment assembles the new one. */
  lemma RunSegment(chapters: seq<Chapter>, current: Option<Chapter>, roles: seq<Role>)
    requires |roles| > 0 && roles[0].Start?
    ensures var k := NextStart(roles, 1);
      Run(State(chapters, current), roles[..k])
        == State(Push(chapters, current), Some(Assemble(roles[0].title, roles[1..k])))
  {
    var k := NextStart(roles, 1);
    var body := roles[1..k];
    var p := Push(chapters, current);
    var started := Chapter(roles[0].title, None, None, None);
    assert Step(State(chapters, current), roles[0]) == State(p, Some(started));
    assert roles[..k][1..] == body;
    assert Run(State(chapters, current), roles[..k]) == Run(State(p, Some(started)), body);
    assert forall i :: 0 <= i < |body| ==> body[i] == roles[1 + i];
    RunBody(p, started, body);
  }

  /** The pass over a document from a chapter start resumes after that chapter's segment. */
  lemma RunSkipsSegment(chapters: seq<Chapter>, current: Option<Chapter>, roles: seq<Role>)
    requires |roles| > 0 && roles[0].Start?
    ensures var k := NextStart(roles, 1);
      Run(State(chapters, current), roles)
        == Run(State(Push(chapters, current), Some(Assemble(roles[0].title, roles[1..k]))), roles[k..])
  {
    var k := NextStart(roles, 1);
    assert roles == roles[..k] + roles[k..];
    RunAppend(State(chapters, current), roles[..k], roles[k..]);
    RunSegment(chapters, current, roles);
  }

  lemma RefGroupAtStart(roles: seq<Role>)
    requires |roles| > 0 && roles[0].Start?
    ensures var k := NextStart(roles, 1);
      RefGroup(roles) == Keep(Assemble(roles[0].title, roles[1..k])) + RefGroup(roles[k..])
  {
  }

  /** From a chapter start on, the pass emits the open chapter and then the reference chapters. */
  lemma {:induction false} RunFromStart(chapters: seq<Chapter>, current: Option<Chapter>, roles: seq<Role>)
    requires |roles| > 0 && roles[0].Start?
    ensures var st := Run(State(chapters, current), roles);
      Push(st.chapters, st.current) == Push(chapters, current) + RefGroup(roles)
    decreases |roles|
  {
    var k := NextStart(roles, 1);
    var tail := roles[k..];
    var p := Push(chapters, current);
    var ch := Assemble(roles[0].title, roles[1..k]);
    var st := Run(State(p, Some(ch)), tail);
    RunSkipsSegment(chapters, current, roles);
    RefGroupAtStart(roles);
    if |tail| == 0 {
      assert st == State(p, Some(ch));
      assert RefGroup(tail) == [];
    } else {
      RunFromStart(p, Some(ch), tail);
    }
    PushAssoc(p, ch, RefGroup(tail));
  }

  lemma PushAssoc(p: seq<Chapter>, ch: Chapter, rest: seq<Chapter>)
    ensures Push(p, Some(ch)) + rest == p + (Keep(ch) + rest)
  {
  }

  lemma {:induction false} RunMatchesReference(chapters: seq<Chapter>, roles: seq<Role>)
    ensures var st := Run(State(chapters, None), roles);
      Push(st.chapters, st.current) == chapters + RefGroup(roles)
    decreases |roles|
  {
    if |roles| == 0 {
    } else if !roles[0].Start? {
      RunMatchesReference(chapters, roles[1..]);
    } else {
      RunFromStart(chapters, None, roles);
    }
  }

  lemma {:induction false} RefGroupShape(roles: seq<Role>)
    ensures forall i :: 0 <= i < |RefGroup(roles)| ==> HasBody(RefGroup(roles)[i])
    ensures |RefGroup(roles)| <= CountStarts(roles)
    decreases |roles|
  {
    if |roles| > 0 {
      if !roles[0].Start? {
        RefGroupShape(roles[1..]);
      } else {
        var k := NextStart(roles, 1);
        RefGroupShape(roles[k..]);
        assert roles[1..][k - 1..] == roles[k..];
        CountStartsDrop(roles[1..], k - 1);
      }
    }
  }

  lemma {:induction false} CountStartsDrop(roles: seq<Role>, n: nat)
    requires n <= |roles|
    ensures CountStarts(roles[n..]) <= CountStarts(roles)
    decreases n
  {
    if n > 0 {
      assert roles[1..][n - 1..] == roles[n..];
      CountStartsDrop(roles[1..], n - 1);
    }
  }

  /** The pass and the segment-wise reference definition agree on every input. */
  lemma RefGroupEquals(roles: seq<Role>)
    ensures var st := Run(State([], None), roles);
      Push(st.chapters, st.current) == RefGroup(roles)
    ensures forall i :: 0 <= i < |RefGroup(roles)| ==> HasBody(RefGroup(roles)[i])
    ensures |RefGroup(roles)| <= CountStarts(roles)
  {
    RunMatchesReference([], roles);
    RefGroupShape(roles);
  }

  // ---------------------------------------------------------------------------------------------
  // Consequences.

  lemma GroupIsReference(roles: seq<Role>)
    ensures Group(roles) == RefGroup(roles)
  {
    RefGroupEquals(roles);
  }

  /** Roles before the first chapter start never influence the result. */
  lemma {:induction false} LeadingRolesIgnored(lead: seq<Role>, rest: seq<Role>)
    requires forall i :: 0 <= i < |lead| ==> !lead[i].Start?
    ensures Group(lead + rest) == Group(rest)
    decreases |lead|
  {
    GroupIsReference(lead + rest);
    GroupIsReference(rest);
    if |lead| > 0 {
      assert (lead + rest)[1..] == lead[1..] + rest;
      LeadingRolesIgnored(lead[1..], rest);
      GroupIsReference(lead[1..] + rest);
    } else {
      assert lead + rest == rest;
    }
  }

  /**
   * Chapters come out in document order: grouping a document cut just before a chapter start is
   * grouping the two halves and concatenating.
   */
  lemma {:induction false} GroupSplitsAtStart(a: seq<Role>, b: seq<Role>)
    requires |b| == 0 || b[0].Start?
    ensures Group(a + b) == Group(a) + Group(b)
  {
    GroupIsReference(a + b);
    GroupIsReference(a);
    GroupIsReference(b);
    RefGroupAppend(a, b);
  }

  lemma {:induction false} RefGroupAppend(a: seq<Role>, b: seq<Role>)
    requires |b| == 0 || b[0].Start?
    ensures RefGroup(a + b) == RefGroup(a) + RefGroup(b)
    decreases |a|
  {
    var ab := a + b;
    if |a| == 0 {
      assert ab == b;
    } else if !a[0].Start? {
      assert ab[0] == a[0] && ab[1..] == a[1..] + b;
      RefGroupAppend(a[1..], b);
    } else {
      RefGroupAppend(a[NextStart(a, 1)..], b);
      RefGroupStartAppend(a, b);
    }
  }

  lemma RefGroupStartAppend(a: seq<Role>, b: seq<Role>)
    requires |a| > 0 && a[0].Start?
    requires |b| == 0 || b[0].Start?
    requires RefGroup(a[NextStart(a, 1)..] + b) == RefGroup(a[NextStart(a, 1)..]) + RefGroup(b)
    ensures RefGroup(a + b) == RefGroup(a) + RefGroup(b)
  {
    var ab := a + b;
    var ka := NextStart(a, 1);
    NextStartAppend(a, b, 1);
    SameSegment(a, b, ka);
    RefGroupAtStart(ab);
    RefGroupAtStart(a);
  }

  lemma SameSegment(a: seq<Role>, b: seq<Role>, ka: nat)
    requires 1 <= ka <= |a|
    ensures (a + b)[0] == a[0] && (a + b)[1..ka] == a[1..ka] && (a + b)[ka..] == a[ka..] + b
  {
  }

  lemma {:induction false} NextStartAppend(a: seq<Role>, b: seq<Role>, from: nat)
    requires 1 <= from <= |a|
    requires |b| == 0 || b[0].Start?
    ensures NextStart(a + b, from) == NextStart(a, from)
    decreases |a| - from
  {
    var ab := a + b;
    if from < |a| && !a[from].Start? {
      assert ab[from] == a[from];
      NextStartAppend(a, b, from + 1);
    } else if from < |a| {
      assert ab[from] == a[from];
    } else {
      assert |b| == 0 || ab[from] == b[0];
    }
  }

  /**
   * Within a chapter the last `part_text` wins: the content of the chapter opened by a start is
   * the node of the last content child before the next start.
   */
  lemma {:induction false} LastContentIsLast(body: seq<Role>, i: nat)
    requires i < |body| && body[i].Content?
    requires forall j :: i < j < |body| ==> !body[j].Content?
    ensures LastContent(body) == Some(body[i].text)
    decreases i
  {
    var rest := body[1..];
    assert forall j :: 0 <= j < |rest| ==> rest[j] == body[j + 1];
    if i == 0 {
      LastContentNone(rest);
    } else {
      LastContentIsLast(rest, i - 1);
    }
  }

  lemma {:induction false} LastContentNone(body: seq<Role>)
    requires forall j :: 0 <= j < |body| ==> !body[j].Content?
    ensures LastContent(body) == None
    decreases |body|
  {
    if |body| > 0 {
      var rest := body[1..];
      assert forall j :: 0 <= j < |rest| ==> rest[j] == body[j + 1];
      LastContentNone(rest);
    }
  }

  lemma RolesOfAppend(a: seq<Child>, b: seq<Child>)
    ensures RolesOf(a + b) == RolesOf(a) + RolesOf(b)
  {
    var r := RolesOf(a + b);
    var ra := RolesOf(a);
    var rb := RolesOf(b);
    assert |r| == |ra + rb|;
    forall i | 0 <= i < |r| ensures r[i] == (ra + rb)[i] {
      if i < |a| {
        assert (a + b)[i] == a[i];
      } else {
        assert (a + b)[i] == b[i - |a|];
      }
    }
  }

  /** Container children before the first chapter start never influence the result. */
  lemma LeadingChildrenIgnored(lead: seq<Child>, rest: seq<Child>)
    requires forall i :: 0 <= i < |lead| ==> !RoleOf(lead[i]).Start?
    ensures ParseChapters(lead + rest) == ParseChapters(rest)
  {
    var rl := RolesOf(lead);
    RolesOfAppend(lead, rest);
    assert forall i :: 0 <= i < |rl| ==> !rl[i].Start?;
    LeadingRolesIgnored(rl, RolesOf(rest));
    GroupIsReference(rl + RolesOf(rest));
    GroupIsReference(RolesOf(rest));
  }
}

=== FILE: dom.dfy ===
/**
 * The rich-text tree the converters walk: text nodes, elements with their attributes and
 * children, and every other node kind (comments and the like), which carries no text.
 */
module Dom {
  import opened Wrappers
  import opened Text

  datatype Attr = Attr(name: string, value: string)

  datatype Node =
    | Text(value: string)
    | Elem(tag: string, attrs: seq<Attr>, children: seq<Node>)
    | Other

  function Size(n: Node): nat
    decreases n
  {
    match n
    case Elem(_, _, ch) => 1 + SizeSeq(ch)
    case _ => 1
  }

  function SizeSeq(ns: seq<Node>): nat
    decreases ns
  {
    if |ns| == 0 then 0 else Size(ns[0]) + SizeSeq(ns[1..])
  }

  lemma {:induction false} SizePositive(n: Node)
    ensures Size(n) >= 1
  {
  }

  /** `childNodes`; a text or other node has none. */
  function ChildrenOf(n: Node): seq<Node> {
    if n.Elem? then n.children else []
  }

  /** The tag as the script compares it, `tagName.toUpperCase()`. */
  function TagOf(n: Node): string
    requires n.Elem?
  {
    UpperAscii(n.tag)
  }

  /** `getAttribute(name)`: the value of the first attribute with that name. */
  function GetAttr(attrs: seq<Attr>, name: string): Option<string> {
    if |attrs| == 0 then None
    else if attrs[0].name == name then Some(attrs[0].value)
    else GetAttr(attrs[1..], name)
  }

  /** The class names listed in the `class` attribute (split on ASCII white space). */
  function Classes(attrs: seq<Attr>): set<string> {
    var v := GetAttr(attrs, "class").GetOr("");
    var spaced := seq(|v|, i requires 0 <= i < |v| =>
      if v[i] == '\t' || v[i] == '\n' || v[i] == '\U{C}' || v[i] == '\r' then ' ' else v[i]);
    set w | w in Split(spaced, ' ') && w != ""
  }

  /** `textContent`: the concatenated text of all descendant text nodes. */
  function TextContent(n: Node): string
    decreases n
  {
    match n
    case Text(v) => v
    case Elem(_, _, ch) => TextContentSeq(ch)
    case Other => ""
  }

  function TextContentSeq(ns: seq<Node>): string
    decreases ns
  {
    if |ns| == 0 then "" else TextContent(ns[0]) + TextContentSeq(ns[1..])
  }
}

=== FILE: epub.dfy ===
/**
 * `xhtmlInline` and `xhtmlBlocksFromNode`: the EPUB converter. A sanitized copy of the fragment
 * is walked in document order; text and inline elements accumulate into the current paragraph,
 * which is flushed at every line feed of a text node, every line break and around every block
 * element. A flush emits the trimmed paragraph, or, when it was forced by a line break and the
 * paragraph is empty, an empty-line spacer (never first, never in a note). The result is the
 * rendered blocks joined by line feeds.
 */
module Epub {
  import opened Wrappers
  import opened Text
  import opened Escape
  import opened Dom
  import opened Sanitize
  import opened Markup
  import opened Flow

  // ---------------------------------------------------------------------------------------------
  // Inline markup

  /** The XHTML element an inline tag becomes, as its start and end tag. */
  function Wrapper(tag: string): Option<(string, string)> {
    if tag == "B" || tag == "STRONG" then Some(("<strong>", "</strong>"))
    else if tag == "I" || tag == "EM" then Some(("<em>", "</em>"))
    else if tag == "S" || tag == "STRIKE" || tag == "DEL" then Some(("<span class=\"strike\">", "</span>"))
    else if tag == "U" then Some(("<span class=\"u\">", "</span>"))
    else if tag == "SUP" then Some(("<sup>", "</sup>"))
    else if tag == "SUB" then Some(("<sub>", "</sub>"))
    else if tag == "CODE" then Some(("<code>", "</code>"))
    else None
  }

  /** `xhtmlInline`: escaped text, mapped formatting elements, links, and nothing for pictures. */
  function Inline(n: Node): string
    decreases n
  {
    match n
    case Text(v) => EscapeXml(v)
    case Other => ""
    case Elem(_, attrs, ch) =>
      var tag := TagOf(n);
      if tag == "BR" then "\n"
      else if IsPictureTag(tag) then ""
      else
        var inner := InlineSeq(ch);
        if tag == "A" then
          var href := GetAttr(attrs, "href").GetOr("");
          if href != "" then "<a href=\"" + EscapeXml(href) + "\">" + inner + "</a>" else inner
        else if Wrapper(tag).Some? then Wrapper(tag).value.0 + inner + Wrapper(tag).value.1
        else inner
  }

  function InlineSeq(ns: seq<Node>): string
    decreases ns
  {
    if |ns| == 0 then "" else Inline(ns[0]) + InlineSeq(ns[1..])
  }

  lemma WrapperTags(tag: string)
    requires Wrapper(tag).Some?
    ensures IsTag(Wrapper(tag).value.0) && IsTag(Wrapper(tag).value.1)
  {
  }

  /**
   * The inline markup loses and invents no text: with its tags removed it is the escaped plain
   * text of the node, so unescaping gives that plain text back.
   */
  lemma {:induction false} InlineStrips(n: Node)
    ensures StripTags(Inline(n)) == EscapeXml(Plain(n, false))
    ensures Closed(Inline(n))
    decreases n
  {
    match n
    case Text(v) => StripEscaped(v);
    case Other => StripPlain("");
    case Elem(_, attrs, ch) =>
      var tag := TagOf(n);
      if tag == "BR" {
        StripPlain("\n");
      } else if IsPictureTag(tag) {
        StripPlain("");
      } else {
        InlineSeqStrips(ch);
        var inner := InlineSeq(ch);
        if tag == "A" {
          var href := GetAttr(attrs, "href").GetOr("");
          if href != "" {
            AttrTagIsTag("<a href=\"", href);
            StripWrapped("<a href=\"" + EscapeXml(href) + "\">", inner, "</a>");
          }
        } else if Wrapper(tag).Some? {
          WrapperTags(tag);
          StripWrapped(Wrapper(tag).value.0, inner, Wrapper(tag).value.1);
        }
      }
  }

  lemma {:induction false} InlineSeqStrips(ns: seq<Node>)
    ensures StripTags(InlineSeq(ns)) == EscapeXml(PlainSeq(ns, false))
    ensures Closed(InlineSeq(ns))
    decreases ns
  {
    if |ns| == 0 {
      StripPlain("");
    } else {
      InlineStrips(ns[0]);
      InlineSeqStrips(ns[1..]);
      StripConcat(Inline(ns[0]), InlineSeq(ns[1..]));
      EscapeAppend(Plain(ns[0], false), PlainSeq(ns[1..], false));
    }
  }

  lemma InlineRoundTrip(n: Node)
    ensures UnescapeXml(StripTags(Inline(n))) == Plain(n, false)
  {
    InlineStrips(n);
    UnescapeEscape(Plain(n, false));
  }

  // ---------------------------------------------------------------------------------------------
  // Blocks

  datatype Block =
    | Para(text: string)
    | EmptyLine
    | Rule
    | Pre(text: string)
    | Quote(inner: string)
    | Item(number: Option<nat>, text: string)
    | Heading(text: string)

  function Render(b: Block): string {
    match b
    case Para(t) => "<p>" + t + "</p>"
    case EmptyLine => "<p class=\"empty-line\">&#160;</p>"
    case Rule => "<hr />"
    case Pre(t) => "<pre>" + EscapeXml(t) + "</pre>"
    case Quote(inner) => "<blockquote>" + inner + "</blockquote>"
    case Item(Some(k), t) => "<p class=\"no-indent\">" + Decimal(k) + ". " + t + "</p>"
    case Item(None, t) => "<p class=\"no-indent\">• " + t + "</p>"
    case Heading(t) => "<p class=\"align-center no-indent\"><strong>" + t + "</strong></p>"
  }

  /** `out.join('\n')` over the rendered blocks. */
  function RenderAll(blocks: seq<Block>): string {
    Join(seq(|blocks|, i requires 0 <= i < |blocks| => Render(blocks[i])), "\n")
  }

  /** What every emitted block holds: trimmed non-empty text, one line where the script joins lines. */
  predicate BlockOk(b: Block) {
    match b
    case Para(t) => IsCleanText(t)
    case EmptyLine => true
    case Rule => true
    case Pre(t) => !IsBlank(t) && t[|t| - 1] != '\n' && Nbsp !in t
    case Quote(inner) => !IsBlank(inner)
    case Item(_, t) => IsCleanText(t) && '\n' !in t
    case Heading(t) => IsCleanText(t) && '\n' !in t
  }

  /** Every block is well formed; a spacer is never first and never part of a note. */
  predicate WellFormed(out: seq<Block>, isNote: bool) {
    && (forall b :: b in out ==> BlockOk(b))
    && (|out| > 0 ==> out[0] != EmptyLine)
    && (isNote ==> EmptyLine !in out)
  }

  /** The paragraph being collected and the blocks emitted so far. */
  datatype State = State(current: string, out: seq<Block>)

  /** `r` only appended blocks to `st`, and kept the emitted blocks well formed. */
  predicate Grows(st: State, r: State, isNote: bool) {
    && st.out <= r.out
    && (WellFormed(st.out, isNote) ==> WellFormed(r.out, isNote))
  }

  /** The blocks an appended sequence may hold after `out`. */
  predicate Appendable(out: seq<Block>, bs: seq<Block>, isNote: bool) {
    forall b :: b in bs ==> BlockOk(b) && (b == EmptyLine ==> |out| > 0 && !isNote)
  }

  lemma Append(st: State, bs: seq<Block>, isNote: bool)
    requires Appendable(st.out, bs, isNote)
    ensures Grows(st, st.(out := st.out + bs), isNote)
    ensures Grows(st, State("", st.out + bs), isNote)
  {
    var out := st.out + bs;
    assert forall b :: b in out ==> b in st.out || b in bs;
    if |st.out| == 0 && |bs| > 0 {
      assert out[0] == bs[0] && bs[0] in bs;
    }
  }

  lemma Append1(st: State, b: Block, isNote: bool)
    requires BlockOk(b) && (b == EmptyLine ==> |st.out| > 0 && !isNote)
    ensures Grows(st, State("", st.out + [b]), isNote)
    ensures Grows(st, st.(out := st.out + [b]), isNote)
  {
    Append(st, [b], isNote);
  }

  /** `flush`: emits the trimmed paragraph, or an empty-line spacer when asked for one. */
  function Flush(st: State, force: bool, isNote: bool): (r: State)
    ensures r.current == ""
    ensures Grows(st, r, isNote)
  {
    var trimmed := TrimParagraph(st.current);
    if |trimmed| > 0 then
      Append1(st, Para(trimmed), isNote);
      State("", st.out + [Para(trimmed)])
    else if force && !isNote && |st.out| > 0 then
      Append1(st, EmptyLine, isNote);
      State("", st.out + [EmptyLine])
    else
      State("", st.out)
  }

  /**
   * A flush emits a paragraph holding exactly the trimmed collected text when there is any, and
   * otherwise a spacer exactly when forced, outside notes and after some earlier block.
   */
  lemma FlushEmits(st: State, force: bool, isNote: bool)
    ensures !IsBlank(st.current) ==> Flush(st, force, isNote).out == st.out + [Para(Trim(st.current))]
    ensures IsBlank(st.current) ==>
      (Flush(st, force, isNote).out == st.out + [EmptyLine] <==> force && !isNote && |st.out| > 0)
    ensures IsBlank(st.current) && !(force && !isNote && |st.out| > 0) ==> Flush(st, force, isNote).out == st.out
  {
  }

  /** The item paragraphs of a list: bulleted, or numbered by `Numbered`. */
  function ListItems(lines: seq<string>, ordered: bool): seq<Block>
  {
    var ns := Numbered(lines, ordered, 1);
    seq(|ns|, j requires 0 <= j < |ns| => Item(ns[j].0, ns[j].1))
  }

  /** The item paragraphs carry the entries of `Numbered`, one for one. */
  lemma ListItemsNumbered(lines: seq<string>, ordered: bool)
    ensures |ListItems(lines, ordered)| == |NonEmpty(lines)|
    ensures forall j :: 0 <= j < |NonEmpty(lines)| ==>
      ListItems(lines, ordered)[j] == Item(if ordered then Some(j + 1) else None, NonEmpty(lines)[j])
  {
    ListNumbering(lines, ordered, 1);
  }

  lemma ListItemsAppendable(lines: seq<string>, ordered: bool, out: seq<Block>, isNote: bool)
    requires forall j :: 0 <= j < |NonEmpty(lines)| ==> IsLine(NonEmpty(lines)[j])
    ensures Appendable(out, ListItems(lines, ordered), isNote)
  {
    var items := ListItems(lines, ordered);
    var ne := NonEmpty(lines);
    ListNumbering(lines, ordered, 1);
    NonEmptyKeeps(lines);
    forall b | b in items ensures BlockOk(b) && b != EmptyLine {
      var j :| 0 <= j < |items| && items[j] == b;
      assert IsLine(ne[j]) && |ne[j]| > 0;
    }
  }

  /** One text run: every line feed of the normalized text flushes with a spacer allowed. */
  function TextRun(parts: seq<string>, st: State, isNote: bool, first: bool): (r: State)
    ensures Grows(st, r, isNote)
    decreases |parts|
  {
    if |parts| == 0 then st
    else
      var s1 := if first then st else Flush(st, true, isNote);
      TextRun(parts[1..], s1.(current := s1.current + EscapeXml(parts[0])), isNote, false)
  }

  /** `walk`. */
  function Walk(n: Node, st: State, isNote: bool, decode: string -> string, rule: TailRule): (r: State)
    ensures Grows(st, r, isNote)
    decreases Size(n), 3
  {
    match n
    case Text(v) => TextRun(Split(NormalizeText(v), '\n'), st, isNote, true)
    case Other => st
    case Elem(_, _, _) =>
      var tag := TagOf(n);
      if tag == "BR" then Flush(st, true, isNote)
      else if IsBlockTag(tag) then BlockStep(n, Flush(st, false, isNote), isNote, decode, rule)
      else st.(current := st.current + Inline(n))
  }

  /** Appends `b` when `keep` holds. */
  function EmitIf(st: State, keep: bool, b: Block, isNote: bool): (r: State)
    requires keep ==> BlockOk(b) && b != EmptyLine
    ensures Grows(st, r, isNote)
    ensures r.out == if keep then st.out + [b] else st.out
    ensures r.current == st.current
  {
    if keep then
      Append1(st, b, isNote);
      st.(out := st.out + [b])
    else st
  }

  /** The one-line XHTML text of each direct list item. */
  function ListLines(n: Node): seq<string>
    requires n.Elem?
  {
    ItemLines(ItemsOf(n.children), Inline)
  }

  /** A list's items, numbered in an ordered list. */
  function ListStep(n: Node, st: State, isNote: bool): (r: State)
    requires n.Elem?
    ensures Grows(st, r, isNote)
    ensures r.out == st.out + ListItems(ListLines(n), TagOf(n) == "OL")
    ensures r.current == st.current
  {
    var lines := ListLines(n);
    var items := ListItems(lines, TagOf(n) == "OL");
    ItemLinesAreLines(ItemsOf(n.children), Inline);
    ListItemsAppendable(lines, TagOf(n) == "OL", st.out, isNote);
    Append(st, items, isNote);
    st.(out := st.out + items)
  }

  /**
   * A list appends, after the blocks already emitted, one item per direct `li` whose one-line
   * text is non-empty, in document order; in an ordered list the k-th appended item is numbered
   * k + 1, and in a bulleted one no item carries a number.
   */
  lemma ListStepItems(n: Node, st: State, isNote: bool)
    requires n.Elem?
    ensures var r := ListStep(n, st, isNote); var ne := NonEmpty(ListLines(n));
      && |r.out| == |st.out| + |ne| && r.out[..|st.out|] == st.out
      && forall j :: 0 <= j < |ne| ==>
           r.out[|st.out| + j] == Item(if TagOf(n) == "OL" then Some(j + 1) else None, ne[j])
  {
    var r := ListStep(n, st, isNote);
    var items := ListItems(ListLines(n), TagOf(n) == "OL");
    ListItemsNumbered(ListLines(n), TagOf(n) == "OL");
    assert r.out == st.out + items;
    forall j | 0 <= j < |NonEmpty(ListLines(n))|
      ensures r.out[|st.out| + j] == Item(if TagOf(n) == "OL" then Some(j + 1) else None, NonEmpty(ListLines(n))[j])
    {
      assert r.out[|st.out| + j] == items[j];
    }
  }

  /** A preformatted block, unless its text is blank. */
  function PreStep(n: Node, st: State, isNote: bool): (r: State)
    ensures Grows(st, r, isNote)
    ensures r.out == st.out + (if IsBlank(PreText(n)) then [] else [Pre(PreText(n))])
    ensures r.current == st.current
  {
    var txt := PreText(n);
    PreBlockOk(txt);
    EmitIf(st, !IsBlank(txt), Pre(txt), isNote)
  }

  lemma PreBlockOk(txt: string)
    requires Nbsp !in txt && (|txt| > 0 ==> txt[|txt| - 1] != '\n')
    ensures !IsBlank(txt) ==> BlockOk(Pre(txt)) && Pre(txt) != EmptyLine
  {
  }

  /** A stray list item (bulleted) or a heading, on one line, unless it is empty. */
  function LineStep(n: Node, st: State, heading: bool, isNote: bool): (r: State)
    ensures Grows(st, r, isNote)
    ensures var t := LineText(Inline(n));
      r.out == st.out + (if |t| == 0 then [] else [if heading then Heading(t) else Item(None, t)])
    ensures r.current == st.current
  {
    var t := LineText(Inline(n));
    EmitIf(st, |t| > 0, if heading then Heading(t) else Item(None, t), isNote)
  }

  /** The block branch of `walk`, after the collected paragraph has been flushed. */
  function BlockStep(n: Node, st: State, isNote: bool, decode: string -> string, rule: TailRule): (r: State)
    requires n.Elem?
    ensures Grows(st, r, isNote)
    decreases Size(n), 2
  {
    var tag := TagOf(n);
    if tag == "HR" then EmitIf(st, true, Rule, isNote)
    else if tag == "PRE" then PreStep(n, st, isNote)
    else if tag == "BLOCKQUOTE" then
      var inner := RenderAll(BlocksOf(n, isNote, decode, rule));
      EmitIf(st, !IsBlank(inner), Quote(inner), isNote)
    else if tag == "UL" || tag == "OL" then ListStep(n, st, isNote)
    else if tag == "LI" then LineStep(n, st, false, isNote)
    else if |tag| > 0 && tag[0] == 'H' then LineStep(n, st, true, isNote)
    else Flush(WalkSeq(n.children, st, isNote, decode, rule), false, isNote)
  }

  /** `forEach(walk)` over a list of sibling nodes. */
  function WalkSeq(ns: seq<Node>, st: State, isNote: bool, decode: string -> string, rule: TailRule): (r: State)
    ensures Grows(st, r, isNote)
    decreases SizeSeq(ns), 4
  {
    if |ns| == 0 then st
    else
      SizePositive(ns[0]);
      WalkSeq(ns[1..], Walk(ns[0], st, isNote, decode, rule), isNote, decode, rule)
  }

  /**
   * Which tail clean-up a note gets: the script's, which pops every trailing block whose markup
   * mentions `empty-line`, or the intended one, which pops only spacers.
   */
  datatype TailRule = AsWritten | SpacersOnly

  /**
   * `xhtmlBlocksFromNode` before the final join: the blocks of a sanitized copy of `root`, with
   * the tail clean-up `rule` applied in a note, here and in every nested quote.
   */
  function BlocksOf(root: Node, isNote: bool, decode: string -> string, rule: TailRule): (r: seq<Block>)
    ensures WellFormed(r, isNote)
    decreases Size(root), 1
  {
    TailCleanup(Collected(root, isNote, decode, rule), isNote, rule)
  }

  /** The blocks the walk of a sanitized copy of `root` emits, with the last paragraph flushed. */
  function Collected(root: Node, isNote: bool, decode: string -> string, rule: TailRule): (r: seq<Block>)
    ensures WellFormed(r, isNote)
    decreases Size(root), 0
  {
    var el := CloneAndSanitize(root, decode);
    SizePositive(root);
    Flush(WalkSeq(ChildrenOf(el), State("", []), isNote, decode, rule), false, isNote).out
  }

  /** In a note, `rule` removes trailing blocks; elsewhere nothing is removed. */
  function TailCleanup(out: seq<Block>, isNote: bool, rule: TailRule): (r: seq<Block>)
    requires WellFormed(out, isNote)
    ensures WellFormed(r, isNote)
  {
    if !isNote then out
    else if rule == SpacersOnly then TrimNoteTail(out, isNote)
    else
      var r := TrimNoteTailAsWritten(out);
      assert forall b :: b in r ==> b in out;
      r
  }

  /** `xhtmlBlocksFromNode` as the script has it. */
  function XhtmlBlocksFromNode(root: Node, isNote: bool, decode: string -> string): string {
    RenderAll(BlocksOf(root, isNote, decode, AsWritten))
  }

  /** The same converter with the intended tail clean-up. */
  function XhtmlBlocksFromNodeIntended(root: Node, isNote: bool, decode: string -> string): string {
    RenderAll(BlocksOf(root, isNote, decode, SpacersOnly))
  }

  /** Removes trailing spacers: the intended tail clean-up of a note. */
  function TrimNoteTail(out: seq<Block>, isNote: bool): (r: seq<Block>)
    requires WellFormed(out, isNote)
    ensures WellFormed(r, isNote)
    ensures r <= out
    ensures forall i :: |r| <= i < |out| ==> out[i] == EmptyLine
    ensures |r| > 0 ==> r[|r| - 1] != EmptyLine
  {
    var r := PopWhile(out, IsSpacer);
    assert forall b :: b in r ==> b in out;
    r
  }

  predicate IsSpacer(b: Block) {
    b == EmptyLine
  }

  /** The script's tail clean-up as written: pops while the last rendered block mentions `empty-line`. */
  function TrimNoteTailAsWritten(out: seq<Block>): (r: seq<Block>)
    ensures r <= out
    ensures forall i :: |r| <= i < |out| ==> MentionsEmptyLine(out[i])
  {
    PopWhile(out, MentionsEmptyLine)
  }

  predicate MentionsEmptyLine(b: Block) {
    Contains(Render(b), "empty-line")
  }

  // ---------------------------------------------------------------------------------------------
  // Properties

  /** A note never holds a spacer, so the intended tail clean-up leaves a note's blocks alone. */
  lemma NoteTailTrimKeepsAll(out: seq<Block>)
    requires WellFormed(out, true)
    ensures TrimNoteTail(out, true) == out
  {
    assert |out| > 0 ==> out[|out| - 1] in out;
  }

  lemma ParaMention(t: string)
    requires Contains(t, "empty-line")
    ensures MentionsEmptyLine(Para(t))
  {
    ContainsWithin("<p>", t, "</p>", "empty-line");
  }

  /**
   * The tail clean-up as written also removes a final paragraph whose text mentions
   * `empty-line`, although a note never holds a spacer and the intended clean-up keeps it.
   */
  lemma AsWrittenDropsMention(out: seq<Block>, t: string)
    requires WellFormed(out, true)
    requires |out| > 0 && out[|out| - 1] == Para(t) && Contains(t, "empty-line")
    ensures |TrimNoteTailAsWritten(out)| < |out|
    ensures TrimNoteTail(out, true) == out
  {
    ParaMention(t);
    NoteTailTrimKeepsAll(out);
  }

  /** The smallest such note: one paragraph reading `empty-line` disappears entirely. */
  lemma AsWrittenEmptiesNote()
    ensures TrimNoteTailAsWritten([Para("empty-line")]) == []
    ensures TrimNoteTail([Para("empty-line")], true) == [Para("empty-line")]
  {
    var t := "empty-line";
    assert t[..|t|] == t;
    ContainsAt(t, t, 0);
    ParaMention(t);
    assert IsCleanText(t);
    var out := [Para(t)];
    assert forall b :: b in out ==> b == Para(t);
    NoteTailTrimKeepsAll(out);
    assert TrimNoteTailAsWritten([]) == [];
  }

  /** A note whose only text reads `empty-line`. */
  function MentionNote(): Node {
    Elem("div", [], [Text("empty-line")])
  }

  /** A lower-case Latin letter or a hyphen. */
  predicate IsWordChar(c: char) {
    'a' <= c <= 'z' || c == '-'
  }

  /** A word of lower-case Latin letters and hyphens holds no line break and no no-break space. */
  lemma WordHasNoBreak(t: string)
    requires forall i :: 0 <= i < |t| ==> IsWordChar(t[i])
    ensures '\r' !in t && Nbsp !in t && '\n' !in t
  {
    forall i | 0 <= i < |t| ensures t[i] != '\r' && t[i] != Nbsp && t[i] != '\n' {
      assert IsWordChar(t[i]);
    }
  }

  /** A word of lower-case Latin letters and hyphens needs no escaping. */
  lemma WordNeedsNoEscape(t: string)
    requires forall i :: 0 <= i < |t| ==> IsWordChar(t[i])
    ensures EscapeXml(t) == t
  {
    forall i | 0 <= i < |t| ensures !IsSpecial(t[i]) {
      assert IsWordChar(t[i]);
    }
    EscapeClean(t);
  }

  /** A word of lower-case Latin letters and hyphens needs no normalizing, escaping or trimming. */
  lemma PlainWordFixed(t: string)
    requires |t| > 0 && forall i :: 0 <= i < |t| ==> IsWordChar(t[i])
    ensures NormalizeText(t) == t && EscapeXml(t) == t && IsCleanText(t) && '\n' !in t
  {
    WordHasNoBreak(t);
    WordNeedsNoEscape(t);
    assert !IsJsSpace(t[0]) by {
      assert IsWordChar(t[0]);
    }
    assert !IsJsSpace(t[|t| - 1]) by {
      assert IsWordChar(t[|t| - 1]);
    }
  }

  /** The words `empty-line` need no normalizing, no escaping and no trimming. */
  lemma MentionTextFixed()
    ensures NormalizeText("empty-line") == "empty-line"
    ensures EscapeXml("empty-line") == "empty-line"
    ensures IsCleanText("empty-line")
    ensures '\n' !in "empty-line"
  {
    PlainWordFixed("empty-line");
  }

  /** Sanitizing a `div` holding one text node changes nothing. */
  lemma LineNoteClean(t: string, decode: string -> string)
    ensures CloneAndSanitize(Elem("div", [], [Text(t)]), decode) == Elem("div", [], [Text(t)])
  {
    var x := Text(t);
    CleanSeqSingle(x, decode);
  }

  /** Walking a single text node of one line appends its escaped, normalized text. */
  lemma WalkSeqOneLine(t: string, st: State, isNote: bool, decode: string -> string, rule: TailRule)
    requires '\n' !in t
    ensures WalkSeq([Text(t)], st, isNote, decode, rule) == st.(current := st.current + EscapeXml(NormalizeText(t)))
  {
    var s1 := Walk(Text(t), st, isNote, decode, rule);
    WalkOneLine(t, st, isNote, decode, rule);
    assert [Text(t)][1..] == [];
    assert WalkSeq([Text(t)][1..], s1, isNote, decode, rule) == s1;
  }

  /** Flushing collected text that needs no trimming emits its paragraph, forced or not. */
  lemma FlushCleanText(st: State, force: bool, isNote: bool)
    requires IsCleanText(st.current)
    ensures Flush(st, force, isNote).out == st.out + [Para(st.current)]
  {
    assert TrimParagraph(st.current) == st.current by {
      TrimOfClean(st.current);
    }
  }

  /**
   * A fragment holding one line of text that needs no normalizing, no escaping and no trimming
   * walks into one paragraph holding that line.
   */
  lemma WalkPlainLine(t: string, isNote: bool, decode: string -> string, rule: TailRule)
    requires '\n' !in t && NormalizeText(t) == t && EscapeXml(t) == t && IsCleanText(t)
    ensures Flush(WalkSeq([Text(t)], State("", []), isNote, decode, rule), false, isNote).out == [Para(t)]
  {
    var s1 := WalkSeq([Text(t)], State("", []), isNote, decode, rule);
    assert s1 == State(t, []) by {
      WalkSeqOneLine(t, State("", []), isNote, decode, rule);
    }
    FlushCleanText(s1, false, isNote);
    assert [] + [Para(t)] == [Para(t)];
  }

  /** The blocks are the collected blocks after the tail clean-up. */
  lemma BlocksOfUnfold(root: Node, isNote: bool, decode: string -> string, rule: TailRule)
    ensures BlocksOf(root, isNote, decode, rule) == TailCleanup(Collected(root, isNote, decode, rule), isNote, rule)
  {
  }


  /** The walk of such a note, before its tail clean-up. */
  lemma LineNoteWalk(t: string, decode: string -> string, rule: TailRule)
    requires '\n' !in t && NormalizeText(t) == t && EscapeXml(t) == t && IsCleanText(t)
    ensures Collected(Elem("div", [], [Text(t)]), true, decode, rule) == [Para(t)]
  {
    LineNoteClean(t, decode);
    WalkPlainLine(t, true, decode, rule);
  }

  /** A single paragraph of trimmed text is a well-formed note. */
  lemma OneParaWellFormed(t: string)
    requires IsCleanText(t)
    ensures WellFormed([Para(t)], true)
  {
    var one := [Para(t)];
    assert forall b :: b in one ==> b == Para(t);
  }

  /** The joined rendering of no block, and of one block. */
  lemma RenderAllShort(b: Block)
    ensures RenderAll([]) == "" && RenderAll([b]) == Render(b)
  {
    var one := [b];
    assert seq(|one|, i requires 0 <= i < |one| => Render(one[i])) == [Render(b)];
  }

  /** In a note, the tail clean-up is the one `rule` names. */
  lemma TailCleanupNote(out: seq<Block>)
    requires WellFormed(out, true)
    ensures TailCleanup(out, true, AsWritten) == TrimNoteTailAsWritten(out)
    ensures TailCleanup(out, true, SpacersOnly) == TrimNoteTail(out, true)
  {
  }

  /**
   * A note that is a `div` holding one plain line converts, under the script's tail clean-up,
   * to what that clean-up leaves of the line's paragraph, and under the intended one to that
   * paragraph.
   */
  lemma ConvertersOnLineNote(t: string, decode: string -> string)
    requires '\n' !in t && NormalizeText(t) == t && EscapeXml(t) == t && IsCleanText(t)
    ensures XhtmlBlocksFromNode(Elem("div", [], [Text(t)]), true, decode) == RenderAll(TrimNoteTailAsWritten([Para(t)]))
    ensures XhtmlBlocksFromNodeIntended(Elem("div", [], [Text(t)]), true, decode) == Render(Para(t))
  {
    var root := Elem("div", [], [Text(t)]);
    var one := [Para(t)];
    OneParaWellFormed(t);
    assert BlocksOf(root, true, decode, AsWritten) == TrimNoteTailAsWritten(one) by {
      LineNoteWalk(t, decode, AsWritten);
      BlocksOfUnfold(root, true, decode, AsWritten);
      TailCleanupNote(one);
    }
    assert BlocksOf(root, true, decode, SpacersOnly) == one by {
      LineNoteWalk(t, decode, SpacersOnly);
      BlocksOfUnfold(root, true, decode, SpacersOnly);
      TailCleanupNote(one);
      NoteTailTrimKeepsAll(one);
    }
    RenderAllShort(Para(t));
  }

  /**
   * The script's converter turns the note `<div>empty-line</div>` into nothing, while the
   * intended converter keeps its one paragraph.
   */
  lemma ConvertersDifferOnMention(decode: string -> string)
    ensures XhtmlBlocksFromNode(MentionNote(), true, decode) == ""
    ensures XhtmlBlocksFromNodeIntended(MentionNote(), true, decode) == Render(Para("empty-line"))
  {
    MentionTextFixed();
    AsWrittenEmptiesNote();
    ConvertersOnLineNote("empty-line", decode);
    RenderAllShort(EmptyLine);
  }

  lemma WalkText(v: string, st: State, isNote: bool, decode: string -> string, rule: TailRule)
    ensures Walk(Text(v), st, isNote, decode, rule) == TextRun(Split(NormalizeText(v), '\n'), st, isNote, true)
  {
  }

  lemma TextRunCons(p: string, rest: seq<string>, st: State, isNote: bool, first: bool)
    ensures TextRun([p] + rest, st, isNote, first)
         == var s1 := if first then st else Flush(st, true, isNote);
            TextRun(rest, s1.(current := s1.current + EscapeXml(p)), isNote, false)
  {
    assert ([p] + rest)[1..] == rest;
  }

  /** Continuing a run after a line feed is starting a new run after a forced flush. */
  lemma TextRunResume(parts: seq<string>, st: State, isNote: bool)
    requires |parts| > 0
    ensures TextRun(parts, st, isNote, false) == TextRun(parts, Flush(st, true, isNote), isNote, true)
  {
    assert parts == [parts[0]] + parts[1..];
    TextRunCons(parts[0], parts[1..], st, isNote, false);
    TextRunCons(parts[0], parts[1..], Flush(st, true, isNote), isNote, true);
  }

  /** A text node without a line feed only extends the collected paragraph. */
  lemma WalkOneLine(a: string, st: State, isNote: bool, decode: string -> string, rule: TailRule)
    requires '\n' !in a
    ensures Walk(Text(a), st, isNote, decode, rule) == st.(current := st.current + EscapeXml(NormalizeText(a)))
  {
    var na := NormalizeText(a);
    assert '\n' !in na;
    SplitNoSeparator(na, '\n');
    WalkText(a, st, isNote, decode, rule);
    TextRunCons(na, [], st, isNote, true);
    assert [na] == [na] + [];
  }

  /** A line break element forces a flush. */
  lemma WalkBreak(st: State, isNote: bool, decode: string -> string, rule: TailRule)
    ensures Walk(Elem("br", [], []), st, isNote, decode, rule) == Flush(st, true, isNote)
  {
    UpperTagNames();
  }

  /** Each line feed of a text node flushes the collected paragraph, a spacer allowed. */
  lemma LineFeedFlushes(a: string, b: string, st: State, isNote: bool, decode: string -> string, rule: TailRule)
    requires '\n' !in a && '\r' !in a
    ensures Walk(Text(a + "\n" + b), st, isNote, decode, rule)
         == Walk(Text(b), Flush(Walk(Text(a), st, isNote, decode, rule), true, isNote), isNote, decode, rule)
  {
    var na := NormalizeText(a);
    var nb := NormalizeText(b);
    NormalizeAround(a, b);
    assert '\n' !in na;
    SplitAtSeparator(na, '\n', nb);
    assert na + "\n" + nb == na + ['\n'] + nb;
    WalkText(a + "\n" + b, st, isNote, decode, rule);
    TextRunCons(na, Split(nb, '\n'), st, isNote, true);
    var s1 := st.(current := st.current + EscapeXml(na));
    WalkOneLine(a, st, isNote, decode, rule);
    TextRunResume(Split(nb, '\n'), s1, isNote);
    WalkText(b, Flush(s1, true, isNote), isNote, decode, rule);
  }

  /**
   * Each line feed of a text node breaks the paragraph exactly as a line break element does:
   * walking `a`, line feed, `b` is walking `a`, then a `<br>`, then `b`.
   */
  lemma LineFeedActsAsBreak(a: string, b: string, st: State, isNote: bool, decode: string -> string, rule: TailRule)
    requires '\n' !in a && '\r' !in a
    ensures Walk(Text(a + "\n" + b), st, isNote, decode, rule)
         == Walk(Text(b), Walk(Elem("br", [], []), Walk(Text(a), st, isNote, decode, rule), isNote, decode, rule), isNote, decode, rule)
  {
    LineFeedFlushes(a, b, st, isNote, decode, rule);
    WalkBreak(Walk(Text(a), st, isNote, decode, rule), isNote, decode, rule);
  }

  /** Two line feeds in a row flush twice; the second flush finds an empty paragraph. */
  lemma DoubleLineFeedFlushesTwice(a: string, b: string, st: State, isNote: bool, decode: string -> string, rule: TailRule)
    requires '\n' !in a && '\r' !in a
    ensures Walk(Text(a + "\n\n" + b), st, isNote, decode, rule)
         == Walk(Text(b), Flush(Flush(Walk(Text(a), st, isNote, decode, rule), true, isNote), true, isNote), isNote, decode, rule)
  {
    var s := a + "\n\n" + b;
    var nb := "\n" + b;
    var s1 := Flush(Walk(Text(a), st, isNote, decode, rule), true, isNote);
    SplitDoubleLineFeed(a, b);
    LineFeedFlushesAt(s, a, nb, st, isNote, decode, rule);
    LineFeedFlushesAt(nb, "", b, s1, isNote, decode, rule);
    WalkEmptyText(s1, isNote, decode, rule);
  }

  lemma SplitDoubleLineFeed(a: string, b: string)
    ensures a + "\n\n" + b == a + "\n" + ("\n" + b)
    ensures "\n" + b == "" + "\n" + b
  {
  }

  lemma LineFeedFlushesAt(s: string, a: string, b: string, st: State, isNote: bool, decode: string -> string, rule: TailRule)
    requires '\n' !in a && '\r' !in a && s == a + "\n" + b
    ensures Walk(Text(s), st, isNote, decode, rule)
         == Walk(Text(b), Flush(Walk(Text(a), st, isNote, decode, rule), true, isNote), isNote, decode, rule)
  {
    LineFeedFlushes(a, b, st, isNote, decode, rule);
  }

  /**
   * The second of two forced flushes emits exactly one spacer, outside notes and once something
   * has been emitted: a blank line in the text becomes an `empty-line` block.
   */
  lemma SecondFlushIsSpacer(st: State, isNote: bool)
    ensures var s1 := Flush(st, true, isNote);
      Flush(s1, true, isNote).out == s1.out + (if !isNote && |s1.out| > 0 then [EmptyLine] else [])
  {
    FlushEmpty(Flush(st, true, isNote), true, isNote);
  }

  /** With nothing collected, a flush emits at most the spacer. */
  lemma FlushEmpty(st: State, force: bool, isNote: bool)
    requires st.current == ""
    ensures Flush(st, force, isNote).out == st.out + (if force && !isNote && |st.out| > 0 then [EmptyLine] else [])
  {
    assert |TrimParagraph(st.current)| == 0;
  }

  /** An empty text node changes nothing. */
  lemma WalkEmptyText(st: State, isNote: bool, decode: string -> string, rule: TailRule)
    ensures Walk(Text(""), st, isNote, decode, rule) == st
  {
    WalkText("", st, isNote, decode, rule);
    assert NormalizeText("") == "";
    assert Split("", '\n') == [""];
    TextRunCons("", [], st, isNote, true);
    assert [""] == [""] + [];
    assert st.current + EscapeXml("") == st.current;
  }

  // ---------------------------------------------------------------------------------------------
  // Walk steps

  /** Walking a concatenation of siblings walks the first part, then the second from there. */
  lemma {:induction false} WalkSeqAppend(a: seq<Node>, b: seq<Node>, st: State, isNote: bool, decode: string -> string, rule: TailRule)
    ensures WalkSeq(a + b, st, isNote, decode, rule) == WalkSeq(b, WalkSeq(a, st, isNote, decode, rule), isNote, decode, rule)
    decreases |a|
  {
    if |a| == 0 {
      assert a + b == b;
    } else {
      assert (a + b)[0] == a[0];
      assert (a + b)[1..] == a[1..] + b;
      WalkSeqAppend(a[1..], b, Walk(a[0], st, isNote, decode, rule), isNote, decode, rule);
    }
  }

  /** A block element first closes the collected paragraph without a spacer, then takes its step. */
  lemma WalkBlock(n: Node, st: State, isNote: bool, decode: string -> string, rule: TailRule)
    requires n.Elem? && IsBlockTag(TagOf(n))
    ensures Walk(n, st, isNote, decode, rule) == BlockStep(n, Flush(st, false, isNote), isNote, decode, rule)
  {
    BlockTagNotBreak(TagOf(n));
  }

  /** Flushing without a spacer emits the trimmed text when it is not blank, and nothing else. */
  lemma FlushNoSpacer(st: State, isNote: bool)
    ensures Flush(st, false, isNote).out
         == st.out + (if IsBlank(st.current) then [] else [Para(Trim(st.current))])
  {
    FlushEmits(st, false, isNote);
  }

  /** Blocks appended after a flush without a spacer come after the flushed paragraph. */
  lemma AfterFlush(st: State, r: State, isNote: bool)
    requires Flush(st, false, isNote).out <= r.out
    ensures st.out <= r.out
    ensures !IsBlank(st.current) ==> |r.out| > |st.out| && r.out[|st.out|] == Para(Trim(st.current))
  {
    if IsBlank(st.current) {
      FlushEmits(st, false, isNote);
    } else {
      assert Flush(st, false, isNote).out == st.out + [Para(Trim(st.current))] by {
        FlushEmits(st, false, isNote);
      }
      PrefixElement(st.out, Para(Trim(st.current)), r.out);
    }
  }

  /** So the blocks a block element contributes come after the collected paragraph. */
  lemma WalkBlockAfterParagraph(n: Node, st: State, isNote: bool, decode: string -> string, rule: TailRule)
    requires n.Elem? && IsBlockTag(TagOf(n))
    ensures Flush(st, false, isNote).out <= Walk(n, st, isNote, decode, rule).out
    ensures !IsBlank(st.current) ==>
      var out := Walk(n, st, isNote, decode, rule).out;
      |out| > |st.out| && out[|st.out|] == Para(Trim(st.current))
  {
    WalkBlock(n, st, isNote, decode, rule);
    AfterFlush(st, Walk(n, st, isNote, decode, rule), isNote);
  }

  /** A paragraph or division walks its children between two flushes without spacers. */
  lemma WalkContainer(n: Node, st: State, isNote: bool, decode: string -> string, rule: TailRule)
    requires n.Elem? && (TagOf(n) == "P" || TagOf(n) == "DIV")
    ensures Walk(n, st, isNote, decode, rule)
         == Flush(WalkSeq(n.children, Flush(st, false, isNote), isNote, decode, rule), false, isNote)
  {
    var s0 := Flush(st, false, isNote);
    ContainerTag(TagOf(n));
    assert Walk(n, st, isNote, decode, rule) == BlockStep(n, s0, isNote, decode, rule);
  }

  /** A quote becomes one quote block of its own rendered blocks, unless those are blank. */
  lemma WalkQuote(n: Node, st: State, isNote: bool, decode: string -> string, rule: TailRule)
    requires n.Elem? && TagOf(n) == "BLOCKQUOTE"
    ensures var inner := RenderAll(BlocksOf(n, isNote, decode, rule));
      Walk(n, st, isNote, decode, rule).out
      == Flush(st, false, isNote).out + (if IsBlank(inner) then [] else [Quote(inner)])
    ensures Walk(n, st, isNote, decode, rule).current == ""
  {
    QuoteTag(TagOf(n));
    WalkBlock(n, st, isNote, decode, rule);
    QuoteStep(n, Flush(st, false, isNote), isNote, decode, rule);
  }

  /** The quote branch of the block step. */
  lemma QuoteStep(n: Node, st: State, isNote: bool, decode: string -> string, rule: TailRule)
    requires n.Elem? && TagOf(n) == "BLOCKQUOTE"
    ensures var inner := RenderAll(BlocksOf(n, isNote, decode, rule));
      BlockStep(n, st, isNote, decode, rule) == EmitIf(st, !IsBlank(inner), Quote(inner), isNote)
  {
    QuoteTag(TagOf(n));
  }

  /** A horizontal rule becomes one rule block after the collected paragraph. */
  lemma WalkRule(n: Node, st: State, isNote: bool, decode: string -> string, rule: TailRule)
    requires n.Elem? && TagOf(n) == "HR"
    ensures Walk(n, st, isNote, decode, rule).out == Flush(st, false, isNote).out + [Rule]
    ensures Walk(n, st, isNote, decode, rule).current == ""
  {
    var s0 := Flush(st, false, isNote);
    RuleTag(TagOf(n));
    assert Walk(n, st, isNote, decode, rule) == BlockStep(n, s0, isNote, decode, rule);
  }

  /**
   * A node the walk adds to the collected paragraph as its inline markup: an element that is
   * neither a line break nor a block, a one-line text that needs no normalizing, or a node of
   * another kind.
   */
  predicate IsInlineNode(n: Node) {
    match n
    case Text(v) => '\n' !in v && NormalizeText(v) == v
    case Other => true
    case Elem(_, _, _) => TagOf(n) != "BR" && !IsBlockTag(TagOf(n))
  }

  /** An inline node only extends the collected paragraph, by its inline markup. */
  lemma WalkInline(n: Node, st: State, isNote: bool, decode: string -> string, rule: TailRule)
    requires IsInlineNode(n)
    ensures Walk(n, st, isNote, decode, rule) == st.(current := st.current + Inline(n))
  {
    if n.Text? {
      WalkOneLine(n.value, st, isNote, decode, rule);
    }
  }

  /** A run of inline siblings extends the collected paragraph by their joined markup. */
  lemma {:induction false} WalkSeqInlines(ns: seq<Node>, st: State, isNote: bool, decode: string -> string, rule: TailRule)
    requires forall i :: 0 <= i < |ns| ==> IsInlineNode(ns[i])
    ensures WalkSeq(ns, st, isNote, decode, rule) == st.(current := st.current + InlineSeq(ns))
    decreases |ns|
  {
    if |ns| == 0 {
      assert st.current + "" == st.current;
    } else {
      var s1 := st.(current := st.current + Inline(ns[0]));
      assert WalkSeq(ns, st, isNote, decode, rule) == WalkSeq(ns[1..], s1, isNote, decode, rule) by {
        WalkInline(ns[0], st, isNote, decode, rule);
      }
      WalkSeqInlines(ns[1..], s1, isNote, decode, rule);
      ConcatAssoc(st.current, Inline(ns[0]), InlineSeq(ns[1..]), InlineSeq(ns));
    }
  }

  /**
   * A paragraph or division of inline content closes the collected paragraph and becomes one
   * paragraph of its trimmed markup, or nothing when that is blank.
   */
  lemma WalkInlineParagraph(n: Node, st: State, isNote: bool, decode: string -> string, rule: TailRule)
    requires n.Elem? && (TagOf(n) == "P" || TagOf(n) == "DIV")
    requires forall i :: 0 <= i < |n.children| ==> IsInlineNode(n.children[i])
    ensures var s := InlineSeq(n.children);
      Walk(n, st, isNote, decode, rule).out
      == Flush(st, false, isNote).out + (if IsBlank(s) then [] else [Para(Trim(s))])
  {
    var s0 := Flush(st, false, isNote);
    var s := InlineSeq(n.children);
    assert Walk(n, st, isNote, decode, rule) == Flush(State(s, s0.out), false, isNote) by {
      WalkContainer(n, st, isNote, decode, rule);
      WalkSeqInlines(n.children, s0, isNote, decode, rule);
      EmptyConcat(s);
    }
    FlushNoSpacer(State(s, s0.out), isNote);
  }

  /**
   * A fragment whose sanitized children are all inline content collects into one paragraph of
   * their trimmed markup, or into nothing when that is blank.
   */
  lemma CollectedInlines(root: Node, isNote: bool, decode: string -> string, rule: TailRule)
    requires var ch := ChildrenOf(CloneAndSanitize(root, decode));
      forall i :: 0 <= i < |ch| ==> IsInlineNode(ch[i])
    ensures var s := InlineSeq(ChildrenOf(CloneAndSanitize(root, decode)));
      Collected(root, isNote, decode, rule) == if IsBlank(s) then [] else [Para(Trim(s))]
  {
    var ch := ChildrenOf(CloneAndSanitize(root, decode));
    var s := InlineSeq(ch);
    var w := WalkSeq(ch, State("", []), isNote, decode, rule);
    CollectedUnfold(root, isNote, decode, rule);
    WalkSeqInlines(ch, State("", []), isNote, decode, rule);
    EmptyConcat(s);
    FlushNoSpacer(w, isNote);
  }

  lemma CollectedUnfold(root: Node, isNote: bool, decode: string -> string, rule: TailRule)
    ensures Collected(root, isNote, decode, rule)
         == Flush(WalkSeq(ChildrenOf(CloneAndSanitize(root, decode)), State("", []), isNote, decode, rule), false, isNote).out
  {
  }

  /** Outside notes, and in notes under the intended tail clean-up, those are its blocks. */
  lemma BlocksOfInlines(root: Node, isNote: bool, decode: string -> string, rule: TailRule)
    requires var ch := ChildrenOf(CloneAndSanitize(root, decode));
      forall i :: 0 <= i < |ch| ==> IsInlineNode(ch[i])
    requires !isNote || rule == SpacersOnly
    ensures var s := InlineSeq(ChildrenOf(CloneAndSanitize(root, decode)));
      BlocksOf(root, isNote, decode, rule) == if IsBlank(s) then [] else [Para(Trim(s))]
  {
    var out := Collected(root, isNote, decode, rule);
    CollectedInlines(root, isNote, decode, rule);
    BlocksOfUnfold(root, isNote, decode, rule);
    if isNote {
      NoteTailTrimKeepsAll(out);
    }
  }
}

=== FILE: escape.dfy ===
/**
 * `escapeXml`: each of the five characters XML 1.0 (section 4.6) gives a predefined entity is
 * replaced by that entity; every other character is kept.
 */
module Escape {

  /** The characters `escapeXml` rewrites. */
  predicate IsSpecial(c: char) {
    c == '<' || c == '>' || c == '&' || c == '\'' || c == '"'
  }

  /** The characters that may never appear raw in escaped text (`&` still opens entities). */
  predicate IsMarkup(c: char) {
    c == '<' || c == '>' || c == '\'' || c == '"'
  }

  function EscapeChar(c: char): string {
    match c
    case '<' => "&lt;"
    case '>' => "&gt;"
    case '&' => "&amp;"
    case '\'' => "&apos;"
    case '"' => "&quot;"
    case _ => [c]
  }

  /** Whether `s[i..]` begins with one of the five predefined entities. */
  predicate EntityAt(s: string, i: nat)
    requires i <= |s|
  {
    var t := s[i..];
    || (|t| >= 4 && t[..4] == "&lt;")
    || (|t| >= 4 && t[..4] == "&gt;")
    || (|t| >= 5 && t[..5] == "&amp;")
    || (|t| >= 6 && t[..6] == "&apos;")
    || (|t| >= 6 && t[..6] == "&quot;")
  }

  function EscapeXml(s: string): (r: string)
    ensures |r| >= |s|
    decreases |s|
  {
    if |s| == 0 then ""
    else EscapeChar(s[0]) + EscapeXml(s[1..])
  }

  /**
   * The output never holds a raw `<`, `>`, `'` or `"`, and a text without the five special
   * characters comes back unchanged.
   */
  lemma {:induction false} EscapeClean(s: string)
    ensures forall i :: 0 <= i < |EscapeXml(s)| ==> !IsMarkup(EscapeXml(s)[i])
    ensures (forall i :: 0 <= i < |s| ==> !IsSpecial(s[i])) ==> EscapeXml(s) == s
    decreases |s|
  {
    if |s| > 0 {
      var e := EscapeChar(s[0]);
      var rest := EscapeXml(s[1..]);
      EscapeClean(s[1..]);
      assert EscapeXml(s) == e + rest;
      forall i | 0 <= i < |e + rest| ensures !IsMarkup((e + rest)[i]) {
        if i >= |e| {
          assert (e + rest)[i] == rest[i - |e|];
        }
      }
      if forall i :: 0 <= i < |s| ==> !IsSpecial(s[i]) {
        assert forall i :: 0 <= i < |s[1..]| ==> s[1..][i] == s[i + 1];
        assert e == [s[0]];
        assert [s[0]] + s[1..] == s;
      }
    }
  }

  /** Replaces each predefined entity by its character; the reference inverse of `EscapeXml`. */
  function UnescapeXml(s: string): string
    decreases |s|
  {
    if |s| == 0 then ""
    else if s[0] != '&' then [s[0]] + UnescapeXml(s[1..])
    else if |s| >= 4 && s[..4] == "&lt;" then "<" + UnescapeXml(s[4..])
    else if |s| >= 4 && s[..4] == "&gt;" then ">" + UnescapeXml(s[4..])
    else if |s| >= 5 && s[..5] == "&amp;" then "&" + UnescapeXml(s[5..])
    else if |s| >= 6 && s[..6] == "&apos;" then "'" + UnescapeXml(s[6..])
    else if |s| >= 6 && s[..6] == "&quot;" then "\"" + UnescapeXml(s[6..])
    else [s[0]] + UnescapeXml(s[1..])
  }

  /** Unescaping undoes the escape of one character in front of any text. */
  lemma UnescapeEscapedChar(c: char, rest: string)
    ensures UnescapeXml(EscapeChar(c) + rest) == [c] + UnescapeXml(rest)
  {
    var r := EscapeChar(c) + rest;
    if c == '<' {
      assert r[..4] == "&lt;" && r[4..] == rest;
    } else if c == '>' {
      assert r[..4] == "&gt;" && r[4..] == rest;
    } else if c == '&' {
      assert r[..4][1] == 'a';
      assert r[..5] == "&amp;" && r[5..] == rest;
    } else if c == '\'' {
      assert r[..4][1] == 'a' && r[..5][2] == 'p';
      assert r[..6] == "&apos;" && r[6..] == rest;
    } else if c == '"' {
      assert r[..4][1] == 'q' && r[..5][1] == 'q' && r[..6][1] == 'q';
      assert r[..6] == "&quot;" && r[6..] == rest;
    } else {
      assert r == [c] + rest;
      assert r[0] == c && r[1..] == rest;
    }
  }

  /** Escaping loses nothing: unescaping the output gives back the input. */
  lemma {:induction false} UnescapeEscape(s: string)
    ensures UnescapeXml(EscapeXml(s)) == s
    decreases |s|
  {
    if |s| > 0 {
      UnescapeEscape(s[1..]);
      UnescapeEscapedChar(s[0], EscapeXml(s[1..]));
      assert [s[0]] + s[1..] == s;
    }
  }

  /** Different texts escape differently. */
  lemma EscapeInjective(a: string, b: string)
    requires EscapeXml(a) == EscapeXml(b)
    ensures a == b
  {
    UnescapeEscape(a);
    UnescapeEscape(b);
  }

  /** Every ampersand of the output opens one of the five predefined entities. */
  lemma {:induction false} AmpersandsOpenEntities(s: string)
    ensures forall i :: 0 <= i < |EscapeXml(s)| && EscapeXml(s)[i] == '&' ==> EntityAt(EscapeXml(s), i)
    decreases |s|
  {
    if |s| > 0 {
      var e := EscapeChar(s[0]);
      var rest := EscapeXml(s[1..]);
      var r := e + rest;
      AmpersandsOpenEntities(s[1..]);
      forall i | 0 <= i < |r| && r[i] == '&'
        ensures EntityAt(r, i)
      {
        if i < |e| {
          assert i == 0 && r[..|e|] == e;
        } else {
          assert rest[i - |e|] == '&';
          assert r[i..] == rest[i - |e|..];
        }
      }
    }
  }

  /** Escaping works character by character, so it distributes over concatenation. */
  lemma {:induction false} EscapeAppend(a: string, b: string)
    ensures EscapeXml(a + b) == EscapeXml(a) + EscapeXml(b)
    decreases |a|
  {
    if |a| > 0 {
      var t := a[1..];
      SplitHead(a, b);
      EscapeCons(a[0], t + b);
      EscapeCons(a[0], t);
      EscapeAppend(t, b);
    } else {
      assert a + b == b;
    }
  }

  lemma SplitHead(a: string, b: string)
    requires |a| > 0
    ensures a + b == [a[0]] + (a[1..] + b) && a == [a[0]] + a[1..]
  {
  }

  lemma EscapeCons(c: char, t: string)
    ensures EscapeXml([c] + t) == EscapeChar(c) + EscapeXml(t)
  {
    assert ([c] + t)[0] == c && ([c] + t)[1..] == t;
  }
}

=== FILE: fb2.dfy ===
/**
 * `fb2Inline` and `fb2BlocksFromNode`: the FB2 converter. It walks a sanitized copy of the
 * fragment like the EPUB converter, with three differences: text is normalized before it is
 * escaped, a horizontal rule becomes an `empty-line` only when the previous block was not already
 * a break (the `lastWasBreak` flag), and a preformatted block becomes one code paragraph per line.
 * Its paragraph flush strips leading spaces and tabs and trailing white space before trimming.
 */
module Fb2 {
  import opened Wrappers
  import opened Text
  import opened Escape
  import opened Dom
  import opened Sanitize
  import opened Markup
  import opened Flow

  // ---------------------------------------------------------------------------------------------
  // Inline markup

  /** The FB2 element an inline tag becomes, as its start and end tag; underline has none. */
  function Wrapper(tag: string): Option<(string, string)> {
    if tag == "B" || tag == "STRONG" then Some(("<strong>", "</strong>"))
    else if tag == "I" || tag == "EM" then Some(("<emphasis>", "</emphasis>"))
    else if tag == "S" || tag == "STRIKE" || tag == "DEL" then Some(("<strikethrough>", "</strikethrough>"))
    else if tag == "SUB" then Some(("<sub>", "</sub>"))
    else if tag == "SUP" then Some(("<sup>", "</sup>"))
    else if tag == "CODE" then Some(("<code>", "</code>"))
    else None
  }

  /**
   * `fb2Inline`: normalized and escaped text, mapped formatting elements, links whose target is
   * decoded once more, and nothing for pictures.
   */
  function Inline(n: Node, decode: string -> string): string
    decreases n
  {
    match n
    case Text(v) => EscapeXml(NormalizeText(v))
    case Other => ""
    case Elem(_, attrs, ch) =>
      var tag := TagOf(n);
      if tag == "BR" then "\n"
      else if IsPictureTag(tag) then ""
      else
        var inner := InlineSeq(ch, decode);
        if Wrapper(tag).Some? then Wrapper(tag).value.0 + inner + Wrapper(tag).value.1
        else if tag == "A" then
          var href := decode(GetAttr(attrs, "href").GetOr(""));
          if href != "" then "<a l:href=\"" + EscapeXml(href) + "\">" + inner + "</a>" else inner
        else inner
  }

  function InlineSeq(ns: seq<Node>, decode: string -> string): string
    decreases ns
  {
    if |ns| == 0 then "" else Inline(ns[0], decode) + InlineSeq(ns[1..], decode)
  }

  lemma WrapperTags(tag: string)
    requires Wrapper(tag).Some?
    ensures IsTag(Wrapper(tag).value.0) && IsTag(Wrapper(tag).value.1)
  {
  }

  /**
   * The inline markup loses and invents no text: with its tags removed it is the escaped,
   * normalized plain text of the node.
   */
  lemma {:induction false} InlineStrips(n: Node, decode: string -> string)
    ensures StripTags(Inline(n, decode)) == EscapeXml(Plain(n, true))
    ensures Closed(Inline(n, decode))
    decreases n
  {
    match n
    case Text(v) => StripEscaped(NormalizeText(v));
    case Other => StripPlain("");
    case Elem(_, attrs, ch) =>
      var tag := TagOf(n);
      if tag == "BR" {
        StripPlain("\n");
      } else if IsPictureTag(tag) {
        StripPlain("");
      } else {
        InlineSeqStrips(ch, decode);
        var inner := InlineSeq(ch, decode);
        if Wrapper(tag).Some? {
          WrapperTags(tag);
          StripWrapped(Wrapper(tag).value.0, inner, Wrapper(tag).value.1);
        } else if tag == "A" {
          var href := decode(GetAttr(attrs, "href").GetOr(""));
          if href != "" {
            AttrTagIsTag("<a l:href=\"", href);
            StripWrapped("<a l:href=\"" + EscapeXml(href) + "\">", inner, "</a>");
          }
        }
      }
  }

  lemma {:induction false} InlineSeqStrips(ns: seq<Node>, decode: string -> string)
    ensures StripTags(InlineSeq(ns, decode)) == EscapeXml(PlainSeq(ns, true))
    ensures Closed(InlineSeq(ns, decode))
    decreases ns
  {
    if |ns| == 0 {
      StripPlain("");
    } else {
      InlineStrips(ns[0], decode);
      InlineSeqStrips(ns[1..], decode);
      StripConcat(Inline(ns[0], decode), InlineSeq(ns[1..], decode));
      EscapeAppend(Plain(ns[0], true), PlainSeq(ns[1..], true));
    }
  }

  /** Unescaping the text of the inline markup gives back the normalized plain text. */
  lemma InlineRoundTrip(n: Node, decode: string -> string)
    ensures UnescapeXml(StripTags(Inline(n, decode))) == Plain(n, true)
  {
    InlineStrips(n, decode);
    UnescapeEscape(Plain(n, true));
  }

  /** Unlike the EPUB renderer, FB2 has no underline: a `u` element is unwrapped. */
  lemma UnderlineUnwrapped(attrs: seq<Attr>, ch: seq<Node>, decode: string -> string)
    ensures Inline(Elem("u", attrs, ch), decode) == InlineSeq(ch, decode)
  {
    UpperTagNames();
  }

  // ---------------------------------------------------------------------------------------------
  // Blocks

  datatype Block =
    | Para(text: string)
    | EmptyLine
    | Code(line: string)
    | Cite(inner: string)
    | Item(number: Option<nat>, text: string)
    | Subtitle(text: string)

  const EmptyLineTag: string := "<empty-line/>"

  function Render(b: Block): string {
    match b
    case Para(t) => "<p>" + t + "</p>"
    case EmptyLine => EmptyLineTag
    case Code(l) => "<p><code>" + EscapeXml(l) + "</code></p>"
    case Cite(inner) => "<cite>" + inner + "</cite>"
    case Item(Some(k), t) => "<p>" + Decimal(k) + ". " + t + "</p>"
    case Item(None, t) => "<p>• " + t + "</p>"
    case Subtitle(t) => "<subtitle>" + t + "</subtitle>"
  }

  /** `blocks.join('\n')` over the rendered blocks. */
  function RenderAll(blocks: seq<Block>): string {
    Join(seq(|blocks|, i requires 0 <= i < |blocks| => Render(blocks[i])), "\n")
  }

  /** Only the spacer renders as `<empty-line/>`: every other block opens with another tag. */
  lemma RenderIsEmptyLine(b: Block)
    ensures Render(b) == EmptyLineTag <==> b == EmptyLine
  {
    if b != EmptyLine {
      var r := Render(b);
      assert |r| >= 2;
      assert r[1] != EmptyLineTag[1];
    }
  }

  /** What every emitted block holds: trimmed non-empty text, one line where a line is meant. */
  predicate BlockOk(b: Block) {
    match b
    case Para(t) => IsCleanText(t)
    case EmptyLine => true
    case Code(l) => '\n' !in l && Nbsp !in l
    case Cite(inner) => IsCleanText(inner)
    case Item(_, t) => IsCleanText(t) && '\n' !in t
    case Subtitle(t) => IsCleanText(t) && '\n' !in t
  }

  /** Every block is well formed; a spacer is never first and never part of a note. */
  predicate WellFormed(out: seq<Block>, isNote: bool) {
    && (forall b :: b in out ==> BlockOk(b))
    && (|out| > 0 ==> out[0] != EmptyLine)
    && (isNote ==> EmptyLine !in out)
  }

  /** The paragraph being collected, the blocks emitted so far and `lastWasBreak`. */
  datatype State = State(current: string, out: seq<Block>, lastWasBreak: bool)

  /** Outside notes, a set break flag means the output is empty or ends in a spacer. */
  predicate BreakShown(st: State, isNote: bool) {
    !isNote && st.lastWasBreak && |st.out| > 0 ==> st.out[|st.out| - 1] == EmptyLine
  }

  predicate Inv(st: State, isNote: bool) {
    WellFormed(st.out, isNote) && BreakShown(st, isNote)
  }

  /** `r` only appended blocks to `st`, and kept the invariant. */
  predicate Grows(st: State, r: State, isNote: bool) {
    && st.out <= r.out
    && (Inv(st, isNote) ==> Inv(r, isNote))
  }

  lemma Append1(st: State, b: Block, brk: bool, current: string, isNote: bool)
    requires BlockOk(b) && (b == EmptyLine ==> |st.out| > 0 && !isNote)
    requires brk ==> b == EmptyLine
    ensures Grows(st, State(current, st.out + [b], brk), isNote)
  {
    var out := st.out + [b];
    assert forall x :: x in out ==> x in st.out || x == b;
    if |st.out| == 0 {
      assert out[0] == b;
    }
  }

  /** Appending blocks that are not spacers, with the break flag cleared. */
  lemma AppendText(st: State, bs: seq<Block>, current: string, isNote: bool)
    requires forall b :: b in bs ==> BlockOk(b) && b != EmptyLine
    ensures Grows(st, State(current, st.out + bs, false), isNote)
  {
    var out := st.out + bs;
    assert forall x :: x in out ==> x in st.out || x in bs;
    if |st.out| == 0 && |bs| > 0 {
      assert out[0] == bs[0] && bs[0] in bs;
    }
  }

  // ---------------------------------------------------------------------------------------------
  // The walk

  /**
   * The text `flushParagraph` keeps: leading spaces and tabs removed, trailing white space
   * removed, then trimmed. The two removals are subsumed by the trim.
   */
  function ParagraphText(s: string): (t: string)
    ensures t == Trim(s)
    ensures |t| == 0 <==> IsBlank(s)
    ensures |t| > 0 ==> IsCleanText(t)
  {
    var a := DropWhile(s, IsIndent);
    var b := DropWhileEnd(a, IsJsSpace);
    TrimAfterDropLeading(s, IsIndent);
    TrimAfterDropTrailing(a);
    Trim(b)
  }

  /** `flushParagraph`: the trimmed paragraph, or a spacer when allowed, outside notes, after a block. */
  function Flush(st: State, allowEmptyLine: bool, isNote: bool): (r: State)
    ensures r.current == ""
    ensures Grows(st, r, isNote)
  {
    var trimmed := ParagraphText(st.current);
    if |trimmed| > 0 then
      Append1(st, Para(trimmed), false, "", isNote);
      State("", st.out + [Para(trimmed)], false)
    else if allowEmptyLine && !isNote && |st.out| > 0 then
      Append1(st, EmptyLine, true, "", isNote);
      State("", st.out + [EmptyLine], true)
    else
      State("", st.out, st.lastWasBreak)
  }

  /**
   * A flush emits a paragraph of the trimmed text and clears the break flag when there is text;
   * otherwise it emits a spacer and sets the flag exactly when allowed, outside notes and after
   * some block; otherwise it changes neither the blocks nor the flag.
   */
  lemma FlushEmits(st: State, allowEmptyLine: bool, isNote: bool)
    ensures var r := Flush(st, allowEmptyLine, isNote);
      !IsBlank(st.current) ==> r.out == st.out + [Para(Trim(st.current))] && !r.lastWasBreak
    ensures var r := Flush(st, allowEmptyLine, isNote);
      IsBlank(st.current) ==>
        (r.out == st.out + [EmptyLine] <==> allowEmptyLine && !isNote && |st.out| > 0)
    ensures var r := Flush(st, allowEmptyLine, isNote);
      IsBlank(st.current) && !(allowEmptyLine && !isNote && |st.out| > 0) ==>
        r.out == st.out && r.lastWasBreak == st.lastWasBreak
  {
  }

  /** The rule branch: a spacer unless in a note, at the start, or right after a break. */
  function HrStep(st: State, isNote: bool): (r: State)
    ensures Grows(st, r, isNote)
    ensures r.lastWasBreak && r.current == st.current
    ensures r.out == st.out + [EmptyLine] <==> !isNote && |st.out| > 0 && !st.lastWasBreak
    ensures r.out == st.out + [EmptyLine] || r.out == st.out
  {
    if !isNote && |st.out| > 0 && !st.lastWasBreak then
      Append1(st, EmptyLine, true, st.current, isNote);
      State(st.current, st.out + [EmptyLine], true)
    else
      State(st.current, st.out, true)
  }

  /** The code paragraphs of a preformatted text, one per line, with no-break spaces removed. */
  function CodeLines(lines: seq<string>): (r: seq<Block>)
    ensures |r| == |lines|
    ensures forall k :: 0 <= k < |r| ==> r[k].Code?
  {
    seq(|lines|, k requires 0 <= k < |lines| => Code(RemoveChar(lines[k], Nbsp)))
  }

  /**
   * The code paragraphs of a text without no-break spaces are exactly its lines, and joining
   * them with line feeds gives back the text: the no-break-space removal never fires.
   */
  lemma CodeLinesRoundTrip(txt: string)
    requires Nbsp !in txt
    ensures var lines := Split(txt, '\n');
      && (forall k :: 0 <= k < |lines| ==> CodeLines(lines)[k] == Code(lines[k]))
      && Join(lines, "\n") == txt
  {
    var lines := Split(txt, '\n');
    forall k | 0 <= k < |lines| ensures CodeLines(lines)[k] == Code(lines[k]) {
      assert Nbsp !in lines[k] by {
        forall i | 0 <= i < |lines[k]| ensures lines[k][i] != Nbsp {
          assert lines[k][i] in txt;
        }
      }
    }
    SplitThenJoin(txt, '\n');
  }

  /** The code paragraphs of a text without no-break spaces are well formed and not spacers. */
  lemma CodeLinesOk(txt: string)
    requires Nbsp !in txt
    ensures forall b :: b in CodeLines(Split(txt, '\n')) ==> BlockOk(b) && b != EmptyLine
  {
    var lines := Split(txt, '\n');
    var codes := CodeLines(lines);
    CodeLinesRoundTrip(txt);
    forall b | b in codes ensures BlockOk(b) && b != EmptyLine {
      var k :| 0 <= k < |codes| && codes[k] == b;
      assert b == Code(lines[k]);
      assert '\n' !in lines[k];
      assert Nbsp !in lines[k] by {
        forall i | 0 <= i < |lines[k]| ensures lines[k][i] != Nbsp {
          assert lines[k][i] in txt;
        }
      }
    }
  }

  /** A preformatted block: one code paragraph per line unless its text is blank. */
  function PreStep(n: Node, st: State, isNote: bool): (r: State)
    ensures Grows(st, r, isNote)
    ensures r.out == st.out + (if IsBlank(PreText(n)) then [] else CodeLines(Split(PreText(n), '\n')))
    ensures r.current == st.current && !r.lastWasBreak
  {
    var txt := PreText(n);
    if !IsBlank(txt) then
      var codes := CodeLines(Split(txt, '\n'));
      CodeLinesOk(txt);
      AppendText(st, codes, st.current, isNote);
      State(st.current, st.out + codes, false)
    else
      AppendText(st, [], st.current, isNote);
      assert st.out + [] == st.out;
      State(st.current, st.out, false)
  }

  /** Appends `b` when `keep` holds; the break flag is cleared either way. */
  function EmitIf(st: State, keep: bool, b: Block, isNote: bool): (r: State)
    requires keep ==> BlockOk(b) && b != EmptyLine
    ensures Grows(st, r, isNote)
    ensures r.out == if keep then st.out + [b] else st.out
    ensures r.current == st.current && !r.lastWasBreak
  {
    if keep then
      AppendText(st, [b], st.current, isNote);
      State(st.current, st.out + [b], false)
    else
      AppendText(st, [], st.current, isNote);
      assert st.out + [] == st.out;
      State(st.current, st.out, false)
  }

  /** The item paragraphs of a list: bulleted, or numbered by `Numbered`. */
  function ListItems(lines: seq<string>, ordered: bool): seq<Block>
  {
    var ns := Numbered(lines, ordered, 1);
    seq(|ns|, j requires 0 <= j < |ns| => Item(ns[j].0, ns[j].1))
  }

  /** The item paragraphs carry the entries of `Numbered`, one for one. */
  lemma ListItemsNumbered(lines: seq<string>, ordered: bool)
    ensures |ListItems(lines, ordered)| == |NonEmpty(lines)|
    ensures forall j :: 0 <= j < |NonEmpty(lines)| ==>
      ListItems(lines, ordered)[j] == Item(if ordered then Some(j + 1) else None, NonEmpty(lines)[j])
  {
    ListNumbering(lines, ordered, 1);
  }

  lemma ListItemsOk(lines: seq<string>, ordered: bool)
    requires forall j :: 0 <= j < |NonEmpty(lines)| ==> IsLine(NonEmpty(lines)[j])
    ensures forall b :: b in ListItems(lines, ordered) ==> BlockOk(b) && b != EmptyLine
  {
    var items := ListItems(lines, ordered);
    var ne := NonEmpty(lines);
    ListNumbering(lines, ordered, 1);
    NonEmptyKeeps(lines);
    forall b | b in items ensures BlockOk(b) && b != EmptyLine {
      var j :| 0 <= j < |items| && items[j] == b;
      assert IsLine(ne[j]) && |ne[j]| > 0;
    }
  }

  /** The one-line FB2 text of each direct list item. */
  function ListLines(n: Node, decode: string -> string): seq<string>
    requires n.Elem?
  {
    ItemLines(ItemsOf(n.children), m => Inline(m, decode))
  }

  /** A list's items, numbered in an ordered list. */
  function ListStep(n: Node, st: State, isNote: bool, decode: string -> string): (r: State)
    requires n.Elem?
    ensures Grows(st, r, isNote)
    ensures r.out == st.out + ListItems(ListLines(n, decode), TagOf(n) == "OL")
    ensures r.current == st.current && !r.lastWasBreak
  {
    var lines := ListLines(n, decode);
    var items := ListItems(lines, TagOf(n) == "OL");
    ItemLinesAreLines(ItemsOf(n.children), m => Inline(m, decode));
    ListItemsOk(lines, TagOf(n) == "OL");
    AppendText(st, items, st.current, isNote);
    State(st.current, st.out + items, false)
  }

  /**
   * A list appends, after the blocks already emitted, one item per direct `li` whose one-line
   * text is non-empty, in document order; in an ordered list the k-th appended item is numbered
   * k + 1, and in a bulleted one no item carries a number.
   */
  lemma ListStepItems(n: Node, st: State, isNote: bool, decode: string -> string)
    requires n.Elem?
    ensures var r := ListStep(n, st, isNote, decode); var ne := NonEmpty(ListLines(n, decode));
      && |r.out| == |st.out| + |ne| && r.out[..|st.out|] == st.out
      && forall j :: 0 <= j < |ne| ==>
           r.out[|st.out| + j] == Item(if TagOf(n) == "OL" then Some(j + 1) else None, ne[j])
  {
    var out := ListStep(n, st, isNote, decode).out;
    var lines := ListLines(n, decode);
    var items := ListItems(lines, TagOf(n) == "OL");
    ListItemsNumbered(lines, TagOf(n) == "OL");
    assert out == st.out + items;
    forall j | 0 <= j < |NonEmpty(lines)|
      ensures out[|st.out| + j] == Item(if TagOf(n) == "OL" then Some(j + 1) else None, NonEmpty(lines)[j])
    {
      assert out[|st.out| + j] == items[j];
    }
  }

  /** A stray list item (bulleted) or a heading (a subtitle), on one line, unless it is empty. */
  function LineStep(n: Node, st: State, heading: bool, isNote: bool, decode: string -> string): (r: State)
    ensures Grows(st, r, isNote)
    ensures var t := LineText(Inline(n, decode));
      r.out == st.out + (if |t| == 0 then [] else [if heading then Subtitle(t) else Item(None, t)])
    ensures r.current == st.current && !r.lastWasBreak
  {
    var t := LineText(Inline(n, decode));
    EmitIf(st, |t| > 0, if heading then Subtitle(t) else Item(None, t), isNote)
  }

  /** One text run: every line feed of the normalized text flushes with a spacer allowed. */
  function TextRun(parts: seq<string>, st: State, isNote: bool, first: bool): (r: State)
    ensures Grows(st, r, isNote)
    decreases |parts|
  {
    if |parts| == 0 then st
    else
      var s1 := if first then st else Flush(st, true, isNote);
      var s2 := s1.(current := s1.current + EscapeXml(parts[0]));
      var r := TextRun(parts[1..], s2, isNote, false);
      Extend(st, s1, s2, isNote);
      GrowsTrans(st, s2, r, isNote);
      r
  }

  /** Collecting more text keeps the blocks and the flag. */
  lemma Extend(st: State, s1: State, s2: State, isNote: bool)
    requires Grows(st, s1, isNote)
    requires s2.out == s1.out && s2.lastWasBreak == s1.lastWasBreak
    ensures Grows(st, s2, isNote)
  {
  }

  lemma GrowsTrans(a: State, b: State, c: State, isNote: bool)
    requires Grows(a, b, isNote) && Grows(b, c, isNote)
    ensures Grows(a, c, isNote)
  {
  }

  /** `walk`. */
  function Walk(n: Node, st: State, isNote: bool, decode: string -> string): (r: State)
    ensures Grows(st, r, isNote)
    decreases Size(n), 3
  {
    match n
    case Text(v) => TextRun(Split(NormalizeText(v), '\n'), st, isNote, true)
    case Other => st
    case Elem(_, _, _) =>
      var tag := TagOf(n);
      if tag == "BR" then Flush(st, true, isNote)
      else if IsBlockTag(tag) then BlockStep(n, Flush(st, false, isNote), isNote, decode)
      else st.(current := st.current + Inline(n, decode))
  }

  /** The block branch of `walk`, after the collected paragraph has been flushed. */
  function BlockStep(n: Node, st: State, isNote: bool, decode: string -> string): (r: State)
    requires n.Elem?
    ensures Grows(st, r, isNote)
    decreases Size(n), 2
  {
    var tag := TagOf(n);
    if tag == "HR" then HrStep(st, isNote)
    else if tag == "PRE" then PreStep(n, st, isNote)
    else if tag == "BLOCKQUOTE" then
      var inner := Trim(RenderAll(BlocksOf(n, isNote, decode)));
      EmitIf(st, |inner| > 0, Cite(inner), isNote)
    else if tag == "UL" || tag == "OL" then ListStep(n, st, isNote, decode)
    else if tag == "LI" then LineStep(n, st, false, isNote, decode)
    else if |tag| > 0 && tag[0] == 'H' then LineStep(n, st, true, isNote, decode)
    else Flush(WalkSeq(n.children, st, isNote, decode), false, isNote)
  }

  /** `forEach(walk)` over a list of sibling nodes. */
  function WalkSeq(ns: seq<Node>, st: State, isNote: bool, decode: string -> string): (r: State)
    ensures Grows(st, r, isNote)
    decreases SizeSeq(ns), 4
  {
    if |ns| == 0 then st
    else
      SizePositive(ns[0]);
      WalkSeq(ns[1..], Walk(ns[0], st, isNote, decode), isNote, decode)
  }

  /** Whether a block renders as the spacer markup the tail clean-up compares against. */
  predicate IsEmptyLineMarkup(b: Block) {
    Render(b) == EmptyLineTag
  }

  /** A prefix of well-formed blocks is well formed. */
  lemma WellFormedPrefix(out: seq<Block>, r: seq<Block>, isNote: bool)
    requires WellFormed(out, isNote) && r <= out
    ensures WellFormed(r, isNote)
  {
    assert forall b :: b in r ==> b in out;
  }

  /**
   * `fb2BlocksFromNode` before the final join: the blocks of a sanitized copy of `root`, with
   * trailing `<empty-line/>` blocks removed in a note.
   */
  function BlocksOf(root: Node, isNote: bool, decode: string -> string): (r: seq<Block>)
    ensures WellFormed(r, isNote)
    decreases Size(root), 1
  {
    var out := Collected(root, isNote, decode);
    if isNote then PopEmptyLines(out, isNote) else out
  }

  /** The blocks the walk of a sanitized copy of `root` emits, with the last paragraph flushed. */
  function Collected(root: Node, isNote: bool, decode: string -> string): (r: seq<Block>)
    ensures WellFormed(r, isNote)
    decreases Size(root), 0
  {
    var el := CloneAndSanitize(root, decode);
    SizePositive(root);
    var start := State("", [], false);
    assert Inv(start, isNote);
    Flush(WalkSeq(ChildrenOf(el), start, isNote, decode), false, isNote).out
  }

  /** The tail clean-up of a note: removes trailing blocks that render as `<empty-line/>`. */
  function PopEmptyLines(out: seq<Block>, isNote: bool): (r: seq<Block>)
    requires WellFormed(out, isNote)
    ensures WellFormed(r, isNote)
    ensures r <= out
    ensures forall i :: |r| <= i < |out| ==> out[i] == EmptyLine
  {
    var r := PopWhile(out, IsEmptyLineMarkup);
    WellFormedPrefix(out, r, isNote);
    forall i | |r| <= i < |out| ensures out[i] == EmptyLine {
      RenderIsEmptyLine(out[i]);
    }
    r
  }

  function Fb2BlocksFromNode(root: Node, isNote: bool, decode: string -> string): string {
    RenderAll(BlocksOf(root, isNote, decode))
  }

  // ---------------------------------------------------------------------------------------------
  // Properties

  /** A note never holds a spacer, so its tail clean-up removes nothing. */
  lemma NoteTailPopKeepsAll(out: seq<Block>)
    requires WellFormed(out, true)
    ensures PopEmptyLines(out, true) == out
  {
    if |out| > 0 {
      assert out[|out| - 1] in out;
      RenderIsEmptyLine(out[|out| - 1]);
    }
  }

  /**
   * After a rule, outside notes, the output is empty or ends in a spacer; the rule adds a spacer
   * only when the output did not already end in a break.
   */
  lemma HrEndsInSpacer(st: State, isNote: bool)
    requires BreakShown(st, isNote)
    ensures var r := HrStep(st, isNote);
      !isNote && |r.out| > 0 ==> r.out[|r.out| - 1] == EmptyLine
  {
  }

  /** The rule element `<hr>`. */
  function Hr(): Node {
    Elem("hr", [], [])
  }

  lemma WalkHr(st: State, isNote: bool, decode: string -> string)
    ensures Walk(Hr(), st, isNote, decode) == HrStep(Flush(st, false, isNote), isNote)
  {
    UpperTagNames();
    assert TagOf(Hr()) == "HR" && IsBlockTag("HR");
    var s0 := Flush(st, false, isNote);
    assert Walk(Hr(), st, isNote, decode) == BlockStep(Hr(), s0, isNote, decode);
    assert BlockStep(Hr(), s0, isNote, decode) == HrStep(s0, isNote);
  }

  /** A second rule right after a first one changes nothing: breaks never pile up from rules. */
  lemma HrTwiceIsHrOnce(st: State, isNote: bool, decode: string -> string)
    ensures Walk(Hr(), Walk(Hr(), st, isNote, decode), isNote, decode) == Walk(Hr(), st, isNote, decode)
  {
    var s1 := Walk(Hr(), st, isNote, decode);
    WalkHr(st, isNote, decode);
    WalkHr(s1, isNote, decode);
    assert s1.current == "" && s1.lastWasBreak;
    assert Flush(s1, false, isNote) == s1;
  }

  // ---------------------------------------------------------------------------------------------
  // Text runs

  lemma WalkText(v: string, st: State, isNote: bool, decode: string -> string)
    ensures Walk(Text(v), st, isNote, decode) == TextRun(Split(NormalizeText(v), '\n'), st, isNote, true)
  {
  }

  lemma TextRunCons(p: string, rest: seq<string>, st: State, isNote: bool, first: bool)
    ensures TextRun([p] + rest, st, isNote, first)
         == var s1 := if first then st else Flush(st, true, isNote);
            TextRun(rest, s1.(current := s1.current + EscapeXml(p)), isNote, false)
  {
    assert ([p] + rest)[1..] == rest;
  }

  /** Continuing a run after a line feed is starting a new run after a forced flush. */
  lemma TextRunResume(parts: seq<string>, st: State, isNote: bool)
    requires |parts| > 0
    ensures TextRun(parts, st, isNote, false) == TextRun(parts, Flush(st, true, isNote), isNote, true)
  {
    assert parts == [parts[0]] + parts[1..];
    TextRunCons(parts[0], parts[1..], st, isNote, false);
    TextRunCons(parts[0], parts[1..], Flush(st, true, isNote), isNote, true);
  }

  /** A text node without a line feed only extends the collected paragraph; the flag stays. */
  lemma WalkOneLine(a: string, st: State, isNote: bool, decode: string -> string)
    requires '\n' !in a
    ensures Walk(Text(a), st, isNote, decode) == st.(current := st.current + EscapeXml(NormalizeText(a)))
  {
    var na := NormalizeText(a);
    assert '\n' !in na;
    SplitNoSeparator(na, '\n');
    WalkText(a, st, isNote, decode);
    TextRunCons(na, [], st, isNote, true);
    assert [na] == [na] + [];
  }

  /** A line break element forces a flush. */
  lemma WalkBreak(st: State, isNote: bool, decode: string -> string)
    ensures Walk(Elem("br", [], []), st, isNote, decode) == Flush(st, true, isNote)
  {
    UpperTagNames();
  }

  /** Each line feed of a text node flushes the collected paragraph, a spacer allowed. */
  lemma LineFeedFlushes(a: string, b: string, st: State, isNote: bool, decode: string -> string)
    requires '\n' !in a && '\r' !in a
    ensures Walk(Text(a + "\n" + b), st, isNote, decode)
         == Walk(Text(b), Flush(Walk(Text(a), st, isNote, decode), true, isNote), isNote, decode)
  {
    var na := NormalizeText(a);
    var nb := NormalizeText(b);
    NormalizeAround(a, b);
    assert '\n' !in na;
    SplitAtSeparator(na, '\n', nb);
    assert na + "\n" + nb == na + ['\n'] + nb;
    WalkText(a + "\n" + b, st, isNote, decode);
    TextRunCons(na, Split(nb, '\n'), st, isNote, true);
    var s1 := st.(current := st.current + EscapeXml(na));
    WalkOneLine(a, st, isNote, decode);
    TextRunResume(Split(nb, '\n'), s1, isNote);
    WalkText(b, Flush(s1, true, isNote), isNote, decode);
  }

  /**
   * Each line feed of a text node breaks the paragraph exactly as a line break element does:
   * walking `a`, line feed, `b` is walking `a`, then a `<br>`, then `b`.
   */
  lemma LineFeedActsAsBreak(a: string, b: string, st: State, isNote: bool, decode: string -> string)
    requires '\n' !in a && '\r' !in a
    ensures Walk(Text(a + "\n" + b), st, isNote, decode)
         == Walk(Text(b), Walk(Elem("br", [], []), Walk(Text(a), st, isNote, decode), isNote, decode), isNote, decode)
  {
    LineFeedFlushes(a, b, st, isNote, decode);
    WalkBreak(Walk(Text(a), st, isNote, decode), isNote, decode);
  }

  // ---------------------------------------------------------------------------------------------
  // Walk steps

  /** Walking a concatenation of siblings walks the first part, then the second from there. */
  lemma {:induction false} WalkSeqAppend(a: seq<Node>, b: seq<Node>, st: State, isNote: bool, decode: string -> string)
    ensures WalkSeq(a + b, st, isNote, decode) == WalkSeq(b, WalkSeq(a, st, isNote, decode), isNote, decode)
    decreases |a|
  {
    if |a| == 0 {
      assert a + b == b;
    } else {
      assert (a + b)[0] == a[0];
      assert (a + b)[1..] == a[1..] + b;
      WalkSeqAppend(a[1..], b, Walk(a[0], st, isNote, decode), isNote, decode);
    }
  }

  /** A block element first closes the collected paragraph without a spacer, then takes its step. */
  lemma WalkBlock(n: Node, st: State, isNote: bool, decode: string -> string)
    requires n.Elem? && IsBlockTag(TagOf(n))
    ensures Walk(n, st, isNote, decode) == BlockStep(n, Flush(st, false, isNote), isNote, decode)
  {
    BlockTagNotBreak(TagOf(n));
  }

  /** Flushing without a spacer emits the trimmed text when it is not blank, and nothing else. */
  lemma FlushNoSpacer(st: State, isNote: bool)
    ensures Flush(st, false, isNote).out
         == st.out + (if IsBlank(st.current) then [] else [Para(Trim(st.current))])
  {
    FlushEmits(st, false, isNote);
  }

  /** Blocks appended after a flush without a spacer come after the flushed paragraph. */
  lemma AfterFlush(st: State, r: State, isNote: bool)
    requires Flush(st, false, isNote).out <= r.out
    ensures st.out <= r.out
    ensures !IsBlank(st.current) ==> |r.out| > |st.out| && r.out[|st.out|] == Para(Trim(st.current))
  {
    if IsBlank(st.current) {
      FlushEmits(st, false, isNote);
    } else {
      assert Flush(st, false, isNote).out == st.out + [Para(Trim(st.current))] by {
        FlushEmits(st, false, isNote);
      }
      PrefixElement(st.out, Para(Trim(st.current)), r.out);
    }
  }

  /** So the blocks a block element contributes come after the collected paragraph. */
  lemma WalkBlockAfterParagraph(n: Node, st: State, isNote: bool, decode: string -> string)
    requires n.Elem? && IsBlockTag(TagOf(n))
    ensures Flush(st, false, isNote).out <= Walk(n, st, isNote, decode).out
    ensures !IsBlank(st.current) ==>
      var out := Walk(n, st, isNote, decode).out;
      |out| > |st.out| && out[|st.out|] == Para(Trim(st.current))
  {
    WalkBlock(n, st, isNote, decode);
    AfterFlush(st, Walk(n, st, isNote, decode), isNote);
  }

  /** A paragraph or division walks its children between two flushes without spacers. */
  lemma WalkContainer(n: Node, st: State, isNote: bool, decode: string -> string)
    requires n.Elem? && (TagOf(n) == "P" || TagOf(n) == "DIV")
    ensures Walk(n, st, isNote, decode)
         == Flush(WalkSeq(n.children, Flush(st, false, isNote), isNote, decode), false, isNote)
  {
    var s0 := Flush(st, false, isNote);
    ContainerTag(TagOf(n));
    assert Walk(n, st, isNote, decode) == BlockStep(n, s0, isNote, decode);
  }

  /**
   * A quote becomes one citation of its own rendered blocks, trimmed, unless that is empty; the
   * break flag is cleared either way.
   */
  lemma WalkQuote(n: Node, st: State, isNote: bool, decode: string -> string)
    requires n.Elem? && TagOf(n) == "BLOCKQUOTE"
    ensures var inner := Trim(RenderAll(BlocksOf(n, isNote, decode)));
      Walk(n, st, isNote, decode).out
      == Flush(st, false, isNote).out + (if |inner| == 0 then [] else [Cite(inner)])
    ensures Walk(n, st, isNote, decode).current == "" && !Walk(n, st, isNote, decode).lastWasBreak
  {
    QuoteTag(TagOf(n));
    WalkBlock(n, st, isNote, decode);
    QuoteStep(n, Flush(st, false, isNote), isNote, decode);
  }

  /** The quote branch of the block step. */
  lemma QuoteStep(n: Node, st: State, isNote: bool, decode: string -> string)
    requires n.Elem? && TagOf(n) == "BLOCKQUOTE"
    ensures var inner := Trim(RenderAll(BlocksOf(n, isNote, decode)));
      BlockStep(n, st, isNote, decode) == EmitIf(st, |inner| > 0, Cite(inner), isNote)
  {
    QuoteTag(TagOf(n));
  }

  /** A horizontal rule takes the rule step after the collected paragraph. */
  lemma WalkRule(n: Node, st: State, isNote: bool, decode: string -> string)
    requires n.Elem? && TagOf(n) == "HR"
    ensures Walk(n, st, isNote, decode) == HrStep(Flush(st, false, isNote), isNote)
  {
    var s0 := Flush(st, false, isNote);
    RuleTag(TagOf(n));
    assert Walk(n, st, isNote, decode) == BlockStep(n, s0, isNote, decode);
  }

  /**
   * A node the walk adds to the collected paragraph as its inline markup: an element that is
   * neither a line break nor a block, a text of one line, or a node of another kind.
   */
  predicate IsInlineNode(n: Node) {
    match n
    case Text(v) => '\n' !in v
    case Other => true
    case Elem(_, _, _) => TagOf(n) != "BR" && !IsBlockTag(TagOf(n))
  }

  /** An inline node only extends the collected paragraph, by its inline markup; the flag stays. */
  lemma WalkInline(n: Node, st: State, isNote: bool, decode: string -> string)
    requires IsInlineNode(n)
    ensures Walk(n, st, isNote, decode) == st.(current := st.current + Inline(n, decode))
  {
    if n.Text? {
      WalkOneLine(n.value, st, isNote, decode);
    }
  }

  /** A run of inline siblings extends the collected paragraph by their joined markup. */
  lemma {:induction false} WalkSeqInlines(ns: seq<Node>, st: State, isNote: bool, decode: string -> string)
    requires forall i :: 0 <= i < |ns| ==> IsInlineNode(ns[i])
    ensures WalkSeq(ns, st, isNote, decode) == st.(current := st.current + InlineSeq(ns, decode))
    decreases |ns|
  {
    if |ns| == 0 {
      assert st.current + "" == st.current;
    } else {
      var s1 := st.(current := st.current + Inline(ns[0], decode));
      assert WalkSeq(ns, st, isNote, decode) == WalkSeq(ns[1..], s1, isNote, decode) by {
        WalkInline(ns[0], st, isNote, decode);
      }
      WalkSeqInlines(ns[1..], s1, isNote, decode);
      ConcatAssoc(st.current, Inline(ns[0], decode), InlineSeq(ns[1..], decode), InlineSeq(ns, decode));
    }
  }

  /**
   * A paragraph or division of inline content closes the collected paragraph and becomes one
   * paragraph of its trimmed markup, or nothing when that is blank.
   */
  lemma WalkInlineParagraph(n: Node, st: State, isNote: bool, decode: string -> string)
    requires n.Elem? && (TagOf(n) == "P" || TagOf(n) == "DIV")
    requires forall i :: 0 <= i < |n.children| ==> IsInlineNode(n.children[i])
    ensures var s := InlineSeq(n.children, decode);
      Walk(n, st, isNote, decode).out
      == Flush(st, false, isNote).out + (if IsBlank(s) then [] else [Para(Trim(s))])
  {
    var s0 := Flush(st, false, isNote);
    var s := InlineSeq(n.children, decode);
    assert Walk(n, st, isNote, decode) == Flush(State(s, s0.out, s0.lastWasBreak), false, isNote) by {
      WalkContainer(n, st, isNote, decode);
      WalkSeqInlines(n.children, s0, isNote, decode);
      EmptyConcat(s);
    }
    FlushNoSpacer(State(s, s0.out, s0.lastWasBreak), isNote);
  }

  /**
   * A fragment whose sanitized children are all inline content collects into one paragraph of
   * their trimmed markup, or into nothing when that is blank.
   */
  lemma CollectedInlines(root: Node, isNote: bool, decode: string -> string)
    requires var ch := ChildrenOf(CloneAndSanitize(root, decode));
      forall i :: 0 <= i < |ch| ==> IsInlineNode(ch[i])
    ensures var s := InlineSeq(ChildrenOf(CloneAndSanitize(root, decode)), decode);
      Collected(root, isNote, decode) == if IsBlank(s) then [] else [Para(Trim(s))]
  {
    var ch := ChildrenOf(CloneAndSanitize(root, decode));
    var s := InlineSeq(ch, decode);
    var w := State(s, [], false);
    assert Collected(root, isNote, decode) == Flush(w, false, isNote).out by {
      WalkSeqInlines(ch, State("", [], false), isNote, decode);
      EmptyConcat(s);
    }
    FlushNoSpacer(w, isNote);
  }

  /** Those are its blocks, in a note as elsewhere: a paragraph is never popped as a spacer. */
  lemma BlocksOfInlines(root: Node, isNote: bool, decode: string -> string)
    requires var ch := ChildrenOf(CloneAndSanitize(root, decode));
      forall i :: 0 <= i < |ch| ==> IsInlineNode(ch[i])
    ensures var s := InlineSeq(ChildrenOf(CloneAndSanitize(root, decode)), decode);
      BlocksOf(root, isNote, decode) == if IsBlank(s) then [] else [Para(Trim(s))]
  {
    var out := Collected(root, isNote, decode);
    CollectedInlines(root, isNote, decode);
    if isNote {
      NoteTailPopKeepsAll(out);
    }
  }

  /**
   * A `div` holding one line of text that needs no escaping and no trimming converts, in a note
   * as elsewhere, to one paragraph of that line, normalized.
   */
  lemma ConvertsLineNote(t: string, isNote: bool, decode: string -> string)
    requires '\n' !in t && EscapeXml(NormalizeText(t)) == NormalizeText(t) && IsCleanText(NormalizeText(t))
    ensures Fb2BlocksFromNode(Elem("div", [], [Text(t)]), isNote, decode) == Render(Para(NormalizeText(t)))
  {
    var root := Elem("div", [], [Text(t)]);
    var nt := NormalizeText(t);
    assert CloneAndSanitize(root, decode) == root by {
      CleanSeqSingle(Text(t), decode);
    }
    assert InlineSeq([Text(t)], decode) == nt by {
      assert [Text(t)][1..] == [];
    }
    assert BlocksOf(root, isNote, decode) == [Para(nt)] by {
      BlocksOfInlines(root, isNote, decode);
      TrimOfClean(nt);
    }
    RenderAllOne(Para(nt));
  }

  /** The joined rendering of one block. */
  lemma RenderAllOne(b: Block)
    ensures RenderAll([b]) == Render(b)
  {
    var one := [b];
    assert seq(|one|, i requires 0 <= i < |one| => Render(one[i])) == [Render(b)];
  }
}

=== FILE: filename.dfy ===
/**
 * `safeFilename`: the name given to the downloaded book. Characters Windows forbids in file
 * names become `_`, white-space runs become one space, the result is trimmed and cut to 180
 * characters, and an empty result falls back to `ficbook`.
 */
module Filename {
  import opened Text

  const MaxLength: nat := 180
  const Fallback: string := "ficbook"

  /** The class `[\\/:*?"<>|]`. */
  predicate IsForbidden(c: char) {
    c == '\\' || c == '/' || c == ':' || c == '*' || c == '?' || c == '"' || c == '<' || c == '>' || c == '|'
  }

  predicate NoForbidden(s: string) {
    forall i :: 0 <= i < |s| ==> !IsForbidden(s[i])
  }

  /** Every white-space character is a plain space. */
  predicate PlainSpaces(s: string) {
    forall i :: 0 <= i < |s| && IsJsSpace(s[i]) ==> s[i] == ' '
  }

  predicate NoDoubleSpace(s: string) {
    forall i :: 0 <= i < |s| - 1 ==> !(s[i] == ' ' && s[i + 1] == ' ')
  }

  /** The shape every returned name has. */
  predicate IsSafeName(r: string) {
    && 0 < |r| <= MaxLength
    && !IsJsSpace(r[0])
    && NoForbidden(r)
    && PlainSpaces(r)
    && NoDoubleSpace(r)
  }

  function ReplaceForbidden(s: string): (r: string)
    ensures |r| == |s|
    ensures NoForbidden(r)
    ensures forall i :: 0 <= i < |s| && !IsForbidden(s[i]) ==> r[i] == s[i]
    ensures forall i :: 0 <= i < |s| && IsForbidden(s[i]) ==> r[i] == '_'
  {
    seq(|s|, i requires 0 <= i < |s| => if IsForbidden(s[i]) then '_' else s[i])
  }

  /** Collapsing white space keeps the forbidden-free property and leaves lone plain spaces. */
  lemma CollapsedShape(a: string)
    requires NoForbidden(a)
    ensures var b := CollapseRuns(a, IsJsSpace, ' ');
      NoForbidden(b) && PlainSpaces(b) && NoDoubleSpace(b)
  {
    var b := CollapseRuns(a, IsJsSpace, ' ');
    CollapseRunsChars(a, IsJsSpace, ' ');
    CollapseRunsSingle(a, IsJsSpace, ' ');
    assert CharsFrom(b, a, IsJsSpace, ' ');
    forall i | 0 <= i < |b| ensures !IsForbidden(b[i]) {
      if b[i] != ' ' {
        assert b[i] in a;
      }
    }
    forall i | 0 <= i < |b| - 1 ensures !(b[i] == ' ' && b[i + 1] == ' ') {
      assert !(IsJsSpace(b[i]) && IsJsSpace(b[i + 1])) by {
        assert NoAdjacent(b, IsJsSpace);
      }
    }
  }

  /** A contiguous piece of a name keeps the three character-level properties. */
  lemma SliceShape(b: string, lo: nat, n: nat)
    requires lo + n <= |b|
    requires NoForbidden(b) && PlainSpaces(b) && NoDoubleSpace(b)
    ensures var u := b[lo..lo + n]; NoForbidden(u) && PlainSpaces(u) && NoDoubleSpace(u)
  {
    var u := b[lo..lo + n];
    assert forall i :: 0 <= i < |u| ==> u[i] == b[lo + i];
  }

  /** Whether `s` holds no white-space character at all. */
  predicate NoSpace(s: string) {
    forall i :: 0 <= i < |s| ==> !IsJsSpace(s[i])
  }

  /** Forbidden characters replaced and white-space runs collapsed to one space. */
  function Cleaned(s: string): (b: string)
    ensures NoForbidden(b) && PlainSpaces(b) && NoDoubleSpace(b)
    ensures IsBlank(s) ==> IsBlank(b)
    ensures NoSpace(s) ==> b == ReplaceForbidden(s)
  {
    var a := ReplaceForbidden(s);
    CollapsedShape(a);
    CollapseRunsChars(a, IsJsSpace, ' ');
    assert IsBlank(s) ==> IsBlank(a);
    if NoSpace(s) then
      assert NoSpace(a);
      CollapseRunsNone(a, IsJsSpace, ' ');
      CollapseRuns(a, IsJsSpace, ' ')
    else
      CollapseRuns(a, IsJsSpace, ' ')
  }

  /** Trimmed, then cut to the length limit (`trim().slice(0, 180)`). */
  function TrimAndCut(b: string): (u: string)
    requires NoForbidden(b) && PlainSpaces(b) && NoDoubleSpace(b)
    ensures NoForbidden(u) && PlainSpaces(u) && NoDoubleSpace(u)
    ensures |u| <= MaxLength
    ensures |u| > 0 ==> !IsJsSpace(u[0])
    ensures |u| == 0 <==> IsBlank(b)
  {
    var t := Trim(b);
    var k := TrimStart(b);
    var n := if |t| <= MaxLength then |t| else MaxLength;
    TrimIsSlice(b);
    PrefixOfSlice(b, t, k, n);
    SliceShape(b, k, n);
    t[..n]
  }

  lemma PrefixOfSlice(b: string, t: string, k: nat, n: nat)
    requires k + |t| <= |b| && t == b[k..k + |t|] && n <= |t|
    ensures t[..n] == b[k..k + n]
  {
  }

  function SafeFilename(s: string): (r: string)
    ensures IsSafeName(r)
    ensures IsBlank(s) ==> r == Fallback
  {
    var u := TrimAndCut(Cleaned(s));
    FallbackIsSafe();
    if |u| == 0 then Fallback else u
  }

  /**
   * A name without white space that fits the length limit only has its forbidden characters
   * replaced.
   */
  lemma SafeNameOfPlain(s: string)
    requires NoSpace(s) && 0 < |s| <= MaxLength
    ensures SafeFilename(s) == ReplaceForbidden(s)
  {
    var a := ReplaceForbidden(s);
    assert Cleaned(s) == a;
    assert NoSpace(a);
    assert IsCleanText(a);
    TrimOfClean(a);
  }

  lemma FallbackIsSafe()
    ensures IsSafeName(Fallback)
  {
    var f := Fallback;
    assert forall i :: 0 <= i < |f| ==> 'a' <= f[i] <= 'z';
  }

  /** A name that already has the safe shape and no trailing space comes back unchanged. */
  lemma SafeNameIsFixpoint(s: string)
    requires IsSafeName(s)
    requires s[|s| - 1] != ' '
    ensures SafeFilename(s) == s
  {
    assert ReplaceForbidden(s) == s;
    CollapseRunsNoop(s);
    assert IsCleanText(s);
    TrimOfClean(s);
  }

  lemma TailShape(s: string)
    requires |s| > 0 && PlainSpaces(s) && NoDoubleSpace(s)
    ensures PlainSpaces(s[1..]) && NoDoubleSpace(s[1..])
    ensures IsJsSpace(s[0]) && |s| > 1 ==> !IsJsSpace(s[1])
  {
    assert forall i :: 0 <= i < |s| - 1 ==> s[1..][i] == s[i + 1];
  }

  /** Collapsing changes nothing when every space is a lone plain space. */
  lemma {:induction false} CollapseRunsNoop(s: string)
    requires PlainSpaces(s) && NoDoubleSpace(s)
    ensures CollapseRuns(s, IsJsSpace, ' ') == s
    decreases |s|
  {
    if |s| > 0 {
      var t := s[1..];
      TailShape(s);
      CollapseRunsNoop(t);
      if IsJsSpace(s[0]) {
        DropWhileNoop(t, IsJsSpace);
        assert CollapseRuns(s, IsJsSpace, ' ') == [' '] + CollapseRuns(t, IsJsSpace, ' ');
      } else {
        assert CollapseRuns(s, IsJsSpace, ' ') == [s[0]] + CollapseRuns(t, IsJsSpace, ' ');
      }
      assert [s[0]] + t == s;
    }
  }
}

=== FILE: flow.dfy ===
/**
 * What the two converters share: the set of block tags (`BLOCK_TAGS`), the picture tags both
 * inline renderers drop, the direct list items of a list (`:scope > li`), the one-line text of a
 * list item or heading, the text of a preformatted block and the plain text of an inline node.
 */
module Flow {
  import opened Wrappers
  import opened Text
  import opened Dom

  predicate IsBlockTag(t: string) {
    t in {"P", "DIV", "BLOCKQUOTE", "PRE", "H1", "H2", "H3", "H4", "H5", "H6", "UL", "OL", "LI", "HR"}
  }

  /** The block tags the walks treat as paragraph containers, set apart from the other tags they test. */
  lemma ContainerTag(t: string)
    requires t == "P" || t == "DIV"
    ensures IsBlockTag(t) && t != "BR" && t != "HR" && t != "PRE" && t != "BLOCKQUOTE"
    ensures t != "UL" && t != "OL" && t != "LI" && !(|t| > 0 && t[0] == 'H')
  {
  }

  /** A block tag is not a line break. */
  lemma BlockTagNotBreak(t: string)
    requires IsBlockTag(t)
    ensures t != "BR"
  {
  }

  /** The rule tag is a block tag, and the first one the block branch tests. */
  lemma RuleTag(t: string)
    requires t == "HR"
    ensures IsBlockTag(t) && t != "BR"
  {
  }

  /** A quote tag, set apart from the other tags the walks test before it. */
  lemma QuoteTag(t: string)
    requires t == "BLOCKQUOTE"
    ensures IsBlockTag(t) && t != "BR" && t != "HR" && t != "PRE"
  {
  }

  /** Tags both inline renderers turn into nothing. */
  predicate IsPictureTag(t: string) {
    t in {"IMG", "PICTURE", "SOURCE", "SVG"}
  }

  predicate IsItem(n: Node) {
    n.Elem? && TagOf(n) == "LI"
  }

  /** The list items among a list's children, in document order; everything else is skipped. */
  function ItemsOf(ch: seq<Node>): (lis: seq<Node>)
    ensures forall i :: 0 <= i < |lis| ==> IsItem(lis[i])
    ensures forall i :: 0 <= i < |ch| && IsItem(ch[i]) ==> ch[i] in lis
    ensures |lis| <= |ch|
    ensures (forall i :: 0 <= i < |ch| ==> IsItem(ch[i])) ==> lis == ch
    ensures |ch| == 1 ==> lis == if IsItem(ch[0]) then ch else []
    decreases |ch|
  {
    if |ch| == 0 then []
    else
      var rest := ItemsOf(ch[1..]);
      assert forall i :: 1 <= i < |ch| ==> ch[i] == ch[1..][i - 1];
      if IsItem(ch[0]) then [ch[0]] + rest else rest
  }

  /**
   * The items of two runs of children are the items of the first run followed by those of the
   * second: with the one-child case of `ItemsOf`, the items come in document order.
   */
  lemma {:induction false} ItemsOfAppend(a: seq<Node>, b: seq<Node>)
    ensures ItemsOf(a + b) == ItemsOf(a) + ItemsOf(b)
    decreases |a|
  {
    if |a| == 0 {
      assert a + b == b;
    } else {
      assert (a + b)[0] == a[0];
      assert (a + b)[1..] == a[1..] + b;
      ItemsOfAppend(a[1..], b);
    }
  }

  /**
   * `replace(/\n+/g, ' ').trim()`: a list item's or heading's inline markup on one line, or the
   * empty text when it holds nothing but white space.
   */
  function LineText(s: string): (r: string)
    ensures |r| == 0 <==> IsBlank(CollapseRuns(s, IsNewline, ' '))
    ensures |r| > 0 ==> IsCleanText(r)
    ensures '\n' !in r
  {
    var c := CollapseRuns(s, IsNewline, ' ');
    NoNewlineAfterCollapse(s);
    TrimKeepsAbsent(c, '\n');
    Trim(c)
  }

  /**
   * The one-line text is the collapsed text with its surrounding white space cut off: the
   * collapsed text is white space, then the result, then white space.
   */
  lemma LineTextIsSlice(s: string)
    ensures var c, r := CollapseRuns(s, IsNewline, ' '), LineText(s); var k := TrimStart(c);
      && k + |r| <= |c| && c == c[..k] + r + c[k + |r|..]
      && IsBlank(c[..k]) && IsBlank(c[k + |r|..])
  {
    TrimPadding(CollapseRuns(s, IsNewline, ' '));
  }

  /** On a text of one line, the one-line text is `trim()`, and a trimmed line is kept as is. */
  lemma LineTextOfLine(s: string)
    requires '\n' !in s
    ensures LineText(s) == Trim(s)
    ensures IsCleanText(s) ==> LineText(s) == s
  {
    CollapseRunsNone(s, IsNewline, ' ');
    if IsCleanText(s) {
      TrimOfClean(s);
    }
  }

  lemma NoNewlineAfterCollapse(s: string)
    ensures '\n' !in CollapseRuns(s, IsNewline, ' ')
  {
    var c := CollapseRuns(s, IsNewline, ' ');
    CollapseRunsChars(s, IsNewline, ' ');
    assert CharsFrom(c, s, IsNewline, ' ');
  }

  /**
   * The text of a preformatted block: the normalized text content without its trailing line
   * feeds (`replace(/\n+$/, '')`).
   */
  function PreText(n: Node): (r: string)
    ensures Nbsp !in r
    ensures |r| > 0 ==> r[|r| - 1] != '\n'
  {
    var t := NormalizeText(TextContent(n));
    var r := DropWhileEnd(t, IsNewline);
    assert Nbsp !in r by {
      forall i | 0 <= i < |r| ensures r[i] != Nbsp {
        assert r[i] == t[i];
      }
    }
    r
  }

  /** The preformatted text loses only line feeds, and only at the end. */
  lemma PreTextStrips(n: Node)
    ensures StripsLineFeeds(NormalizeText(TextContent(n)), PreText(n))
  {
    var t := NormalizeText(TextContent(n));
    var r := DropWhileEnd(t, IsNewline);
    DropWhileEndDrops(t, IsNewline);
    assert r == PreText(n);
  }

  /** `r` is `t` without a run of trailing line feeds, and nothing else is lost. */
  predicate StripsLineFeeds(t: string, r: string) {
    && |r| <= |t| && r == t[..|r|]
    && (forall i :: |r| <= i < |t| ==> t[i] == '\n')
  }

  /**
   * The plain text a reader sees in an inline node: its text nodes (normalized when `normalize`
   * holds), a line feed for each line break and nothing for pictures or other node kinds.
   */
  function Plain(n: Node, normalize: bool): string
    decreases n
  {
    match n
    case Text(v) => if normalize then NormalizeText(v) else v
    case Other => ""
    case Elem(_, _, ch) =>
      if TagOf(n) == "BR" then "\n"
      else if IsPictureTag(TagOf(n)) then ""
      else PlainSeq(ch, normalize)
  }

  function PlainSeq(ns: seq<Node>, normalize: bool): string
    decreases ns
  {
    if |ns| == 0 then "" else Plain(ns[0], normalize) + PlainSeq(ns[1..], normalize)
  }

  /** The one-line text of each list item, rendered by the format's inline renderer. */
  function ItemLines(lis: seq<Node>, inline: Node -> string): (r: seq<string>)
    ensures |r| == |lis|
    ensures forall j :: 0 <= j < |r| ==> r[j] == LineText(inline(lis[j]))
  {
    seq(|lis|, j requires 0 <= j < |lis| => LineText(inline(lis[j])))
  }

  /** The texts a one-line output holds: no line feed, and trimmed when non-empty. */
  predicate IsLine(t: string) {
    '\n' !in t && (|t| > 0 ==> IsCleanText(t))
  }

  /** The non-empty texts, in order: the items a list emits. */
  function NonEmpty(ts: seq<string>): (r: seq<string>)
    ensures |r| <= |ts|
  {
    if |ts| == 0 then []
    else (if |ts[0]| > 0 then [ts[0]] else []) + NonEmpty(ts[1..])
  }

  /** The kept texts are non-empty texts of the input, and one-line texts stay one-line texts. */
  lemma {:induction false} NonEmptyKeeps(ts: seq<string>)
    ensures forall j :: 0 <= j < |NonEmpty(ts)| ==> |NonEmpty(ts)[j]| > 0 && NonEmpty(ts)[j] in ts
    ensures (forall j :: 0 <= j < |ts| ==> IsLine(ts[j])) ==>
      forall j :: 0 <= j < |NonEmpty(ts)| ==> IsLine(NonEmpty(ts)[j])
    decreases |ts|
  {
    if |ts| > 0 {
      var r := NonEmpty(ts);
      var rest := NonEmpty(ts[1..]);
      NonEmptyKeeps(ts[1..]);
      var head := if |ts[0]| > 0 then [ts[0]] else [];
      assert r == head + rest;
      forall j | 0 <= j < |r| ensures |r[j]| > 0 && r[j] in ts {
        if j < |head| {
          assert r[j] == ts[0];
        } else {
          assert r[j] == rest[j - |head|];
          assert rest[j - |head|] in ts[1..];
        }
      }
    }
  }

  lemma ItemLinesAreLines(lis: seq<Node>, inline: Node -> string)
    ensures forall j :: 0 <= j < |NonEmpty(ItemLines(lis, inline))| ==> IsLine(NonEmpty(ItemLines(lis, inline))[j])
  {
    var ls := ItemLines(lis, inline);
    assert forall j :: 0 <= j < |ls| ==> IsLine(ls[j]);
    NonEmptyKeeps(ls);
  }

  /**
   * The list loop of both converters: the non-empty lines in order, each with its number in an
   * ordered list or with none in a bulleted one. The counter moves only on an emitted item.
   */
  function Numbered(lines: seq<string>, ordered: bool, idx: nat): seq<(Option<nat>, string)>
    decreases |lines|
  {
    if |lines| == 0 then []
    else if |lines[0]| > 0 then
      [(if ordered then Some(idx) else None, lines[0])] + Numbered(lines[1..], ordered, idx + 1)
    else Numbered(lines[1..], ordered, idx)
  }

  /**
   * One entry per non-empty line, in order; in an ordered list the k-th entry carries number
   * `idx + k`, so blank items use up no number.
   */
  lemma {:induction false} ListNumbering(lines: seq<string>, ordered: bool, idx: nat)
    ensures |Numbered(lines, ordered, idx)| == |NonEmpty(lines)|
    ensures forall j :: 0 <= j < |NonEmpty(lines)| ==>
      Numbered(lines, ordered, idx)[j] == (if ordered then Some(idx + j) else None, NonEmpty(lines)[j])
    decreases |lines|
  {
    if |lines| > 0 {
      var ne := NonEmpty(lines);
      var tail := NonEmpty(lines[1..]);
      var r := Numbered(lines, ordered, idx);
      if |lines[0]| > 0 {
        var rest := Numbered(lines[1..], ordered, idx + 1);
        ListNumbering(lines[1..], ordered, idx + 1);
        assert ne == [lines[0]] + tail;
        assert r == [(if ordered then Some(idx) else None, lines[0])] + rest;
        forall j | 0 <= j < |ne| ensures r[j] == (if ordered then Some(idx + j) else None, ne[j]) {
          if j > 0 {
            assert ne[j] == tail[j - 1] && r[j] == rest[j - 1];
          }
        }
      } else {
        ListNumbering(lines[1..], ordered, idx);
        assert ne == tail;
      }
    }
  }

  /** `while (out.length && p(out[out.length - 1])) out.pop()`. */
  function PopWhile<T>(out: seq<T>, p: T -> bool): (r: seq<T>)
    ensures r <= out
    ensures forall i :: |r| <= i < |out| ==> p(out[i])
    ensures |r| > 0 ==> !p(r[|r| - 1])
    ensures |out| == 0 || !p(out[|out| - 1]) ==> r == out
    decreases |out|
  {
    if |out| > 0 && p(out[|out| - 1]) then PopWhile(out[..|out| - 1], p) else out
  }
}

=== FILE: markup.dfy ===
/**
 * Markup removal, the yardstick for the inline renderers: scanning left to right, everything from
 * a `<` up to and including the next `>` is markup and every other character is text. Both
 * formats' inline output, with its markup removed, is exactly the escaped plain text of the node.
 */
module Markup {
  import opened Escape

  /** The text characters of `s` when the scan starts inside (`inTag`) or outside a tag. */
  function StripFrom(s: string, inTag: bool): string
    decreases |s|
  {
    if |s| == 0 then ""
    else if inTag then StripFrom(s[1..], s[0] != '>')
    else if s[0] == '<' then StripFrom(s[1..], true)
    else [s[0]] + StripFrom(s[1..], false)
  }

  /** Whether the scan of `s` ends inside a tag. */
  function EndsInTag(s: string, inTag: bool): bool
    decreases |s|
  {
    if |s| == 0 then inTag
    else if inTag then EndsInTag(s[1..], s[0] != '>')
    else EndsInTag(s[1..], s[0] == '<')
  }

  function StripTags(s: string): string {
    StripFrom(s, false)
  }

  /** Every tag opened in `s` is also closed in `s`. */
  predicate Closed(s: string) {
    !EndsInTag(s, false)
  }

  /** One complete tag: `<`, then anything but `>`, then `>`. */
  predicate IsTag(t: string) {
    && |t| >= 2 && t[0] == '<' && t[|t| - 1] == '>'
    && forall i :: 0 < i < |t| - 1 ==> t[i] != '>'
  }

  lemma {:induction false} ScanAppend(a: string, b: string, inTag: bool)
    ensures StripFrom(a + b, inTag) == StripFrom(a, inTag) + StripFrom(b, EndsInTag(a, inTag))
    ensures EndsInTag(a + b, inTag) == EndsInTag(b, EndsInTag(a, inTag))
    decreases |a|
  {
    if |a| > 0 {
      assert (a + b)[0] == a[0] && (a + b)[1..] == a[1..] + b;
      if inTag {
        ScanAppend(a[1..], b, a[0] != '>');
      } else {
        ScanAppend(a[1..], b, a[0] == '<');
      }
    } else {
      assert a + b == b;
    }
  }

  /** Concatenating closed pieces strips piecewise and stays closed. */
  lemma StripConcat(a: string, b: string)
    requires Closed(a)
    ensures StripTags(a + b) == StripTags(a) + StripTags(b)
    ensures Closed(a + b) <==> Closed(b)
  {
    ScanAppend(a, b, false);
  }

  /** Text without angle brackets is all text. */
  lemma {:induction false} StripPlain(s: string)
    requires forall i :: 0 <= i < |s| ==> s[i] != '<' && s[i] != '>'
    ensures StripTags(s) == s && Closed(s)
    decreases |s|
  {
    if |s| > 0 {
      StripPlain(s[1..]);
    }
  }

  /** Inside a tag, characters other than `>` are skipped. */
  lemma {:induction false} SkipInsideTag(s: string)
    requires forall i :: 0 <= i < |s| ==> s[i] != '>'
    ensures StripFrom(s, true) == "" && EndsInTag(s, true)
    decreases |s|
  {
    if |s| > 0 {
      SkipInsideTag(s[1..]);
    }
  }

  lemma StripTag(t: string)
    requires IsTag(t)
    ensures StripTags(t) == "" && Closed(t)
  {
    var mid := t[1..|t| - 1];
    SkipInsideTag(mid);
    assert t == [t[0]] + (mid + [t[|t| - 1]]);
    ScanAppend(mid, [t[|t| - 1]], true);
  }

  /** An element around closed content strips to the content. */
  lemma StripWrapped(open: string, inner: string, close: string)
    requires IsTag(open) && IsTag(close) && Closed(inner)
    ensures StripTags(open + inner + close) == StripTags(inner)
    ensures Closed(open + inner + close)
  {
    StripTag(open);
    StripTag(close);
    StripConcat(open, inner);
    StripConcat(open + inner, close);
  }

  /** Escaped text has no angle brackets, so it is all text. */
  lemma StripEscaped(s: string)
    ensures StripTags(EscapeXml(s)) == EscapeXml(s) && Closed(EscapeXml(s))
  {
    EscapeClean(s);
    StripPlain(EscapeXml(s));
  }

  /** A start tag with one attribute whose value is escaped text. */
  lemma AttrTagIsTag(prefix: string, value: string)
    requires |prefix| >= 1 && prefix[0] == '<' && forall i :: 0 <= i < |prefix| ==> prefix[i] != '>'
    ensures IsTag(prefix + EscapeXml(value) + "\">")
  {
    var e := EscapeXml(value);
    EscapeClean(value);
    var t := prefix + e + "\">";
    forall i | 0 < i < |t| - 1 ensures t[i] != '>' {
      if i < |prefix| {
        assert t[i] == prefix[i];
      } else if i < |prefix| + |e| {
        assert t[i] == e[i - |prefix|];
      } else {
        assert t[i] == '"';
      }
    }
  }
}

=== FILE: sanitize.dfy ===
/**
 * `cloneAndSanitize`: a copy of a fragment without scripts, styles, buttons, `.copy-button` and
 * `.hidden` elements, images, pictures, sources and svg drawings (each removed with its subtree),
 * and with every attribute of every descendant element removed except a non-empty `href` on a
 * link, which is replaced by its redirect-decoded target. The fragment's own root element is not
 * among the nodes `querySelectorAll` visits, so it keeps its attributes.
 */
module Sanitize {
  import opened Wrappers
  import opened Text
  import opened Dom

  /** Tags removed together with their subtree. */
  predicate IsDroppedTag(t: string) {
    t in {"SCRIPT", "STYLE", "BUTTON", "IMG", "PICTURE", "SOURCE", "SVG"}
  }

  predicate IsDropped(n: Node) {
    n.Elem? && (IsDroppedTag(TagOf(n)) || "copy-button" in Classes(n.attrs) || "hidden" in Classes(n.attrs))
  }

  /** What survives of an element's attributes: only a non-empty link target, decoded. */
  function KeptAttrs(n: Node, decode: string -> string): seq<Attr>
    requires n.Elem?
  {
    var href := GetAttr(n.attrs, "href");
    if TagOf(n) == "A" && href.Some? && href.value != "" then [Attr("href", decode(href.value))] else []
  }

  /** The attribute shape every sanitized descendant has. */
  predicate AttrsClean(tag: string, attrs: seq<Attr>) {
    |attrs| == 0 || (tag == "A" && |attrs| == 1 && attrs[0].name == "href")
  }

  /** A subtree holding no removed kind of element and no attribute other than a link's href. */
  predicate IsClean(n: Node)
    decreases n
  {
    match n
    case Elem(tag, attrs, ch) =>
      && !IsDroppedTag(UpperAscii(tag))
      && AttrsClean(UpperAscii(tag), attrs)
      && forall i :: 0 <= i < |ch| ==> IsClean(ch[i])
    case _ => true
  }

  /** Every node below the root is clean. */
  predicate IsSanitized(root: Node) {
    forall i :: 0 <= i < |ChildrenOf(root)| ==> IsClean(ChildrenOf(root)[i])
  }

  function CleanNode(n: Node, decode: string -> string): (r: Node)
    ensures Size(r) <= Size(n)
    ensures !IsDropped(n) ==> IsClean(r)
    ensures n.Elem? ==> r.Elem? && r.tag == n.tag
    ensures n.Elem? && TagOf(n) == "A" && GetAttr(n.attrs, "href").Some? && GetAttr(n.attrs, "href").value != ""
            ==> r.attrs == [Attr("href", decode(GetAttr(n.attrs, "href").value))]
    ensures !n.Elem? ==> r == n
    ensures n.Elem? ==> r.attrs == KeptAttrs(n, decode) && r.children == CleanSeq(n.children, decode)
    decreases n
  {
    match n
    case Elem(tag, attrs, ch) => Elem(tag, KeptAttrs(n, decode), CleanSeq(ch, decode))
    case _ => n
  }

  function CleanSeq(ns: seq<Node>, decode: string -> string): (r: seq<Node>)
    ensures SizeSeq(r) <= SizeSeq(ns)
    ensures forall i :: 0 <= i < |r| ==> IsClean(r[i])
    ensures (forall i :: 0 <= i < |ns| ==> !IsDropped(ns[i])) ==> |r| == |ns|
    decreases ns
  {
    if |ns| == 0 then []
    else
      var head := if IsDropped(ns[0]) then [] else [CleanNode(ns[0], decode)];
      var tail := CleanSeq(ns[1..], decode);
      assert SizeSeq(head + tail) == SizeSeq(head) + SizeSeq(tail) by {
        SizeSeqAppend(head, tail);
      }
      head + tail
  }

  /** A single node is removed, or kept as its cleaned copy. */
  lemma CleanSeqSingle(n: Node, decode: string -> string)
    ensures CleanSeq([n], decode) == if IsDropped(n) then [] else [CleanNode(n, decode)]
  {
    assert [n][1..] == [];
  }

  /**
   * Cleaning two runs of siblings is cleaning each run: with `CleanSeqSingle`, the kept nodes
   * are the cleaned copies of exactly the nodes not removed, in document order.
   */
  lemma {:induction false} CleanSeqAppend(a: seq<Node>, b: seq<Node>, decode: string -> string)
    ensures CleanSeq(a + b, decode) == CleanSeq(a, decode) + CleanSeq(b, decode)
    decreases |a|
  {
    if |a| == 0 {
      assert a + b == b;
    } else {
      assert (a + b)[0] == a[0];
      assert (a + b)[1..] == a[1..] + b;
      CleanSeqAppend(a[1..], b, decode);
    }
  }

  /** Every node that is not removed survives, cleaned, at its place among its kept siblings. */
  lemma CleanSeqKeeps(ns: seq<Node>, i: nat, decode: string -> string)
    requires i < |ns| && !IsDropped(ns[i])
    ensures CleanSeq(ns, decode)
         == CleanSeq(ns[..i], decode) + [CleanNode(ns[i], decode)] + CleanSeq(ns[i + 1..], decode)
  {
    var pre, x, post := ns[..i], ns[i], ns[i + 1..];
    assert CleanSeq(ns, decode) == CleanSeq(pre, decode) + CleanSeq([x] + post, decode) by {
      assert ns == pre + ([x] + post);
      CleanSeqAppend(pre, [x] + post, decode);
    }
    assert CleanSeq([x] + post, decode) == [CleanNode(x, decode)] + CleanSeq(post, decode) by {
      CleanSeqAppend([x], post, decode);
      CleanSeqSingle(x, decode);
    }
  }

  lemma {:induction false} SizeSeqAppend(a: seq<Node>, b: seq<Node>)
    ensures SizeSeq(a + b) == SizeSeq(a) + SizeSeq(b)
    decreases |a|
  {
    if |a| > 0 {
      assert (a + b)[1..] == a[1..] + b;
      SizeSeqAppend(a[1..], b);
    } else {
      assert a + b == b;
    }
  }

  function CloneAndSanitize(root: Node, decode: string -> string): (r: Node)
    ensures IsSanitized(r)
    ensures Size(r) <= Size(root)
    ensures root.Elem? ==> r.Elem? && r.tag == root.tag && r.attrs == root.attrs
    ensures !root.Elem? ==> r == root
    ensures root.Elem? ==> r.children == CleanSeq(root.children, decode)
    ensures root.Elem? ==> forall i :: 0 <= i < |root.children| && !IsDropped(root.children[i]) ==>
      CleanNode(root.children[i], decode) in r.children
  {
    match root
    case Elem(tag, attrs, ch) =>
      CleanSeqKeepsAll(ch, decode);
      Elem(tag, attrs, CleanSeq(ch, decode))
    case _ => root
  }

  lemma CleanSeqKeepsAll(ns: seq<Node>, decode: string -> string)
    ensures forall i :: 0 <= i < |ns| && !IsDropped(ns[i]) ==> CleanNode(ns[i], decode) in CleanSeq(ns, decode)
  {
    forall i | 0 <= i < |ns| && !IsDropped(ns[i])
      ensures CleanNode(ns[i], decode) in CleanSeq(ns, decode)
    {
      CleanSeqKeeps(ns, i, decode);
    }
  }

  // ---------------------------------------------------------------------------------------------
  // A fragment holding no removed kind of element keeps its whole tree: sanitizing then changes
  // attributes only.

  /** No element anywhere below `n` is of a removed kind. */
  predicate NoneDropped(n: Node)
    decreases n
  {
    match n
    case Elem(_, _, ch) => forall i :: 0 <= i < |ch| ==> !IsDropped(ch[i]) && NoneDropped(ch[i])
    case _ => true
  }

  /** The tree with every attribute erased. */
  function Bare(n: Node): Node
    decreases n
  {
    match n
    case Elem(tag, _, ch) => Elem(tag, [], seq(|ch|, i requires 0 <= i < |ch| => Bare(ch[i])))
    case _ => n
  }

  /** When no sibling is removed, every one is kept, cleaned, at its own position. */
  lemma {:induction false} CleanSeqAllKept(ns: seq<Node>, decode: string -> string)
    requires forall i :: 0 <= i < |ns| ==> !IsDropped(ns[i])
    ensures |CleanSeq(ns, decode)| == |ns|
    ensures forall i :: 0 <= i < |ns| ==> CleanSeq(ns, decode)[i] == CleanNode(ns[i], decode)
    decreases |ns|
  {
    if |ns| > 0 {
      var tail := ns[1..];
      assert forall i :: 0 <= i < |tail| ==> tail[i] == ns[i + 1];
      CleanSeqAllKept(tail, decode);
      assert CleanSeq(ns, decode) == [CleanNode(ns[0], decode)] + CleanSeq(tail, decode);
    }
  }

  /** Sanitizing a subtree with no removed element keeps every node: only attributes change. */
  lemma {:induction false} CleanKeepsShape(n: Node, decode: string -> string)
    requires NoneDropped(n)
    ensures Bare(CleanNode(n, decode)) == Bare(n)
    decreases n
  {
    match n
    case Elem(tag, attrs, ch) =>
      var cs := CleanSeq(ch, decode);
      CleanSeqAllKept(ch, decode);
      forall i | 0 <= i < |ch| ensures Bare(cs[i]) == Bare(ch[i]) {
        CleanKeepsShape(ch[i], decode);
      }
      assert Bare(CleanNode(n, decode)).children == Bare(n).children;
    case _ =>
  }

  /**
   * Sanitizing a fragment with no removed element loses no node, at any depth: erasing the
   * attributes, the copy is the fragment.
   */
  lemma SanitizeKeepsShape(root: Node, decode: string -> string)
    requires root.Elem? && NoneDropped(root)
    ensures Bare(CloneAndSanitize(root, decode)) == Bare(root)
  {
    assert Bare(CloneAndSanitize(root, decode)) == Bare(CleanNode(root, decode));
    CleanKeepsShape(root, decode);
  }

  // ---------------------------------------------------------------------------------------------
  // Sanitizing a sanitized fragment again, as the converters do for a quotation, changes nothing
  // when decoding a link target again changes nothing and never empties one.

  ghost predicate StableDecoder(decode: string -> string) {
    && (forall h :: h != "" ==> decode(h) != "")
    && (forall h :: decode(decode(h)) == decode(h))
  }

  lemma CleanNodeNotDropped(n: Node, decode: string -> string)
    requires !IsDropped(n)
    ensures !IsDropped(CleanNode(n, decode))
  {
    if n.Elem? {
      var r := CleanNode(n, decode);
      assert GetAttr(r.attrs, "class") == None;
    }
  }

  lemma {:induction false} CleanNodeTwice(n: Node, decode: string -> string)
    requires StableDecoder(decode)
    ensures CleanNode(CleanNode(n, decode), decode) == CleanNode(n, decode)
    decreases n
  {
    match n
    case Elem(tag, attrs, ch) =>
      CleanSeqTwice(ch, decode);
      var r := CleanNode(n, decode);
      assert KeptAttrs(r, decode) == r.attrs;
    case _ =>
  }

  lemma CleanSeqCons(x: Node, tail: seq<Node>, decode: string -> string)
    ensures CleanSeq([x] + tail, decode)
         == (if IsDropped(x) then [] else [CleanNode(x, decode)]) + CleanSeq(tail, decode)
  {
    assert ([x] + tail)[1..] == tail;
  }

  lemma {:induction false} CleanSeqTwice(ns: seq<Node>, decode: string -> string)
    requires StableDecoder(decode)
    ensures CleanSeq(CleanSeq(ns, decode), decode) == CleanSeq(ns, decode)
    decreases ns
  {
    if |ns| > 0 {
      var x, tail := ns[0], CleanSeq(ns[1..], decode);
      CleanSeqTwice(ns[1..], decode);
      if IsDropped(x) {
        assert CleanSeq(ns, decode) == tail;
      } else {
        var c := CleanNode(x, decode);
        assert CleanSeq(ns, decode) == [c] + tail;
        assert CleanSeq([c] + tail, decode) == [c] + CleanSeq(tail, decode) by {
          CleanNodeNotDropped(x, decode);
          CleanNodeTwice(x, decode);
          CleanSeqCons(c, tail, decode);
        }
      }
    }
  }

  lemma SanitizeIdempotent(root: Node, decode: string -> string)
    requires StableDecoder(decode)
    ensures CloneAndSanitize(CloneAndSanitize(root, decode), decode) == CloneAndSanitize(root, decode)
  {
    if root.Elem? {
      CleanSeqTwice(root.children, decode);
    }
  }
}

=== FILE: tags.dfy ===
/**
 * The de-duplication of the work's flat tag list in `parseStory`: a tag is kept when no earlier
 * tag has the same lower-cased text; kept tags stay in their original order.
 */
module Tags {
  import opened Text

  datatype Tag = Tag(text: string, isAdult: bool)

  /** The comparison key, `t.text.toLowerCase()`. */
  function Key(t: Tag): string {
    Lower(t.text)
  }

  function KeySet(tags: seq<Tag>): set<string> {
    set i | 0 <= i < |tags| :: Key(tags[i])
  }

  /** The tag at index `i` is the first one with its key. */
  predicate IsFirstOccurrence(tags: seq<Tag>, i: nat)
    requires i < |tags|
  {
    forall j :: 0 <= j < i ==> Key(tags[j]) != Key(tags[i])
  }

  /** Reference definition: the first occurrences, in input order. */
  function FirstOccurrences(tags: seq<Tag>): seq<Tag>
  {
    if |tags| == 0 then []
    else
      var init := tags[..|tags| - 1];
      FirstOccurrences(init) + (if IsFirstOccurrence(tags, |tags| - 1) then [tags[|tags| - 1]] else [])
  }

  predicate DistinctKeys(tags: seq<Tag>) {
    forall i, j :: 0 <= i < j < |tags| ==> Key(tags[i]) != Key(tags[j])
  }

  /** `a` can be obtained from `b` by deleting elements. */
  predicate IsSubsequence(a: seq<Tag>, b: seq<Tag>)
  {
    if |a| == 0 then true
    else if |b| == 0 then false
    else if a[|a| - 1] == b[|b| - 1] && IsSubsequence(a[..|a| - 1], b[..|b| - 1]) then true
    else IsSubsequence(a, b[..|b| - 1])
  }

  lemma KeySetSnoc(tags: seq<Tag>)
    requires |tags| > 0
    ensures KeySet(tags) == KeySet(tags[..|tags| - 1]) + {Key(tags[|tags| - 1])}
  {
    var init := tags[..|tags| - 1];
    assert forall i :: 0 <= i < |init| ==> init[i] == tags[i];
    forall k | k in KeySet(tags) ensures k in KeySet(init) + {Key(tags[|tags| - 1])} {
      var i :| 0 <= i < |tags| && Key(tags[i]) == k;
      if i < |init| {
        assert Key(init[i]) == k;
      }
    }
  }

  /** The last tag is a first occurrence exactly when its key is not among the earlier keys. */
  lemma FirstOccurrenceIffUnseen(tags: seq<Tag>)
    requires |tags| > 0
    ensures IsFirstOccurrence(tags, |tags| - 1) <==> Key(tags[|tags| - 1]) !in KeySet(tags[..|tags| - 1])
  {
    var init := tags[..|tags| - 1];
    if Key(tags[|tags| - 1]) in KeySet(init) {
      var j :| 0 <= j < |init| && Key(init[j]) == Key(tags[|tags| - 1]);
      assert tags[j] == init[j];
    }
  }

  /** The de-duplicated list has distinct keys and covers every key of the input. */
  lemma {:induction false} FirstOccurrencesProperties(tags: seq<Tag>)
    ensures DistinctKeys(FirstOccurrences(tags))
    ensures KeySet(FirstOccurrences(tags)) == KeySet(tags)
    ensures IsSubsequence(FirstOccurrences(tags), tags)
    decreases |tags|
  {
    if |tags| > 0 {
      var init := tags[..|tags| - 1];
      var last := tags[|tags| - 1];
      var prev := FirstOccurrences(init);
      FirstOccurrencesProperties(init);
      FirstOccurrenceIffUnseen(tags);
      KeySetSnoc(tags);
      var r := FirstOccurrences(tags);
      if IsFirstOccurrence(tags, |tags| - 1) {
        assert r == prev + [last];
        assert r[..|r| - 1] == prev;
        KeySetSnoc(r);
        forall i, j | 0 <= i < j < |r| ensures Key(r[i]) != Key(r[j]) {
          if j == |r| - 1 {
            assert Key(r[i]) in KeySet(prev) by {
              assert r[i] == prev[i];
            }
          } else {
            assert r[i] == prev[i] && r[j] == prev[j];
          }
        }
      } else {
        assert r == prev;
        SubsequenceOfPrefix(prev, tags);
      }
    }
  }

  lemma {:induction false} SubsequenceOfPrefix(a: seq<Tag>, b: seq<Tag>)
    requires |b| > 0 && IsSubsequence(a, b[..|b| - 1])
    ensures IsSubsequence(a, b)
  {
    if |a| > 0 {
      assert b[..|b| - 1] == b[..|b| - 1];
    }
  }

  /**
   * The script's filter with a `seen` set: keeps a tag whose lower-cased text has not been seen
   * and records that text.
   */
  method DedupTags(tags: seq<Tag>) returns (kept: seq<Tag>)
    ensures kept == FirstOccurrences(tags)
    ensures DistinctKeys(kept)
    ensures KeySet(kept) == KeySet(tags)
    ensures IsSubsequence(kept, tags)
  {
    var seen: set<string> := {};
    kept := [];
    var i := 0;
    while i < |tags|
      invariant 0 <= i <= |tags|
      invariant seen == KeySet(tags[..i])
      invariant kept == FirstOccurrences(tags[..i])
    {
      var prefix := tags[..i + 1];
      assert prefix[..i] == tags[..i];
      FirstOccurrenceIffUnseen(prefix);
      KeySetSnoc(prefix);
      var k := Key(tags[i]);
      if k !in seen {
        seen := seen + {k};
        kept := kept + [tags[i]];
      }
      i := i + 1;
    }
    assert tags[..|tags|] == tags;
    FirstOccurrencesProperties(tags);
  }
}

=== FILE: text.dfy ===
/**
 * String primitives the script builds on: JavaScript's white-space class (`\s`, `trim()`),
 * the regular-expression rewrites it applies (`replace(/^[ \t]+/, '')`, `replace(/\n+/g, ' ')`,
 * `replace(/\s+$/, '')`, ...), `split('\n')` / `join`, `normalizeText`, the decimal rendering of a
 * list number and the case mappings used for tag names and tag texts.
 */
module Text {

  const Nbsp: char := '\U{A0}'

  /** The characters matched by JavaScript's `\s` and removed by `String.prototype.trim`. */
  predicate IsJsSpace(c: char) {
    || c == ' ' || c == '\t' || c == '\n' || c == '\r' || c == '\U{B}' || c == '\U{C}'
    || c == Nbsp || c == '\U{1680}' || ('\U{2000}' <= c <= '\U{200A}')
    || c == '\U{2028}' || c == '\U{2029}' || c == '\U{202F}' || c == '\U{205F}'
    || c == '\U{3000}' || c == '\U{FEFF}'
  }

  /** The class `[ \t]` stripped from the start of a paragraph. */
  predicate IsIndent(c: char) {
    c == ' ' || c == '\t'
  }

  predicate IsNewline(c: char) {
    c == '\n'
  }

  /** A string that `trim()` empties. */
  predicate IsBlank(s: string) {
    forall i :: 0 <= i < |s| ==> IsJsSpace(s[i])
  }

  /** Removes the longest prefix whose characters satisfy `p` (`replace(/^[p]+/, '')`). */
  function DropWhile(s: string, p: char -> bool): (r: string)
    ensures |r| <= |s|
    ensures r == s[|s| - |r|..]
    ensures |r| > 0 ==> !p(r[0])
    decreases |s|
  {
    if |s| > 0 && p(s[0]) then DropWhile(s[1..], p) else s
  }

  /** Every removed character is in the class. */
  lemma {:induction false} DropWhileDrops(s: string, p: char -> bool)
    ensures forall i :: 0 <= i < |s| - |DropWhile(s, p)| ==> p(s[i])
    decreases |s|
  {
    if |s| > 0 && p(s[0]) {
      DropWhileDrops(s[1..], p);
      assert forall i :: 1 <= i < |s| ==> s[i] == s[1..][i - 1];
    }
  }

  /** Removes the longest suffix whose characters satisfy `p` (`replace(/[p]+$/, '')`). */
  function DropWhileEnd(s: string, p: char -> bool): (r: string)
    ensures |r| <= |s|
    ensures r == s[..|r|]
    ensures |r| > 0 ==> !p(r[|r| - 1])
    decreases |s|
  {
    if |s| > 0 && p(s[|s| - 1]) then DropWhileEnd(s[..|s| - 1], p) else s
  }

  /** Every removed character is in the class. */
  lemma {:induction false} DropWhileEndDrops(s: string, p: char -> bool)
    ensures forall i :: |DropWhileEnd(s, p)| <= i < |s| ==> p(s[i])
    decreases |s|
  {
    if |s| > 0 && p(s[|s| - 1]) {
      DropWhileEndDrops(s[..|s| - 1], p);
    }
  }

  /** `String.prototype.trim`. */
  function Trim(s: string): (r: string)
    ensures |r| <= |s|
    ensures |r| == 0 <==> IsBlank(s)
    ensures |r| > 0 ==> !IsJsSpace(r[0]) && !IsJsSpace(r[|r| - 1])
  {
    var d := DropWhile(s, IsJsSpace);
    var r := DropWhileEnd(d, IsJsSpace);
    DropWhileDrops(s, IsJsSpace);
    DropWhileEndDrops(d, IsJsSpace);
    assert |r| > 0 ==> r[0] == d[0] == s[|s| - |d|];
    assert |r| == 0 ==> |d| == 0;
    r
  }

  /** Trimming adds no character. */
  lemma TrimKeepsAbsent(s: string, x: char)
    requires x !in s
    ensures x !in Trim(s)
  {
    var d := DropWhile(s, IsJsSpace);
    var r := DropWhileEnd(d, IsJsSpace);
    assert r == Trim(s);
    assert forall i :: 0 <= i < |d| ==> d[i] == s[|s| - |d| + i];
    assert forall i :: 0 <= i < |r| ==> r[i] == d[i];
  }

  /** Where the text `trim()` keeps begins. */
  function TrimStart(s: string): nat {
    |s| - |DropWhile(s, IsJsSpace)|
  }

  lemma SliceOfSlice(s: string, d: string, t: string, k: nat)
    requires k <= |s| && d == s[k..] && |t| <= |d| && t == d[..|t|]
    ensures k + |t| <= |s| && t == s[k..k + |t|]
  {
    assert s[k..][..|t|] == s[k..k + |t|];
  }

  /** `trim()` keeps a contiguous piece of its input. */
  lemma TrimIsSlice(s: string)
    ensures TrimStart(s) + |Trim(s)| <= |s|
    ensures Trim(s) == s[TrimStart(s)..TrimStart(s) + |Trim(s)|]
  {
    var d := DropWhile(s, IsJsSpace);
    var t := DropWhileEnd(d, IsJsSpace);
    var k := |s| - |d|;
    assert Trim(s) == t by {
      TrimUnfold(s);
    }
    assert TrimStart(s) == k;
    SliceOfSlice(s, d, t, k);
  }

  lemma TrimUnfold(s: string)
    ensures Trim(s) == DropWhileEnd(DropWhile(s, IsJsSpace), IsJsSpace)
  {
  }

  /** A trimmed, non-empty text: what every emitted paragraph holds. */
  predicate IsCleanText(t: string) {
    |t| > 0 && !IsJsSpace(t[0]) && !IsJsSpace(t[|t| - 1])
  }

  lemma {:induction false} DropWhileNoop(s: string, p: char -> bool)
    requires |s| == 0 || !p(s[0])
    ensures DropWhile(s, p) == s
  {
  }

  lemma {:induction false} DropWhileEndNoop(s: string, p: char -> bool)
    requires |s| == 0 || !p(s[|s| - 1])
    ensures DropWhileEnd(s, p) == s
  {
  }

  /** Trimming a trimmed text changes nothing, so `trim()` is idempotent. */
  lemma TrimOfClean(t: string)
    requires IsCleanText(t)
    ensures Trim(t) == t
  {
    DropWhileNoop(t, IsJsSpace);
    DropWhileEndNoop(t, IsJsSpace);
  }

  lemma TrimIdempotent(s: string)
    ensures Trim(Trim(s)) == Trim(s)
  {
    if |Trim(s)| > 0 {
      TrimOfClean(Trim(s));
    }
  }

  /**
   * Dropping a prefix of white space before `trim()` changes nothing: the paragraph flush's
   * explicit removal of leading spaces and tabs is subsumed by its `trim()`.
   */
  lemma {:induction false} TrimAfterDropLeading(s: string, p: char -> bool)
    requires forall c :: p(c) ==> IsJsSpace(c)
    ensures Trim(DropWhile(s, p)) == Trim(s)
    decreases |s|
  {
    if |s| > 0 && p(s[0]) {
      TrimAfterDropLeading(s[1..], p);
      assert DropWhile(s, IsJsSpace) == DropWhile(s[1..], IsJsSpace);
    }
  }

  /**
   * The text a paragraph flush keeps, `replace(/^[ \t]+/, '').trim()`: the leading spaces and
   * tabs it removes first are removed by `trim()` anyway.
   */
  function TrimParagraph(s: string): (t: string)
    ensures t == Trim(s)
    ensures |t| == 0 <==> IsBlank(s)
    ensures |t| > 0 ==> IsCleanText(t)
  {
    TrimAfterDropLeading(s, IsIndent);
    Trim(DropWhile(s, IsIndent))
  }

  /** Dropping trailing white space before `trim()` changes nothing either. */
  lemma {:induction false} TrimAfterDropTrailing(s: string)
    ensures Trim(DropWhileEnd(s, IsJsSpace)) == Trim(s)
  {
    var e := DropWhileEnd(s, IsJsSpace);
    if IsBlank(s) {
      assert IsBlank(e);
    } else {
      DropWhileEndDrops(s, IsJsSpace);
      assert |e| > 0;
      var t := Trim(s);
      TrimOfClean(t);
      DropEndThenDropStart(s);
    }
  }

  /** Dropping leading and trailing white space commutes. */
  lemma {:induction false} DropEndThenDropStart(s: string)
    ensures DropWhileEnd(DropWhile(DropWhileEnd(s, IsJsSpace), IsJsSpace), IsJsSpace)
         == DropWhileEnd(DropWhile(s, IsJsSpace), IsJsSpace)
    decreases |s|
  {
    if |s| > 0 && IsJsSpace(s[0]) {
      var e := DropWhileEnd(s, IsJsSpace);
      if |e| == 0 {
        assert IsBlank(s) by {
          DropWhileEndDrops(s, IsJsSpace);
        }
        BlankDropsToEmpty(s);
      } else {
        assert DropWhile(s, IsJsSpace) == DropWhile(s[1..], IsJsSpace);
        assert DropWhile(e, IsJsSpace) == DropWhile(DropWhileEnd(s[1..], IsJsSpace), IsJsSpace) by {
          DropEndTail(s);
          assert e[0] == s[0];
        }
        DropEndThenDropStart(s[1..]);
      }
    }
  }

  lemma {:induction false} BlankDropsToEmpty(s: string)
    requires IsBlank(s)
    ensures DropWhile(s, IsJsSpace) == ""
    ensures DropWhileEnd(s, IsJsSpace) == ""
  {
  }

  /** When the first character survives trailing removal, removing it first commutes with it. */
  lemma {:induction false} DropEndTail(s: string)
    requires |s| > 0 && |DropWhileEnd(s, IsJsSpace)| > 0
    ensures DropWhileEnd(s[1..], IsJsSpace) == DropWhileEnd(s, IsJsSpace)[1..]
    decreases |s|
  {
    if IsJsSpace(s[|s| - 1]) {
      var u := s[..|s| - 1];
      assert DropWhileEnd(s, IsJsSpace) == DropWhileEnd(u, IsJsSpace);
      assert s[1..][..|s[1..]| - 1] == u[1..];
      DropEndTail(u);
    }
  }

  /**
   * Replaces every maximal run of characters satisfying `p` by the single character `c`
   * (`replace(/[p]+/g, c)`).
   */
  function CollapseRuns(s: string, p: char -> bool, c: char): (r: string)
    ensures |r| <= |s|
    ensures |s| > 0 ==> |r| > 0 && r[0] == (if p(s[0]) then c else s[0])
    decreases |s|
  {
    if |s| == 0 then ""
    else if p(s[0]) then [c] + CollapseRuns(DropWhile(s[1..], p), p, c)
    else [s[0]] + CollapseRuns(s[1..], p, c)
  }

  /** Every character of `r` is `c` or a character of `s` outside the class. */
  predicate CharsFrom(r: string, s: string, p: char -> bool, c: char) {
    forall i :: 0 <= i < |r| ==> r[i] == c || (r[i] in s && !p(r[i]))
  }

  /** Every output character is `c` or an input character outside the class. */
  lemma {:induction false} CollapseRunsChars(s: string, p: char -> bool, c: char)
    ensures CharsFrom(CollapseRuns(s, p, c), s, p, c)
    decreases |s|
  {
    if |s| > 0 {
      if p(s[0]) {
        var t := DropWhile(s[1..], p);
        var rest := CollapseRuns(t, p, c);
        CollapseRunsChars(t, p, c);
        assert t == s[|s| - |t|..];
        CharsFromSuffix(rest, s, t, p, c);
        CharsFromCons(c, rest, s, p, c);
      } else {
        var rest := CollapseRuns(s[1..], p, c);
        CollapseRunsChars(s[1..], p, c);
        CharsFromSuffix(rest, s, s[1..], p, c);
        CharsFromCons(s[0], rest, s, p, c);
      }
    }
  }

  /** Characters drawn from a suffix are drawn from the whole text. */
  lemma CharsFromSuffix(r: string, s: string, t: string, p: char -> bool, c: char)
    requires |t| <= |s| && t == s[|s| - |t|..] && CharsFrom(r, t, p, c)
    ensures CharsFrom(r, s, p, c)
  {
    forall i | 0 <= i < |r| && r[i] != c ensures r[i] in s {
      var k :| 0 <= k < |t| && t[k] == r[i];
      assert s[|s| - |t| + k] == r[i];
    }
  }

  lemma CharsFromCons(x: char, r: string, s: string, p: char -> bool, c: char)
    requires x == c || (x in s && !p(x))
    requires CharsFrom(r, s, p, c)
    ensures CharsFrom([x] + r, s, p, c)
  {
    forall i | 0 <= i < |[x] + r| ensures ([x] + r)[i] == c || (([x] + r)[i] in s && !p(([x] + r)[i])) {
      if i > 0 {
        assert ([x] + r)[i] == r[i - 1];
      }
    }
  }

  /** No two neighbouring characters are both in the class. */
  predicate NoAdjacent(r: string, p: char -> bool) {
    forall i :: 0 <= i < |r| - 1 ==> !(p(r[i]) && p(r[i + 1]))
  }

  lemma NoAdjacentCons(x: char, rest: string, p: char -> bool)
    requires NoAdjacent(rest, p)
    requires |rest| > 0 && p(x) ==> !p(rest[0])
    ensures NoAdjacent([x] + rest, p)
  {
    var r := [x] + rest;
    forall i | 0 <= i < |r| - 1 ensures !(p(r[i]) && p(r[i + 1])) {
      if i > 0 {
        assert r[i] == rest[i - 1] && r[i + 1] == rest[i];
      }
    }
  }

  /** Every run became one character. */
  lemma {:induction false} CollapseRunsSingle(s: string, p: char -> bool, c: char)
    ensures NoAdjacent(CollapseRuns(s, p, c), p)
    decreases |s|
  {
    if |s| > 0 {
      if p(s[0]) {
        var t := DropWhile(s[1..], p);
        CollapseRunsSingle(t, p, c);
        NoAdjacentCons(c, CollapseRuns(t, p, c), p);
      } else {
        CollapseRunsSingle(s[1..], p, c);
        NoAdjacentCons(s[0], CollapseRuns(s[1..], p, c), p);
      }
    }
  }

  /** Replaces every occurrence of `a` by `b`. */
  function ReplaceChar(s: string, a: char, b: char): (r: string)
    ensures |r| == |s|
    ensures forall i :: 0 <= i < |s| ==> r[i] == (if s[i] == a then b else s[i])
  {
    seq(|s|, i requires 0 <= i < |s| => if s[i] == a then b else s[i])
  }

  /** Removes every occurrence of `a`. */
  function RemoveChar(s: string, a: char): (r: string)
    ensures a !in r
    ensures |r| <= |s|
    ensures a !in s ==> r == s
  {
    if |s| == 0 then ""
    else if s[0] == a then RemoveChar(s[1..], a)
    else [s[0]] + RemoveChar(s[1..], a)
  }

  function Count(s: string, c: char): nat {
    if |s| == 0 then 0 else (if s[0] == c then 1 else 0) + Count(s[1..], c)
  }

  lemma {:induction false} CountAppend(a: string, b: string, c: char)
    ensures Count(a + b, c) == Count(a, c) + Count(b, c)
  {
    if |a| > 0 {
      assert (a + b)[1..] == a[1..] + b;
      CountAppend(a[1..], b, c);
    } else {
      assert a + b == b;
    }
  }

  lemma {:induction false} CountZero(s: string, c: char)
    requires c !in s
    ensures Count(s, c) == 0
    decreases |s|
  {
    if |s| > 0 {
      CountZero(s[1..], c);
    }
  }

  /** `String.prototype.split(sep)` for a one-character separator. */
  function Split(s: string, sep: char): (parts: seq<string>)
    ensures |parts| == Count(s, sep) + 1
    ensures forall k :: 0 <= k < |parts| ==> sep !in parts[k]
    ensures forall k, i :: 0 <= k < |parts| && 0 <= i < |parts[k]| ==> parts[k][i] in s
    decreases |s|
  {
    if |s| == 0 then [""]
    else
      var rest := Split(s[1..], sep);
      if s[0] == sep then [""] + rest
      else [[s[0]] + rest[0]] + rest[1..]
  }

  /** `Array.prototype.join(d)`. */
  function Join(parts: seq<string>, d: string): string
  {
    if |parts| == 0 then ""
    else if |parts| == 1 then parts[0]
    else parts[0] + d + Join(parts[1..], d)
  }

  /** Joining the pieces of a split with the separator gives back the original text. */
  lemma {:induction false} SplitThenJoin(s: string, sep: char)
    ensures Join(Split(s, sep), [sep]) == s
    decreases |s|
  {
    if |s| > 0 {
      var rest := Split(s[1..], sep);
      SplitThenJoin(s[1..], sep);
      if s[0] == sep {
        assert ([""] + rest)[1..] == rest;
      } else {
        var parts := [[s[0]] + rest[0]] + rest[1..];
        assert parts[1..] == rest[1..];
        if |rest| > 1 {
          assert Join(rest, [sep]) == rest[0] + [sep] + Join(rest[1..], [sep]);
        }
      }
    }
  }

  /** A text free of the separator splits into itself alone. */
  lemma {:induction false} SplitNoSeparator(a: string, sep: char)
    requires sep !in a
    ensures Split(a, sep) == [a]
    decreases |a|
  {
    if |a| > 0 {
      SplitNoSeparator(a[1..], sep);
      assert [a[0]] + a[1..] == a;
    }
  }

  lemma {:induction false} SplitAtSeparator(a: string, sep: char, b: string)
    requires sep !in a
    ensures Split(a + [sep] + b, sep) == [a] + Split(b, sep)
    decreases |a|
  {
    var s := a + [sep] + b;
    if |a| == 0 {
      assert s[1..] == b;
    } else {
      assert s[1..] == a[1..] + [sep] + b;
      SplitAtSeparator(a[1..], sep, b);
      assert [a[0]] + a[1..] == a;
    }
  }

  /** Splitting a join of separator-free pieces gives back the pieces. */
  lemma {:induction false} JoinThenSplit(parts: seq<string>, sep: char)
    requires |parts| >= 1
    requires forall k :: 0 <= k < |parts| ==> sep !in parts[k]
    ensures Split(Join(parts, [sep]), sep) == parts
    decreases |parts|
  {
    if |parts| == 1 {
      SplitNoSeparator(parts[0], sep);
    } else {
      JoinThenSplit(parts[1..], sep);
      SplitAtSeparator(parts[0], sep, Join(parts[1..], [sep]));
      assert [parts[0]] + parts[1..] == parts;
    }
  }

  /** Replaces each CR LF pair, scanning left to right, by LF (`replace(/\r\n/g, '\n')`). */
  function ReplaceCrlf(s: string): (r: string)
    ensures |r| <= |s|
    decreases |s|
  {
    if |s| == 0 then ""
    else if |s| >= 2 && s[0] == '\r' && s[1] == '\n' then "\n" + ReplaceCrlf(s[2..])
    else [s[0]] + ReplaceCrlf(s[1..])
  }

  /**
   * The replacement keeps the number of line feeds, introduces no new character, and changes
   * nothing in a text without carriage returns.
   */
  lemma {:induction false} ReplaceCrlfFacts(s: string)
    ensures Count(ReplaceCrlf(s), '\n') == Count(s, '\n')
    ensures forall i :: 0 <= i < |ReplaceCrlf(s)| ==> ReplaceCrlf(s)[i] in s
    ensures '\r' !in s ==> ReplaceCrlf(s) == s
    decreases |s|
  {
    var r := ReplaceCrlf(s);
    if |s| >= 2 && s[0] == '\r' && s[1] == '\n' {
      var t := s[2..];
      ReplaceCrlfFacts(t);
      assert r == "\n" + ReplaceCrlf(t);
      assert Count(s, '\n') == 1 + Count(t, '\n') by {
        assert s[1..][1..] == t;
      }
      assert r[1..] == ReplaceCrlf(t);
      forall i | 0 <= i < |r| ensures r[i] in s {
        if i > 0 {
          assert r[i] == ReplaceCrlf(t)[i - 1];
          assert r[i] in t;
        } else {
          assert s[1] == '\n';
        }
      }
      assert s[0] in s;
    } else if |s| > 0 {
      var t := s[1..];
      ReplaceCrlfFacts(t);
      assert r == [s[0]] + ReplaceCrlf(t);
      assert r[1..] == ReplaceCrlf(t);
      forall i | 0 <= i < |r| ensures r[i] in s {
        if i > 0 {
          assert r[i] == ReplaceCrlf(t)[i - 1];
          assert r[i] in t;
        }
      }
      if '\r' !in s {
        assert '\r' !in t;
        assert [s[0]] + t == s;
      }
    }
  }

  lemma {:induction false} CountReplaceOther(s: string, a: char, b: char, c: char)
    requires a != c && b != c
    ensures Count(ReplaceChar(s, a, b), c) == Count(s, c)
    decreases |s|
  {
    if |s| > 0 {
      assert ReplaceChar(s, a, b)[1..] == ReplaceChar(s[1..], a, b);
      CountReplaceOther(s[1..], a, b, c);
    }
  }

  /**
   * `normalizeText`: non-breaking spaces become ordinary spaces and CR LF pairs become LF. The
   * number of line feeds, hence the number of lines a later `split('\n')` yields, is unchanged.
   */
  function NormalizeText(s: string): (r: string)
    ensures Nbsp !in r
    ensures |r| <= |s|
    ensures Count(r, '\n') == Count(s, '\n')
    ensures '\r' !in s && Nbsp !in s ==> r == s
    ensures forall i :: 0 <= i < |r| ==> r[i] == ' ' || r[i] in s
    ensures '\r' !in s ==>
      |r| == |s| && forall i :: 0 <= i < |s| ==> r[i] == (if s[i] == Nbsp then ' ' else s[i])
  {
    var a := ReplaceChar(s, Nbsp, ' ');
    assert forall i :: 0 <= i < |a| ==> a[i] == ' ' || a[i] in s;
    CountReplaceOther(s, Nbsp, ' ', '\n');
    assert '\r' !in s ==> '\r' !in a;
    assert Nbsp !in s ==> a == s;
    ReplaceCrlfFacts(a);
    ReplaceCrlf(a)
  }

  /** A leading character other than CR is kept as it is. */
  lemma ReplaceCrlfCons(c: char, t: string)
    requires c != '\r'
    ensures ReplaceCrlf([c] + t) == [c] + ReplaceCrlf(t)
  {
    assert ([c] + t)[1..] == t;
  }

  /** A prefix without carriage returns passes through unchanged. */
  lemma {:induction false} ReplaceCrlfPrefix(a: string, t: string)
    requires '\r' !in a
    ensures ReplaceCrlf(a + t) == a + ReplaceCrlf(t)
    decreases |a|
  {
    if |a| == 0 {
      assert a + t == t;
    } else {
      assert a + t == [a[0]] + (a[1..] + t);
      assert a[0] in a;
      ReplaceCrlfCons(a[0], a[1..] + t);
      ReplaceCrlfPrefix(a[1..], t);
      assert [a[0]] + a[1..] == a;
    }
  }

  lemma ReplaceCrlfAfter(a: string, b: string)
    requires '\r' !in a
    ensures ReplaceCrlf(a + "\n" + b) == a + "\n" + ReplaceCrlf(b)
  {
    var t := [('\n' as char)] + b;
    ReplaceCrlfCons('\n', b);
    ReplaceCrlfPrefix(a, t);
    assert a + "\n" + b == a + t;
  }

  /** A CR LF pair after a prefix without carriage returns becomes a single LF. */
  lemma ReplaceCrlfAtPair(a: string, b: string)
    requires '\r' !in a
    ensures ReplaceCrlf(a + "\r\n" + b) == a + "\n" + ReplaceCrlf(b)
  {
    var t := "\r\n" + b;
    assert t[2..] == b;
    assert ReplaceCrlf(t) == "\n" + ReplaceCrlf(b);
    ReplaceCrlfPrefix(a, t);
    assert a + "\r\n" + b == a + t;
  }

  /** A carriage return not followed by a line feed is kept. */
  lemma ReplaceCrlfLoneCr(t: string)
    requires |t| == 0 || t[0] != '\n'
    ensures ReplaceCrlf("\r" + t) == "\r" + ReplaceCrlf(t)
  {
    assert ("\r" + t)[1..] == t;
  }

  /** Normalizing turns a CR LF pair into one LF and treats the lines on either side apart. */
  lemma NormalizeCrlf(a: string, b: string)
    requires '\r' !in a
    ensures NormalizeText(a + "\r\n" + b) == NormalizeText(a) + "\n" + NormalizeText(b)
  {
    var ra := ReplaceChar(a, Nbsp, ' ');
    var rb := ReplaceChar(b, Nbsp, ' ');
    assert ReplaceChar(a + "\r\n" + b, Nbsp, ' ') == ra + "\r\n" + rb;
    assert '\r' !in ra;
    ReplaceCrlfAtPair(ra, rb);
    ReplaceCrlfFacts(ra);
  }

  /** Normalizing works line by line once the first line holds no carriage return. */
  lemma NormalizeAround(a: string, b: string)
    requires '\r' !in a
    ensures NormalizeText(a + "\n" + b) == NormalizeText(a) + "\n" + NormalizeText(b)
  {
    var ra := ReplaceChar(a, Nbsp, ' ');
    var rb := ReplaceChar(b, Nbsp, ' ');
    assert ReplaceChar(a + "\n" + b, Nbsp, ' ') == ra + "\n" + rb;
    assert '\r' !in ra;
    ReplaceCrlfAfter(ra, rb);
    ReplaceCrlfFacts(ra);
  }

  /** Whether `sub` occurs in `s` (`String.prototype.includes`). */
  predicate Contains(s: string, sub: string)
    decreases |s|
  {
    if |sub| <= |s| && s[..|sub|] == sub then true
    else if |s| == 0 then false
    else Contains(s[1..], sub)
  }

  lemma {:induction false} ContainsAt(s: string, sub: string, i: nat)
    requires i + |sub| <= |s| && s[i..i + |sub|] == sub
    ensures Contains(s, sub)
    decreases i
  {
    if i > 0 && !(|sub| <= |s| && s[..|sub|] == sub) {
      assert s[1..][i - 1..i - 1 + |sub|] == s[i..i + |sub|];
      ContainsAt(s[1..], sub, i - 1);
    }
  }

  /** Text around an occurrence keeps it. */
  lemma {:induction false} ContainsWithin(a: string, s: string, b: string, sub: string)
    requires Contains(s, sub)
    ensures Contains(a + s + b, sub)
    decreases |s|
  {
    if |sub| <= |s| && s[..|sub|] == sub {
      assert (a + s + b)[|a|..|a| + |sub|] == sub;
      ContainsAt(a + s + b, sub, |a|);
    } else {
      ContainsWithin(a + [s[0]], s[1..], b, sub);
      assert a + [s[0]] + s[1..] + b == a + s + b;
    }
  }

  function DigitChar(d: nat): (c: char)
    requires d < 10
    ensures '0' <= c <= '9'
  {
    (48 + d) as char
  }

  predicate IsDigits(s: string) {
    forall i :: 0 <= i < |s| ==> '0' <= s[i] <= '9'
  }

  /** The decimal text of a list number, as JavaScript's template literal renders it. */
  function Decimal(n: nat): (r: string)
    ensures |r| >= 1 && IsDigits(r)
    ensures |r| > 1 ==> r[0] != '0'
  {
    if n < 10 then [DigitChar(n)] else Decimal(n / 10) + [DigitChar(n % 10)]
  }

  function ParseDecimal(s: string): nat
    requires IsDigits(s)
  {
    if |s| == 0 then 0 else ParseDecimal(s[..|s| - 1]) * 10 + (s[|s| - 1] as int - 48)
  }

  /** Reading back a rendered number gives the number, so distinct numbers render distinctly. */
  lemma {:induction false} DecimalRoundTrip(n: nat)
    ensures ParseDecimal(Decimal(n)) == n
  {
    if n >= 10 {
      DecimalRoundTrip(n / 10);
      var r := Decimal(n);
      assert r[..|r| - 1] == Decimal(n / 10);
    }
  }

  /** `toUpperCase` restricted to ASCII letters; other characters are kept as they are. */
  function UpperAscii(s: string): (r: string)
    ensures |r| == |s|
  {
    seq(|s|, i requires 0 <= i < |s| => if 'a' <= s[i] <= 'z' then (s[i] as int - 32) as char else s[i])
  }

  /** Appending a two-part text is appending its parts in turn. */
  lemma ConcatAssoc(x: string, y: string, z: string, w: string)
    requires w == y + z
    ensures x + y + z == x + w
  {
  }

  /** The element after a prefix of a longer sequence. */
  lemma PrefixElement<T>(a: seq<T>, x: T, out: seq<T>)
    requires a + [x] <= out
    ensures a <= out && |out| > |a| && out[|a|] == x
  {
    assert (a + [x])[|a|] == x;
  }

  /** Appending to nothing gives the appended text. */
  lemma EmptyConcat(s: string)
    ensures "" + s == s
  {
  }

  /** The upper-cased names of the tags the walks meet as literals. */
  lemma UpperTagNames()
    ensures UpperAscii("br") == "BR" && UpperAscii("hr") == "HR" && UpperAscii("u") == "U"
  {
  }

  /** `toLowerCase` on the Latin and Cyrillic capitals that occur in tag texts. */
  function LowerChar(c: char): char {
    if 'A' <= c <= 'Z' || '\U{410}' <= c <= '\U{42F}' then (c as int + 32) as char
    else if '\U{400}' <= c <= '\U{40F}' then (c as int + 80) as char
    else c
  }

  function Lower(s: string): (r: string)
    ensures |r| == |s|
  {
    seq(|s|, i requires 0 <= i < |s| => LowerChar(s[i]))
  }

  /** Collapsing changes nothing in a text with no character of the class. */
  lemma {:induction false} CollapseRunsNone(s: string, p: char -> bool, c: char)
    requires forall i :: 0 <= i < |s| ==> !p(s[i])
    ensures CollapseRuns(s, p, c) == s
    decreases |s|
  {
    if |s| > 0 {
      assert forall i :: 0 <= i < |s| - 1 ==> s[1..][i] == s[i + 1];
      CollapseRunsNone(s[1..], p, c);
      assert [s[0]] + s[1..] == s;
    }
  }

  /** What `trim()` removes in front is white space. */
  lemma TrimPrefixBlank(s: string)
    ensures TrimStart(s) <= |s| && IsBlank(s[..TrimStart(s)])
  {
    var pre := s[..TrimStart(s)];
    DropWhileDrops(s, IsJsSpace);
    forall i | 0 <= i < |pre| ensures IsJsSpace(pre[i]) {
      assert pre[i] == s[i];
    }
  }

  /** What the trailing removal cuts off is white space. */
  lemma DropEndSuffixBlank(d: string)
    ensures IsBlank(d[|DropWhileEnd(d, IsJsSpace)|..])
  {
    var n := |DropWhileEnd(d, IsJsSpace)|;
    var e := d[n..];
    DropWhileEndDrops(d, IsJsSpace);
    forall i | 0 <= i < |e| ensures IsJsSpace(e[i]) {
      assert e[i] == d[n + i];
    }
  }

  /** What `trim()` removes behind is white space. */
  lemma TrimSuffixBlank(s: string)
    ensures TrimStart(s) + |Trim(s)| <= |s| && IsBlank(s[TrimStart(s) + |Trim(s)|..])
  {
    var d := DropWhile(s, IsJsSpace);
    var k, n := TrimStart(s), |Trim(s)|;
    assert n == |DropWhileEnd(d, IsJsSpace)| by {
      TrimUnfold(s);
    }
    DropEndSuffixBlank(d);
    assert d == s[k..];
    assert s[k + n..] == d[n..];
  }

  /** The input of `trim()` is what it removes in front, its result, and what it removes behind. */
  lemma TrimSplit(s: string)
    ensures TrimStart(s) + |Trim(s)| <= |s|
    ensures s == s[..TrimStart(s)] + Trim(s) + s[TrimStart(s) + |Trim(s)|..]
  {
    var k, n := TrimStart(s), |Trim(s)|;
    TrimIsSlice(s);
    assert s == s[..k] + s[k..k + n] + s[k + n..];
  }

  /**
   * `trim()` keeps exactly the text between a blank prefix and a blank suffix: the input is
   * white space, then the result, then white space.
   */
  lemma TrimPadding(s: string)
    ensures TrimStart(s) + |Trim(s)| <= |s|
    ensures s == s[..TrimStart(s)] + Trim(s) + s[TrimStart(s) + |Trim(s)|..]
    ensures IsBlank(s[..TrimStart(s)]) && IsBlank(s[TrimStart(s) + |Trim(s)|..])
  {
    TrimSplit(s);
    TrimPrefixBlank(s);
    TrimSuffixBlank(s);
  }
}

=== FILE: wrappers.dfy ===
/** The optional value used where the script reads a nullable DOM handle or attribute. */
module Wrappers {

  datatype Option<+T> = None | Some(value: T) {

    /** Returns the value held in Some, or the given default when None (the script's `x || d`). */
    function GetOr(default: T): T {
      match this
      case Some(v) => v
      case None => default
    }
  }
}
